=== FILE: README.md ===
# MOM6 parameter-file parser and writer, modelled in Dafny

`MOM6InputParser` reads a MOM6 parameter file (`MOM_input`,
`MOM_parameter_doc.all`) line by line. It recognises header banners
`! === NAME ===`, assignments `NAME = VALUE ! comment`, comment-only lines
that continue the previous parameter's comment, and the six block tokens
(`KPP%`, `%KPP`, ...). It builds two insertion-ordered dictionaries,
header -> parameter -> value and header -> parameter -> comment. It writes
them back as a new parameter file whose comments are aligned in a column.

The model is split into modules that follow the program's parts.

- `Options`, `Text` (text.dfy) hold the string primitives the code relies
  on. They cover Python's `strip`, `split`, `join`, substring `in`, and the
  `:<w` field padding of f-strings.
- `Document` (document.dfy) holds the two dictionaries as `parse_lines`
  builds them. The parser adds every header and every name to both at once
  (MOM6InputParser.py:57-58, :67-68), so they have the same keys in the same
  order: they are one ordered association list of sections, and each entry
  carries a value and a comment. It also defines `_initialise_header`, and
  the dictionary updates of `_save_current_param` (`Store`).
- `Classifier` (classifier.dfy) holds the line classifier of `parse_lines`.
  It tests, in order: the header regex (hand-coded, greedy, stopping at a
  line feed), a comment-only line, an assignment, a block token, and
  anything else.
- `Parser` (parser.dfy) holds the accumulator. The parser's mutable fields
  become a `State` record, and `parse_lines` becomes a fold over the lines
  followed by the final flush. Python's truthiness test on `current_var` is
  the predicate `Pending`.
- `Writer` (writer.dfy) holds `writefile_MOM_input` as a pure function of
  one such document. It returns the list of strings passed to `f.write`, for
  a given non-negative column width (default 32).
- `DictWriter` (dictwriter.dfy) holds the same writer over two dictionaries
  that a caller may have changed independently. The comment is looked up
  with `.get(var, "")`. The loop stops with a `KeyError` when `commt_dict`
  lacks a header that has parameters. It stops with a `ValueError` when a
  negative width meets a commented parameter. Over the dictionaries the
  parser builds, it writes exactly what `Writer.Write` writes.
- `Provenance` (provenance.dfy) proves where the keys of a parse come from.
  A header is a key exactly when some line is its banner. A name is a key
  under a header exactly when a parameter line with that name was read under
  it. Headers are listed in the order of their first banners.
- `Written` (written.dfy) says how the classifier reads each line the writer
  emits.
- `RoundTrip` (roundtrip.dfy) proves that reading back a written document
  gives the document again. This holds for documents whose keys, values and
  comments survive a trip through a line (`Written.SafeDoc`).
- `Counterexamples` (counterexamples.dfy) proves two of the ways the round
  trip fails without its condition. Parameters stored before the first
  header come back under the header text `"None"`. A one-line comment that
  starts with `!` is lost.
- `Fixture` (fixture.dfy) is the worked example of `test_MOM6InputParser.py`.
  It proves the exact dictionaries parsed from the ten input lines. It also
  proves the exact fifteen `write` calls made for them.

Three points about the writer and the round trip:

- The writer strips every comment line it writes, continuation lines
  included (MOM6InputParser.py:115, :119).
- The round trip treats the strings passed to `f.write` as the lines that
  `readlines` returns from the written file. Both files are opened in text
  mode (MOM6InputParser.py:27, :101), so reading ends a line at a line feed
  and also at a bare carriage return. `Written.SafeWriteLines` proves why
  the strings are the lines for safe documents: each string ends with its
  line feed and holds no other line break. A name or value holding a line
  feed or a carriage return, or a comment holding a carriage return, breaks
  this: it is written as one string but read back as two lines.
- `parse(write(D))` is not `D` for every document. `RoundTrip.ParseAfterWrite`
  proves it for documents satisfying `Written.SafeDoc`. Each conjunct of
  `SafeDoc` excludes a way the round trip can fail:
  - every header is present (not `None`), non-empty, stripped, and free of
    line breaks (line feeds and carriage returns);
  - every name is non-empty, stripped, free of `=` and line breaks, and does
    not start with `!`; an empty name is never stored (:62);
  - every value is stripped and free of `!` and line breaks, since a value
    is cut at the first `!` (:80);
  - every comment is free of carriage returns (the writer splits it only at
    its line feeds), and is empty, or stripped with a first line that is non-empty
    and free of `!`; every further line must be stripped and start with `!`,
    or it reads back as an assignment or a block, or as an unrecognised
    line that the parser drops;
  - a block token without a comment has an empty value, because it is
    written bare (:121-122);
  - headers, and names within each header, are distinct.

## Model

| member | source | states |
|---|---|---|
| Text.Split | MOM6InputParser.py:112 | `str.split` on one character: at least one piece; no piece contains the separator; two or more pieces exactly when the separator occurs |
| Text.JoinSplit | MOM6InputParser.py:112 | joining the pieces of a split with the separator gives the original string, so no comment text is lost by `comment.split("\n")` |
| Text.SplitJoin | MOM6InputParser.py:66 | splitting the `"\n".join` of separator-free pieces gives those pieces back |
| Text.StripPadded | MOM6InputParser.py:65-66 | `strip()` removes exactly the surrounding whitespace: a stripped string with any whitespace on either side strips back to itself |
| Text.Strip | MOM6InputParser.py:78 | `strip()` returns a string with no whitespace at either end, no longer than its input |
| Text.StripSlice | MOM6InputParser.py:89 | what `strip()` returns is a slice of the input with only whitespace before and after it |
| Text.StripStripped | MOM6InputParser.py:115 | `strip()` leaves a stripped string unchanged, so stripping twice is stripping once |
| Text.Join | MOM6InputParser.py:65-66 | `sep.join(parts)` starts with the first piece |
| Text.JoinLength | MOM6InputParser.py:66 | the joined string is as long as all the pieces plus one separator between each two |
| Text.Contains | MOM6InputParser.py:48 | the substring test `t in s` is true exactly when `t` occurs at some position of `s` |
| Text.PadRight | MOM6InputParser.py:115 | the field `f"{s:<{w}}"` is `s` followed by spaces up to width `w`, and a longer `s` is kept whole |
| Text.IndexOf | MOM6InputParser.py:77 | the position found is the first occurrence, and there is none exactly when the element is absent |
| Document.FindHeader | MOM6InputParser.py:56 | a header is found exactly when it is a key, and the position found holds that header |
| Document.EnsureHeader | MOM6InputParser.py:55-58 | after `_initialise_header` the header is a key; it is appended only if absent; what is stored under every header is unchanged, so a repeated header is not cleared; unique keys stay unique |
| Document.Put | MOM6InputParser.py:67-68 | storing under a present name overwrites it in place; a new name is appended; every other name's entry is unchanged; unique names stay unique |
| Document.Store | MOM6InputParser.py:63-68 | `_save_current_param`'s updates: the header is ensured; the entry under `(h, n)` becomes the new value and comment; nothing under another name or header changes; names are in order of first insertion |
| Document.StoreExtends | MOM6InputParser.py:56-58 | storing only extends a document: every header and every name keeps its position, and new keys come after the old ones |
| Document.StoreSameKeys | MOM6InputParser.py:67-68 | re-storing a name with other contents gives the same keys in the same order |
| Classifier.HeaderCapture | MOM6InputParser.py:5 | `^! === (.+) ===` as `.match`: a capture is non-empty, free of line feeds and followed by ` ===`; the capture returned is the longest one; there is none exactly when no capture exists |
| Classifier.Classify | MOM6InputParser.py:30-50 | the tests run in the code's order: a header exactly when the regex matches, named by the stripped capture; a comment is the stripped line starting with `!`; an assignment has an `=` and is not a comment; a block marker has no `=` and a block token, and is named by the stripped line; anything else has neither |
| Classifier.HasBlockToken | MOM6InputParser.py:22-24 | `block_pattern.search(line)`: some token of the list occurs anywhere in the line; such a line holds a `%` and has at least four characters |
| Classifier.TokenHasPercent | MOM6InputParser.py:6-13 | every block token is at least four characters long and begins or ends with `%`, so a line without `%` never matches |
| Classifier.SplitAssignment | MOM6InputParser.py:76-86 | `_parse_params` gives an assignment named by the stripped text before the `=`; with no `!` in the rest the inline comment is empty; otherwise neither value nor inline comment holds a `!` |
| Classifier.BangPieces | MOM6InputParser.py:80-83 | for a rest `VALUE ! INLINE ! ...`, the value is the stripped text before the first `!` and the inline comment the stripped text between the first and second `!` |
| Classifier.HeaderLine | MOM6InputParser.py:32-35 | a banner `! === NAME ===`, optionally followed by a line feed, is a header named by the stripped `NAME` |
| Classifier.CommentLine | MOM6InputParser.py:40-42 | a line that is not a banner and strips to text starting with `!` is a comment carrying that stripped text |
| Classifier.AssignmentLine | MOM6InputParser.py:76-86 | for `NAME = VALUE ! INLINE ! ...`: the name is the stripped text before the first `=`; the value is the stripped text up to the next `!`; the inline comment is the stripped text between that `!` and the following one |
| Classifier.AssignmentLineNoComment | MOM6InputParser.py:80-83 | an assignment with no `!` after its `=` has the stripped rest as value and an empty inline comment |
| Classifier.BlockLine | MOM6InputParser.py:40-48 | a line that is not a comment (its stripped text does not start with `!`), has no `=`, and contains a block token anywhere is a block marker named by the whole stripped line |
| Classifier.BlankLine | MOM6InputParser.py:31-50 | an all-whitespace line matches none of the four tests |
| Parser.Pending | MOM6InputParser.py:62 | Python's truthiness of `current_var`: a name is set and is not the empty string |
| Parser.Apply | MOM6InputParser.py:32-50 | one loop iteration: a header line moves the cursor to the header, with nothing pending and the header present; no other line changes the header; an assignment or block line flushes and makes its name pending; a comment line leaves the document and the pending name alone; a line that matches none of the tests changes nothing at all; unique keys stay unique |
| Parser.Flush | MOM6InputParser.py:60-68 | the flush leaves the cursor alone; with nothing pending the document is unchanged; otherwise it stores the joined-and-stripped value and comment under the current header and name, and touches nothing else |
| Parser.HeaderStep | MOM6InputParser.py:32-38 | a header line flushes, moves the cursor to the header with nothing pending, and makes the header present even with no parameters; a header already present keeps its parameters |
| Parser.CommentStep | MOM6InputParser.py:93-95 | a comment line appends its stripped text to the pending comment, and only when a parameter with a non-empty name is pending; nothing else changes |
| Parser.ParameterStep | MOM6InputParser.py:84-91 | an assignment or block line flushes and starts a new pending parameter: an assignment with its value and inline comment as fragments, a block line named by the stripped line with empty fragments |
| Parser.UnrecognizedStep | MOM6InputParser.py:31-50 | a line that matches none of the four tests changes no state, so it does not end the pending parameter |
| Parser.BlankStep | MOM6InputParser.py:31-50 | a blank line changes no state |
| Parser.CommentAfterBlank | MOM6InputParser.py:40-42 | a blank line does not end the pending parameter: a comment line after it still attaches |
| Parser.ParseByKinds | MOM6InputParser.py:30-53 | the parse of a file depends only on the kinds of its lines |
| Parser.RunExtends | MOM6InputParser.py:31-50 | over any run of lines the flushed document only grows by appending, and its keys stay unique |
| Parser.Parse | MOM6InputParser.py:30-53 | `parse_lines`: in the dictionaries it builds, headers are unique and names under each header are unique |
| Parser.ParsePrefixExtends | MOM6InputParser.py:52-53 | whatever is stored after any prefix of the lines, once flushed, is still in the final document at the same position |
| Parser.HeaderRetained | MOM6InputParser.py:55-58 | every header line's header is a key of the result, even when no parameter follows it |
| Parser.ParameterRetained | MOM6InputParser.py:60-68 | every parameter line with a non-empty name ends up stored under the header current when it was read, including the last one, which is flushed at end of input |
| Provenance.HeadersFromBanners | MOM6InputParser.py:55-63 | a header text is a key of the parse exactly when some line of the input is its banner |
| Provenance.NamesFromParameters | MOM6InputParser.py:60-68 | a name is a key under a header exactly when an assignment or block line with that non-empty name was read while that header was current |
| Provenance.NoneHeaderSource | MOM6InputParser.py:18 | the header key `None` is in the parse only when a parameter line with a non-empty name comes before every banner |
| Provenance.HeaderOrder | MOM6InputParser.py:55-58 | headers are listed in the order of their first banners: a header whose first banner follows a banner of another header is listed after it |
| Writer.WriteLines | MOM6InputParser.py:102-125 | when no header, name or value holds a line feed or a carriage return and no comment a carriage return, every string passed to `f.write` ends with a line feed and holds no other line break, so text-mode reading gives it back as one line of the file |
| Writer.Write | MOM6InputParser.py:97-125 | everything written starts with the three preamble lines, and each header adds at least its banner and a blank line |
| Writer.EntryLines | MOM6InputParser.py:109-124 | a commented parameter takes one line per comment line; an uncommented block token is written bare; any other uncommented parameter as `name = value` |
| Writer.CommentColumn | MOM6InputParser.py:113-116 | a commented parameter's first line is the binding, spaces up to column `width`, then ` ! ` and the stripped first comment line |
| Writer.ContinuationIndent | MOM6InputParser.py:117-120 | every further comment line is written as `width + 1` spaces and the stripped comment line |
| DictWriter.Lookup | MOM6InputParser.py:110 | a dictionary lookup finds a value exactly when the key is present, and the value found is stored under that key |
| DictWriter.LookupDistinct | MOM6InputParser.py:110 | with distinct keys, looking up a stored key returns its value |
| DictWriter.GetOr | MOM6InputParser.py:110 | `.get(var, "")` gives `""` for a missing name and the stored comment otherwise |
| DictWriter.ParamLines | MOM6InputParser.py:111-124 | a parameter's lines at a non-negative width are `Writer.EntryLines`; a negative width raises exactly when the comment is non-empty, and then nothing of the parameter is written |
| DictWriter.WriteSucceeds | MOM6InputParser.py:107-125 | the writer raises nothing exactly when every header with parameters is in `commt_dict` and, with a negative width, none of its parameters has a non-empty comment |
| DictWriter.MissingComment | MOM6InputParser.py:110 | a name missing from `commt_dict[header]` is written as if its comment were empty |
| DictWriter.MissingHeader | MOM6InputParser.py:110 | a header with parameters but no `commt_dict` entry raises `KeyError` right after its banner |
| DictWriter.NegativeWidth | MOM6InputParser.py:115 | with a negative width, an uncommented parameter is written normally, and a commented one raises after the banner is written |
| DictWriter.WriteTablesOfDoc | MOM6InputParser.py:107-110 | over the two dictionaries the parser builds from a well-formed document, the writer raises nothing and writes exactly `Writer.Write` |
| Written.PreambleInert | MOM6InputParser.py:102-106 | the three preamble lines, read back, leave the parser in its initial state |
| Written.HeaderBannerLine | MOM6InputParser.py:108 | a written banner reads back as its header |
| Written.CommentedFirstLine | MOM6InputParser.py:113-116 | the first line of a commented parameter reads back as an assignment with the name, the value and the first comment line |
| Written.ContinuationKind | MOM6InputParser.py:117-120 | each continuation line reads back as a comment line carrying its comment line |
| Written.PlainLine | MOM6InputParser.py:123-124 | an uncommented parameter's line reads back as an assignment with an empty inline comment |
| Written.BareBlockLine | MOM6InputParser.py:121-122 | a bare block token reads back as a block marker |
| Written.WriteKinds | MOM6InputParser.py:97-125 | everything written reads back as the preamble's kinds followed by, per header, the header, the parameters' kinds and a blank line |
| Written.SafeWriteLines | MOM6InputParser.py:97-125 | for a safe document, which holds no carriage return anywhere and line feeds only between the lines of a comment, every string written ends with its line feed and holds no other line break, so the strings written are exactly the lines text-mode `readlines` gets back from the file |
| RoundTrip.FlushedEntry | MOM6InputParser.py:65-66 | what the flush stores for the lines of a safe entry is that entry's value and comment |
| RoundTrip.CommentsRun | MOM6InputParser.py:93-95 | comment lines after a pending parameter extend its fragments with their texts, in order |
| RoundTrip.ReadEntry | MOM6InputParser.py:44-50 | reading a parameter's lines flushes the previous parameter and leaves this one pending with the fragments it was written from |
| RoundTrip.EntriesRun | MOM6InputParser.py:60-68 | reading a header's parameters one after another stores each one when the next begins |
| RoundTrip.SectionRun | MOM6InputParser.py:107-125 | the lines written for a new header, read back, append exactly that header's section |
| RoundTrip.SectionsRun | MOM6InputParser.py:107-125 | the lines written for a sequence of headers, read back, append exactly those sections |
| RoundTrip.ParseAfterWrite | MOM6InputParser.py:97-125 | parsing what the writer writes, at any width, gives back every safe document unchanged; the written strings stand for the file's lines, which `Written.SafeWriteLines` justifies |
| Counterexamples.NoneHeaderRenamed | MOM6InputParser.py:108 | parameters under the header key `None` are written under `! === None ===` and read back under the header text `"None"`, not under `None` |
| Counterexamples.NoneHeaderParameter | MOM6InputParser.py:18 | one parameter `A = 1` under the key `None` reads back under the header `"None"` |
| Counterexamples.LostLine | MOM6InputParser.py:82 | a written line whose one-line comment starts with `!` reads back with an empty inline comment |
| Counterexamples.LeadingBangCommentLost | MOM6InputParser.py:115 | a parameter whose one-line comment starts with `!` reads back with its comment lost |
| Fixture.UnterminatedBlockLine | test_MOM6InputParser.py:18 | a block token on a last line without a line feed is still a block marker |
| Fixture.TwoSectionsParse | MOM6InputParser.py:30-53 | two distinct headers, each followed by the lines of its parameters, parse to those two sections |
| Fixture.FixtureParsed | test_MOM6InputParser.py:8-45 | parsing the ten fixture lines gives exactly the expected value and comment dictionaries |
| Fixture.FixtureDictionaries | test_MOM6InputParser.py:58-63 | parsing the fixture builds exactly the test's `param_output` and `comment_output` dictionaries |
| Fixture.FixtureWrittenFromDictionaries | test_MOM6InputParser.py:66-108 | writing those two dictionaries, read independently, raises nothing and makes exactly the fifteen expected calls |
| Fixture.FixtureWritten | test_MOM6InputParser.py:90-106 | writing the expected dictionaries at the default width makes exactly the fifteen expected `write` calls |
| Fixture.FixtureEndToEnd | test_MOM6InputParser.py:90-106 | parsing the fixture and then writing the result makes exactly the expected calls |
| Fixture.ExpectedReadBack | test_MOM6InputParser.py:90-106 | the expected output, read back, gives the fixture's dictionaries again |

## Left out

- `read_input` and the `open`/`f.write` plumbing (MOM6InputParser.py:26-28, :101): file I/O. The input is the list of lines `readlines` returns. The writer returns the list of strings it writes.
- The `__main__` driver (MOM6InputParser.py:128-134): it only has hard-coded paths.
- The general regular-expression engine. The header pattern is hand-coded as `Classifier.HeaderCapture`, and the compiled alternation of escaped block tokens (MOM6InputParser.py:22-24) as a substring search for each token.
- Writer.Write: takes one merged document and a non-negative width. `DictWriter.WriteTables` covers what this leaves out: dictionaries changed independently, the `.get` default, the `KeyError`, and the `ValueError` for a negative width.
- DictWriter.WriteTables: returns the lines written before an exception and the exception, not the traceback. A dictionary is an association list; lookup takes the first pair with the key, and Python dictionaries never hold two.
- DictWriter.WriteTables: pads to any width. In Python a width above `sys.maxsize` makes the format at MOM6InputParser.py:115 and :119 raise `ValueError` ("Too many decimal digits"), and a width that fits but is very large raises `MemoryError`; neither is modelled, so `WriteSucceeds` promises success for such widths.
- Counterexamples.LeadingBangCommentLost: proves the loss for one-line comments only. With more lines, only the first line is lost (MOM6InputParser.py:82 cuts the inline comment, and :93-95 still appends the continuation lines); that case is not proved.
- Text.Strip: strips only ASCII whitespace (space, tab, line feed, carriage return, vertical tab, form feed, U+001C..U+001F), not the other Unicode spaces Python's `strip()` removes, such as U+00A0. Lines of such characters are outside the model.
- RoundTrip.ParseAfterWrite: holds only for documents satisfying `Written.SafeDoc`, because the code does not round-trip every document (see `Counterexamples`).
- RoundTrip.ParseAfterWrite: the file itself is not modelled. The parser is given the strings passed to `f.write` as its lines. For a safe document they are the lines `readlines` returns in text mode (`Written.SafeWriteLines`); for a name or value holding a line feed or a carriage return, or a comment holding a carriage return, they are not, and the model then reads back what the file would not. `SafeDoc` excludes these documents.
- The pytest and mock machinery of the tests and `test_read_input` (test_MOM6InputParser.py:48-56): only the fixture data and the expected calls are modelled.

=== FILE: classifier.dfy ===
/**
 The line classifier of `MOM6InputParser.parse_lines`: each raw line is a
 header banner, a comment-only line, an assignment, a block marker, or
 nothing the parser reacts to, tested in that order.
 */
module Classifier {
  import opened Options
  import opened Text

  /** The six block-delimiter tokens of `MOM6InputParser.block_list`. */
  const BlockList: seq<string> := [
    "KPP%", "%KPP",
    "CVMix_CONVECTION%", "%CVMix_CONVECTION",
    "CVMIX_DDIFF%", "%CVMIX_DDIFF"
  ]

  /** The fixed text that opens and closes a header banner. */
  const HeaderOpen: string := "! === "
  const HeaderClose: string := " ==="

  /** What one line means to the parser. */
  datatype LineKind =
    | Header(name: string)
    | Comment(text: string)
    | Assignment(name: string, value: string, inline: string)
    | BlockMarker(name: string)
    | Unrecognized

  /** The regex `^! === (.+) ===` matches `line` with a capture of length
      `k`: the line opens with `! === `, the `k` captured characters contain
      no line feed (`.` does not match it), and ` ===` follows them. */
  predicate CaptureAt(line: string, k: nat) {
    && k >= 1
    && |HeaderOpen| + k + |HeaderClose| <= |line|
    && line[..|HeaderOpen|] == HeaderOpen
    && '\n' !in line[|HeaderOpen|..|HeaderOpen| + k]
    && line[|HeaderOpen| + k..|HeaderOpen| + k + |HeaderClose|] == HeaderClose
  }

  predicate CloseAt(rest: string, j: nat) {
    j + |HeaderClose| <= |rest| && rest[j..j + |HeaderClose|] == HeaderClose
  }

  /** The largest `j` in `1..k` at which ` ===` starts, if any. */
  function LastCloseUpTo(rest: string, k: nat): (r: Option<nat>)
    requires k + |HeaderClose| <= |rest|
    ensures r.Some? ==> 1 <= r.value <= k && CloseAt(rest, r.value)
    ensures r.Some? ==> forall j: nat :: r.value < j <= k ==> !CloseAt(rest, j)
    ensures r.None? ==> forall j: nat :: 1 <= j <= k ==> !CloseAt(rest, j)
  {
    if k < 1 then None
    else if rest[k..k + |HeaderClose|] == HeaderClose then Some(k)
    else LastCloseUpTo(rest, k - 1)
  }

  /** Position of the first line feed in `s`, or `|s|` when there is none. */
  function LineEnd(s: string): (m: nat)
    ensures m <= |s| && '\n' !in s[..m]
    ensures m < |s| ==> s[m] == '\n'
  {
    match IndexOf(s, '\n')
    case None => |s|
    case Some(i) => i
  }

  /** The text captured by `header_pattern.match(line)`: since `.+` is
      greedy, the longest capture after which ` ===` follows on the same
      line. */
  function HeaderCapture(line: string): (r: Option<string>)
    ensures r.Some? ==> CaptureAt(line, |r.value|)
    ensures r.Some? ==> r.value == line[|HeaderOpen|..|HeaderOpen| + |r.value|]
    ensures r.Some? ==> forall k: nat :: k > |r.value| ==> !CaptureAt(line, k)
    ensures r.None? ==> forall k: nat :: !CaptureAt(line, k)
  {
    if |line| < |HeaderOpen| || line[..|HeaderOpen|] != HeaderOpen then None
    else
      var rest := line[|HeaderOpen|..];
      var m := LineEnd(rest);
      CapturesWithinLine(line, rest);
      if m < |HeaderClose| then None
      else
        match LastCloseUpTo(rest, m - |HeaderClose|)
        case None => None
        case Some(k) =>
          assert rest[..k] == rest[..m][..k];
          assert CaptureAt(line, k);
          Some(rest[..k])
  }

  lemma CapturesWithinLine(line: string, rest: string)
    requires |line| >= |HeaderOpen| && rest == line[|HeaderOpen|..]
    ensures forall k: nat :: CaptureAt(line, k) ==> k + |HeaderClose| <= LineEnd(rest) && CloseAt(rest, k)
  {
    forall k: nat | CaptureAt(line, k) ensures k + |HeaderClose| <= LineEnd(rest) && CloseAt(rest, k) {
      CaptureWithinLine(line, rest, k);
    }
  }

  /** A capture and the ` ===` after it lie before the first line feed. */
  lemma CaptureWithinLine(line: string, rest: string, k: nat)
    requires CaptureAt(line, k) && rest == line[|HeaderOpen|..]
    ensures k + |HeaderClose| <= LineEnd(rest) && CloseAt(rest, k)
  {
    var u := rest[..k + |HeaderClose|];
    assert u == line[|HeaderOpen|..|HeaderOpen| + k] + HeaderClose;
    assert '\n' !in u;
    var m := LineEnd(rest);
    if m < k + |HeaderClose| {
      assert false;
    }
  }

  /** `block_pattern.search(line)`: some block token occurs in the line. */
  predicate HasBlockToken(line: string)
    ensures HasBlockToken(line) ==> '%' in line && |line| >= 4
  {
    TokenHasPercent(line);
    exists t :: t in BlockList && Contains(line, t)
  }

  /** Every block token is at least four characters long and begins or ends
      with `%`, so only a line with a `%` can hold one. */
  lemma TokenHasPercent(line: string)
    ensures (exists t :: t in BlockList && Contains(line, t)) ==> '%' in line && |line| >= 4
  {
    if t :| t in BlockList && Contains(line, t) {
      var i: nat :| OccursAt(line, t, i);
      assert |t| >= 4 && (t[0] == '%' || t[|t| - 1] == '%');
      assert line[i..i + |t|] == t;
      if t[0] == '%' {
        assert line[i] == '%';
      } else {
        assert line[i + |t| - 1] == '%';
      }
    }
  }

  /** `_parse_params`: split at the first `=` into name and remainder, then
      the remainder at `!`; the inline comment is the piece between the first
      and the second `!` (`value.split("!")[1]`), not all that follows. */
  function SplitAssignment(pre: string, post: string): (k: LineKind)
    ensures k.Assignment? && k.name == Strip(pre)
    ensures '!' !in post ==> k.inline == ""
    ensures '!' in post ==> '!' !in k.value && '!' !in k.inline
  {
    var pieces := Split(post, '!');
    Assignment(Strip(pre), Strip(pieces[0]), if '!' in post then Strip(pieces[1]) else "")
  }

  /** The branch `parse_lines` takes for one line, in its order of tests. */
  function Classify(line: string): (k: LineKind)
    ensures k.Header? <==> HeaderCapture(line).Some?
    ensures k.Header? ==> k.name == Strip(HeaderCapture(line).value)
    ensures k.Comment? ==> k.text == Strip(line) && StartsWithBang(k.text)
    ensures k.Assignment? ==> '=' in line && !StartsWithBang(Strip(line))
    ensures k.BlockMarker? ==> '=' !in line && HasBlockToken(line) && k.name == Strip(line)
    ensures k.Unrecognized? ==> '=' !in line && !HasBlockToken(line) && !StartsWithBang(Strip(line))
  {
    match HeaderCapture(line)
    case Some(cap) => Header(Strip(cap))
    case None =>
      var t := Strip(line);
      if StartsWithBang(t) then Comment(t)
      else
        match IndexOf(line, '=')
        case Some(i) => SplitAssignment(line[..i], line[i + 1..])
        case None => if HasBlockToken(line) then BlockMarker(t) else Unrecognized
  }

  /** A banner is a comment once stripped, so a line that does not strip to
      something starting with `!` is never a header. */
  lemma NotCommentNotHeader(line: string)
    requires !StartsWithBang(Strip(line))
    ensures HeaderCapture(line).None?
  {
    if HeaderCapture(line).Some? {
      BannerIsBang(line);
      assert false;
    }
  }

  /** Only a line that starts with `!` can be a banner. */
  lemma NoBangNoHeader(line: string)
    requires line == [] || line[0] != '!'
    ensures HeaderCapture(line).None?
  {
  }

  /** A line whose third character is not `=` is not a banner. */
  lemma NotBannerThird(line: string)
    requires |line| > 2 && line[2] != '='
    ensures HeaderCapture(line).None?
  {
  }

  lemma BannerIsBang(line: string)
    requires HeaderCapture(line).Some?
    ensures StartsWithBang(Strip(line))
  {
    assert line[0] == HeaderOpen[0] == '!';
    assert [] + line == line;
    StripLeftSpaces([], line);
    var r := StripRight(line);
    assert !IsSpace(line[0]) && line[0..] == line;
    assert |r| > 0;
    assert r[0] == line[0];
  }

  /** The capture of a banner `! === NAME ===` that is followed by a line
      feed or by nothing is exactly `NAME`. */
  lemma HeaderCaptureOf(line: string, cap: string, tail: string)
    requires line == HeaderOpen + cap + HeaderClose + tail
    requires |cap| >= 1 && '\n' !in cap
    requires tail == [] || tail[0] == '\n'
    ensures HeaderCapture(line) == Some(cap)
  {
    var k := |cap|;
    var o := |HeaderOpen|;
    assert line[..o] == HeaderOpen;
    assert line[o..o + k] == cap;
    assert line[o + k..o + k + |HeaderClose|] == HeaderClose;
    assert CaptureAt(line, k);
    var r := HeaderCapture(line).value;
    var j := |r|;
    assert j >= k;
    if j > k {
      assert false;
    }
  }

  /** A banner line `! === NAME ===` (optionally followed by a line feed and
      more text) is a header named by the stripped `NAME`. */
  lemma HeaderLine(line: string, cap: string, tail: string)
    requires line == HeaderOpen + cap + HeaderClose + tail
    requires |cap| >= 1 && '\n' !in cap
    requires tail == [] || tail[0] == '\n'
    ensures Classify(line) == Header(Strip(cap))
  {
    HeaderCaptureOf(line, cap, tail);
  }

  /** Splitting `V!C` + `REST` at `!`, where `REST` is empty or starts with
      another `!`, gives `V` and `C` as its first two pieces. */
  lemma SplitAtBang(post: string, v: string, c: string, rest: string)
    requires post == v + "!" + c + rest
    requires '!' !in v && '!' !in c
    requires rest == [] || rest[0] == '!'
    ensures '!' in post
    ensures |Split(post, '!')| >= 2
    ensures Split(post, '!')[0] == v && Split(post, '!')[1] == c
  {
    var w := "!" + c + rest;
    assert post == v + w;
    assert post[|v|] == '!';
    SplitFirstPiece(v, w, '!');
    SecondPiece(c, rest);
  }

  /** After a `!`, the next piece runs up to the following `!`. */
  lemma SecondPiece(c: string, rest: string)
    requires '!' !in c
    requires rest == [] || rest[0] == '!'
    ensures Split(c + rest, '!')[0] == c
    ensures ("!" + c + rest)[1..] == c + rest
  {
    SplitFirstPiece(c, rest, '!');
    assert ("!" + c + rest)[1..] == c + rest;
  }

  /** The first `=` of `pre + "=" + post` is the one after `pre` when `pre`
      has none. */
  lemma FirstEquals(line: string, pre: string, post: string)
    requires line == pre + "=" + post
    requires '=' !in pre
    ensures IndexOf(line, '=') == Some(|pre|)
    ensures line[..|pre|] == pre && line[|pre| + 1..] == post
  {
    assert line[..|pre|] == pre;
    IndexOfUnique(line, '=', |pre|);
    assert line[|pre| + 1..] == post;
  }

  /** A line that is neither a banner nor a comment and has an `=` is split
      at its first `=`. */
  lemma AssignmentSplit(line: string, pre: string, post: string)
    requires line == pre + "=" + post
    requires '=' !in pre
    requires !StartsWithBang(Strip(line))
    ensures Classify(line) == SplitAssignment(pre, post)
  {
    hide HeaderCapture, Strip, SplitAssignment, HasBlockToken;
    NotCommentNotHeader(line);
    FirstEquals(line, pre, post);
  }

  /** An assignment `NAME = VALUE ! INLINE ! ...`: the name is the stripped
      text before the first `=`, the value the stripped text up to the next
      `!`, the inline comment the stripped text up to the `!` after that. */
  lemma AssignmentLine(line: string, pre: string, v: string, c: string, rest: string)
    requires line == pre + "=" + v + "!" + c + rest
    requires '=' !in pre && '!' !in v && '!' !in c
    requires rest == [] || rest[0] == '!'
    requires !StartsWithBang(Strip(line))
    ensures Classify(line) == Assignment(Strip(pre), Strip(v), Strip(c))
  {
    hide *;
    var post := v + "!" + c + rest;
    assert line == pre + "=" + post;
    AssignmentSplit(line, pre, post);
    BangPieces(pre, post, v, c, rest);
  }

  /** The assignment read from `pre` and `V!C` + `REST`. */
  lemma BangPieces(pre: string, post: string, v: string, c: string, rest: string)
    requires post == v + "!" + c + rest
    requires '!' !in v && '!' !in c
    requires rest == [] || rest[0] == '!'
    ensures SplitAssignment(pre, post) == Assignment(Strip(pre), Strip(v), Strip(c))
  {
    SplitAtBang(post, v, c, rest);
  }

  /** An assignment without `!` after its `=` has an empty inline comment. */
  lemma AssignmentLineNoComment(line: string, pre: string, post: string)
    requires line == pre + "=" + post
    requires '=' !in pre && '!' !in post
    requires !StartsWithBang(Strip(line))
    ensures Classify(line) == Assignment(Strip(pre), Strip(post), "")
  {
    AssignmentSplit(line, pre, post);
    SplitNoSeparator(post, '!');
  }

  /** A line with no `=` that contains a block token anywhere is a block
      marker named by the whole stripped line. */
  lemma BlockLine(line: string, token: string)
    requires token in BlockList && Contains(line, token)
    requires '=' !in line
    requires !StartsWithBang(Strip(line))
    ensures Classify(line) == BlockMarker(Strip(line))
  {
    NotCommentNotHeader(line);
  }

  /** A comment-only line is classified by its stripped text. */
  lemma CommentLine(line: string)
    requires StartsWithBang(Strip(line))
    requires HeaderCapture(line).None?
    ensures Classify(line) == Comment(Strip(line))
  {
  }

  /** Blank (all-whitespace) lines match no class. */
  lemma BlankLine(line: string)
    requires AllSpace(line)
    ensures Classify(line) == Unrecognized
  {
    hide HeaderCapture, SplitAssignment, Strip, StripLeft, StripRight, Contains;
    assert Strip(line) == [] by {
      assert line == line + [] + [];
      assert Stripped([]);
      StripPadded(line, [], []);
    }
    NotCommentNotHeader(line);
    assert '=' !in line && '%' !in line;
  }
}

=== FILE: counterexamples.dfy ===
/**
 Two of the kinds of document, among those `Written.SafeDoc` excludes, that
 the writer cannot round-trip. A header key `None` (the parameters stored
 before the first header) is written as the banner
 `! === None ===`, which reads back as the header text "None". A one-line
 comment that starts with `!` is written after the inline ` ! `, so the
 written line has two `!` with nothing between them, and it reads back as
 an empty inline comment: the comment is lost.
 */
module Counterexamples {
  import opened Options
  import opened Text
  import opened Document
  import opened Classifier
  import opened Parser
  import opened Writer
  import opened Written
  import opened RoundTrip

  /** The parameters stored before any header come back under the header
      text "None": their lines are the same as those of a header named
      "None". */
  lemma NoneHeaderRenamed(es: seq<Entry>, width: nat)
    requires SafeDoc([Section(Some("None"), es)])
    ensures Parse(Write([Section(None, es)], width)) == [Section(Some("None"), es)]
    ensures Parse(Write([Section(None, es)], width)) != [Section(None, es)]
  {
    assert HeaderBanner(None) == HeaderBanner(Some("None"));
    SectionsLinesOne(Section(None, es), width);
    SectionsLinesOne(Section(Some("None"), es), width);
    ParseAfterWrite([Section(Some("None"), es)], width);
  }

  /** One parameter before any header is enough. */
  lemma NoneHeaderParameter()
    ensures Parse(Write([Section(None, [Entry("A", "1", "")])], DefaultWidth))
      == [Section(Some("None"), [Entry("A", "1", "")])]
  {
    var e := Entry("A", "1", "");
    var d := [Section(Some("None"), [e])];
    assert "A" !in BlockList;
    assert SafeEntry(e);
    assert SafeSection(d[0]);
    assert Headers(d) == [Some("None")];
    assert Names(d[0].entries) == ["A"];
    NoneHeaderRenamed([e], DefaultWidth);
  }

  /** How the written line of a comment starting with `!` splits into the
      pieces of an assignment. */
  lemma LostShape(line: string, n: string, v: string, pad: string, c: string)
    requires line == n + " = " + v + pad + " ! " + c + "\n"
    requires '=' !in n && '!' !in v && AllSpace(pad) && c != [] && c[0] == '!'
    ensures line == (n + " ") + "=" + (" " + v + (pad + " ")) + "!" + " " + (c + "\n")
    ensures '=' !in n + " " && '!' !in " " + v + (pad + " ")
    ensures (c + "\n")[0] == '!'
    ensures |line| >= |n| && line[..|n|] == n
  {
  }

  /** The line written for such a comment reads back with an empty inline
      comment. */
  lemma LostLine(e: Entry, width: nat)
    requires SafeName(e.name) && SafeValue(e.value)
    requires SafeContinuation(e.comment) && '\n' !in e.comment
    ensures Classify(FirstCommentLine(e, width)) == Assignment(e.name, e.value, "")
  {
    var n := e.name;
    var c := e.comment;
    var line := FirstCommentLine(e, width);
    SplitNoSeparator(c, '\n');
    StripStripped(c);
    var pad := PadSplit(Binding(e), width);
    assert line == n + " = " + e.value + pad + " ! " + c + "\n";
    LostShape(line, n, e.value, pad, c);
    NameFirst(line, n);
    AssignmentLine(line, n + " ", " " + e.value + (pad + " "), " ", c + "\n");
    NameSpaceStrips(n);
    ValuePadStrips(e.value, pad);
    BlankSpaceStrips();
  }

  lemma BlankSpaceStrips()
    ensures Strip(" ") == ""
  {
    assert " " == " " + [] + [];
    StripPadded(" ", [], []);
  }

  lemma LostKinds(e: Entry, width: nat)
    requires SafeName(e.name) && SafeValue(e.value) && e.name !in BlockList
    requires SafeContinuation(e.comment) && '\n' !in e.comment
    ensures Kinds(EntryLines(e, width)) == Kinds(EntryLines(e.(comment := ""), width))
  {
    SplitNoSeparator(e.comment, '\n');
    CommentedEntryLines(e, width);
    assert EntryLines(e, width) == [FirstCommentLine(e, width)];
    LostLine(e, width);
    KindsSingle(FirstCommentLine(e, width), Assignment(e.name, e.value, ""));
    PlainKinds(e.(comment := ""), width);
  }

  /** The lines written for one header with one parameter. */
  lemma WriteOne(h: string, e: Entry, width: nat)
    ensures Write([Section(Some(h), [e])], width)
      == (Banner + [HeaderBanner(Some(h))]) + EntryLines(e, width) + ["\n"]
  {
    var s := Section(Some(h), [e]);
    var m := EntryLines(e, width);
    EntriesLinesOne(e, width);
    SectionsLinesOne(s, width);
    Regroup(Banner, HeaderBanner(Some(h)), m, ["\n"]);
  }

  lemma Regroup(a: seq<string>, x: string, m: seq<string>, b: seq<string>)
    ensures a + ([x] + m + b) == (a + [x]) + m + b
  {
  }

  lemma SameKindsAround(a: seq<string>, x: seq<string>, y: seq<string>, b: seq<string>)
    requires Kinds(x) == Kinds(y)
    ensures Kinds(a + x + b) == Kinds(a + y + b)
  {
    KindsAppend(a + x, b);
    KindsAppend(a, x);
    KindsAppend(a + y, b);
    KindsAppend(a, y);
  }

  /** A one-line comment that starts with `!` is lost on the way back. */
  lemma LeadingBangCommentLost(h: string, e: Entry, width: nat)
    requires SafeHeader(h) && SafeName(e.name) && SafeValue(e.value) && e.name !in BlockList
    requires SafeContinuation(e.comment) && '\n' !in e.comment
    ensures Parse(Write([Section(Some(h), [e])], width)) == [Section(Some(h), [e.(comment := "")])]
  {
    hide *;
    var e' := e.(comment := "");
    var d' := [Section(Some(h), [e'])];
    LostKinds(e, width);
    WriteOne(h, e, width);
    WriteOne(h, e', width);
    SameKindsAround(Banner + [HeaderBanner(Some(h))], EntryLines(e, width), EntryLines(e', width), ["\n"]);
    ParseByKinds(Write([Section(Some(h), [e])], width), Write(d', width));
    UncommentedSafe(h, e);
    ParseAfterWrite(d', width);
  }

  /** The same parameter with its comment removed is safe to write. */
  lemma UncommentedSafe(h: string, e: Entry)
    requires SafeHeader(h) && SafeName(e.name) && SafeValue(e.value) && e.name !in BlockList
    ensures SafeDoc([Section(Some(h), [e.(comment := "")])])
  {
    var e' := e.(comment := "");
    var d' := [Section(Some(h), [e'])];
    assert SafeEntry(e');
    assert SafeSection(d'[0]);
    assert Headers(d') == [Some(h)];
    assert Names(d'[0].entries) == [e.name];
  }
}

=== FILE: dictwriter.dfy ===
/**
 `writefile_MOM_input` over the two dictionaries as a caller may hold them.
 `param_dict` and `commt_dict` are read independently: the headers and names
 come from `param_dict`, and each comment is `commt_dict[header].get(var, "")`.
 The loop can stop with an exception: a `KeyError` when `commt_dict` lacks a
 header that has parameters, or a `ValueError` when a negative `total_width`
 meets a commented parameter. Over the two dictionaries the parser builds, it
 writes exactly `Writer.Write`.
 */
module DictWriter {
  import opened Options
  import opened Text
  import opened Document
  import opened Writer
  import opened Classifier

  /** One header's dictionary: names to strings, in insertion order. */
  type Pairs = seq<(string, string)>

  /** A dictionary of dictionaries: header -> (name -> string). */
  type Table = seq<(Option<string>, Pairs)>

  /** The exceptions the writing loop can raise. */
  datatype WriteError =
    | KeyError(key: Option<string>)
      /** `format` refuses a negative width: "Sign not allowed in string
          format specifier". */
    | SignNotAllowed

  /** What reaches the file: the lines written before the loop stopped, and
      the exception that stopped it, if any. */
  datatype Outcome = Outcome(written: seq<string>, error: Option<WriteError>)

  /** Lines written before `o`'s lines. */
  function After(ls: seq<string>, o: Outcome): Outcome {
    Outcome(ls + o.written, o.error)
  }

  function Keys<K, V>(s: seq<(K, V)>): (r: seq<K>)
    ensures |r| == |s| && forall i :: 0 <= i < |s| ==> r[i] == s[i].0
  {
    seq(|s|, i requires 0 <= i < |s| => s[i].0)
  }

  /** `s[k]` for a dictionary held as an association list: the value of the
      first pair with key `k`. */
  function Lookup<K(==), V>(s: seq<(K, V)>, k: K): (r: Option<V>)
    ensures r.None? <==> k !in Keys(s)
    ensures r.Some? ==> (k, r.value) in s
  {
    match IndexOf(Keys(s), k)
    case None => None
    case Some(i) => Some(s[i].1)
  }

  /** In a dictionary, whose keys are distinct, the value stored under a key
      is the one lookup returns. */
  lemma LookupDistinct<K, V>(s: seq<(K, V)>, i: nat)
    requires Distinct(Keys(s)) && i < |s|
    ensures Lookup(s, s[i].0) == Some(s[i].1)
  {
    var ks := Keys(s);
    assert s[i].0 !in ks[..i] by {
      forall j | 0 <= j < i ensures ks[..i][j] != s[i].0 {
        assert ks[j] != ks[i];
      }
    }
    IndexOfUnique(ks, s[i].0, i);
  }

  /** `d.get(k, "")`. */
  function GetOr(p: Pairs, k: string): (r: string)
    ensures k !in Keys(p) ==> r == ""
    ensures k in Keys(p) ==> (k, r) in p
  {
    match Lookup(p, k)
    case None => ""
    case Some(v) => v
  }

  /** `param_dict` as the parser builds it from a document. */
  function ValueTable(d: Doc): (r: Table)
    ensures |r| == |d| && Keys(r) == Headers(d)
    ensures forall i :: 0 <= i < |d| ==> r[i].1 == ValueMap(d[i])
  {
    seq(|d|, i requires 0 <= i < |d| => (d[i].header, ValueMap(d[i])))
  }

  /** `commt_dict` as the parser builds it from a document. */
  function CommentTable(d: Doc): (r: Table)
    ensures |r| == |d| && Keys(r) == Headers(d)
    ensures forall i :: 0 <= i < |d| ==> r[i].1 == CommentMap(d[i])
  {
    seq(|d|, i requires 0 <= i < |d| => (d[i].header, CommentMap(d[i])))
  }

  /** The lines of one parameter with comment `c`. Formatting the padded
      binding comes first, so a negative width fails before anything of this
      parameter is written; without a comment no width is used. */
  function ParamLines(name: string, value: string, c: string, width: int): (r: Outcome)
    ensures r.error.Some? <==> c != "" && width < 0
    ensures r.error.Some? ==> r == Outcome([], Some(SignNotAllowed))
    ensures width >= 0 ==> r == Outcome(EntryLines(Entry(name, value, c), width), None)
  {
    if c != "" && width < 0 then Outcome([], Some(SignNotAllowed))
    else Outcome(EntryLines(Entry(name, value, c), if width < 0 then 0 else width), None)
  }

  /** The inner loop over one header's parameters. `cs` is
      `commt_dict[header]`, absent when the header is not a key; it is looked
      up only once a parameter is written. */
  function PairsLines(h: Option<string>, ps: Pairs, cs: Option<Pairs>, width: int): Outcome
    decreases |ps|
  {
    if ps == [] then Outcome([], None)
    else if cs.None? then Outcome([], Some(KeyError(h)))
    else
      var o := ParamLines(ps[0].0, ps[0].1, GetOr(cs.value, ps[0].0), width);
      if o.error.Some? then o else After(o.written, PairsLines(h, ps[1..], cs, width))
  }

  /** The outer loop: per header its banner, its parameters and a blank line. */
  function TableLines(ps: Table, cs: Table, width: int): Outcome
    decreases |ps|
  {
    if ps == [] then Outcome([], None)
    else
      var h := ps[0].0;
      var o := PairsLines(h, ps[0].1, Lookup(cs, h), width);
      After([HeaderBanner(h)], if o.error.Some? then o else After(o.written + ["\n"], TableLines(ps[1..], cs, width)))
  }

  /** Everything `writefile_MOM_input(path, width)` writes from `param_dict`
      `ps` and `commt_dict` `cs`, and the exception it ends with, if any. */
  function WriteTables(ps: Table, cs: Table, width: int): Outcome {
    After(Banner, TableLines(ps, cs, width))
  }

  /** Header `h` with parameters `vs` can be written: if it has parameters,
      `commt_dict` has the header, and with a negative width none of them has
      a non-empty comment. */
  predicate HeaderWritable(h: Option<string>, vs: Pairs, cs: Table, width: int) {
    vs != [] ==>
      && Lookup(cs, h).Some?
      && (width < 0 ==> forall j :: 0 <= j < |vs| ==> GetOr(Lookup(cs, h).value, vs[j].0) == "")
  }

  /** Every header of `param_dict` can be written. */
  predicate Writable(ps: Table, cs: Table, width: int) {
    forall i :: 0 <= i < |ps| ==> HeaderWritable(ps[i].0, ps[i].1, cs, width)
  }

  lemma {:induction false} PairsSucceed(h: Option<string>, vs: Pairs, cs: Table, width: int)
    ensures PairsLines(h, vs, Lookup(cs, h), width).error.None? <==> HeaderWritable(h, vs, cs, width)
    decreases |vs|
  {
    if vs != [] && Lookup(cs, h).Some? {
      PairsSucceed(h, vs[1..], cs, width);
      if width < 0 && GetOr(Lookup(cs, h).value, vs[0].0) == "" {
        forall j | 0 <= j < |vs[1..]| ensures vs[1..][j].0 == vs[j + 1].0 { }
      }
    }
  }

  lemma WritableCons(ps: Table, cs: Table, width: int)
    requires ps != []
    ensures Writable(ps, cs, width) <==> HeaderWritable(ps[0].0, ps[0].1, cs, width) && Writable(ps[1..], cs, width)
  {
    hide HeaderWritable;
    if HeaderWritable(ps[0].0, ps[0].1, cs, width) && Writable(ps[1..], cs, width) {
      forall i | 0 <= i < |ps| ensures HeaderWritable(ps[i].0, ps[i].1, cs, width) {
        if i > 0 { assert ps[i] == ps[1..][i - 1]; }
      }
    }
  }

  lemma {:induction false} TableSucceeds(ps: Table, cs: Table, width: int)
    ensures TableLines(ps, cs, width).error.None? <==> Writable(ps, cs, width)
    decreases |ps|
  {
    if ps != [] {
      hide Writable, HeaderWritable, PairsLines;
      PairsSucceed(ps[0].0, ps[0].1, cs, width);
      TableSucceeds(ps[1..], cs, width);
      WritableCons(ps, cs, width);
    }
  }

  /** The writer finishes without an exception exactly when every header of
      `param_dict` is `HeaderWritable`. */
  lemma WriteSucceeds(ps: Table, cs: Table, width: int)
    ensures WriteTables(ps, cs, width).error.None? <==>
      forall i :: 0 <= i < |ps| ==> HeaderWritable(ps[i].0, ps[i].1, cs, width)
  {
    TableSucceeds(ps, cs, width);
  }

  /** A parameter missing from `commt_dict[h]` is written as if its comment
      were empty: bare when it is a block token, `name = value` otherwise. */
  lemma MissingComment(h: Option<string>, name: string, value: string, cs: Pairs, width: int)
    requires name !in Keys(cs)
    ensures PairsLines(h, [(name, value)], Some(cs), width)
      == Outcome(if name in BlockList then [name + "\n"] else [name + " = " + value + "\n"], None)
  {
    assert [(name, value)][1..] == [];
  }

  /** A header with parameters but no `commt_dict` entry stops the writer
      right after its banner. */
  lemma MissingHeader(h: Option<string>, ps: Pairs, cs: Table, width: int)
    requires ps != [] && h !in Keys(cs)
    ensures TableLines([(h, ps)], cs, width) == Outcome([HeaderBanner(h)], Some(KeyError(h)))
  {
  }

  /** A negative width is harmless until a commented parameter is written,
      which then raises after everything before it is on the file. */
  lemma NegativeWidth()
    ensures WriteTables([(Some("H"), [("A", "1")])], [(Some("H"), [("A", "")])], -1)
      == Outcome(Banner + [HeaderBanner(Some("H")), "A = 1\n", "\n"], None)
    ensures WriteTables([(Some("H"), [("A", "1")])], [(Some("H"), [("A", "c")])], -1)
      == Outcome(Banner + [HeaderBanner(Some("H"))], Some(SignNotAllowed))
  {
    var ps: Table := [(Some("H"), [("A", "1")])];
    assert "A" !in BlockList;
    assert Binding(Entry("A", "1", "")) + "\n" == "A = 1\n";
    assert ps[1..] == [];
    assert [("A", "1")][1..] == [];
    assert Lookup([(Some("H"), [("A", "")])], Some("H")) == Some([("A", "")]) by {
      LookupDistinct([(Some("H"), [("A", "")])], 0);
    }
    assert Lookup([(Some("H"), [("A", "c")])], Some("H")) == Some([("A", "c")]) by {
      LookupDistinct([(Some("H"), [("A", "c")])], 0);
    }
    assert GetOr([("A", "")], "A") == "" by { LookupDistinct([("A", "")], 0); }
    assert GetOr([("A", "c")], "A") == "c" by { LookupDistinct([("A", "c")], 0); }
  }

  /** Over the dictionaries of one well-formed section, the inner loop writes
      the section's parameters. */
  lemma {:induction false} SectionPairs(s: Section, j: nat, width: nat)
    requires Distinct(Names(s.entries)) && j <= |s.entries|
    ensures PairsLines(s.header, ValueMap(s)[j..], Some(CommentMap(s)), width)
      == Outcome(EntriesLines(s.entries[j..], width), None)
    decreases |s.entries| - j
  {
    var vs := ValueMap(s)[j..];
    if j < |s.entries| {
      var e := s.entries[j];
      assert Keys(CommentMap(s)) == Names(s.entries);
      LookupDistinct(CommentMap(s), j);
      assert vs[0] == (e.name, e.value);
      assert vs[1..] == ValueMap(s)[j + 1..];
      assert s.entries[j..][0] == e && s.entries[j..][1..] == s.entries[j + 1..];
      SectionPairs(s, j + 1, width);
    } else {
      assert s.entries[j..] == [];
    }
  }

  lemma SectionsLinesAt(d: Doc, k: nat, width: nat)
    requires k < |d|
    ensures SectionsLines(d[k..], width)
      == [HeaderBanner(d[k].header)] + EntriesLines(d[k].entries, width) + ["\n"] + SectionsLines(d[k + 1..], width)
  {
    assert d[k..][0] == d[k] && d[k..][1..] == d[k + 1..];
  }

  lemma TableLinesStep(ps: Table, cs: Table, width: int, ls: seq<string>)
    requires ps != [] && PairsLines(ps[0].0, ps[0].1, Lookup(cs, ps[0].0), width) == Outcome(ls, None)
    ensures TableLines(ps, cs, width) == After([HeaderBanner(ps[0].0)] + ls + ["\n"], TableLines(ps[1..], cs, width))
  {
    hide PairsLines, HeaderBanner;
    var rest := TableLines(ps[1..], cs, width);
    assert [HeaderBanner(ps[0].0)] + (ls + ["\n"] + rest.written) == [HeaderBanner(ps[0].0)] + ls + ["\n"] + rest.written;
  }

  /** Header `k`'s parameters, looked up in the two dictionaries, are written
      as the section's entries. */
  lemma SectionPairsAt(d: Doc, k: nat, width: nat)
    requires WellFormed(d) && k < |d|
    ensures ValueTable(d)[k..][0] == (d[k].header, ValueMap(d[k]))
    ensures ValueTable(d)[k..][1..] == ValueTable(d)[k + 1..]
    ensures PairsLines(d[k].header, ValueMap(d[k]), Lookup(CommentTable(d), d[k].header), width)
      == Outcome(EntriesLines(d[k].entries, width), None)
  {
    hide PairsLines, EntriesLines, ValueMap, CommentMap, Lookup;
    LookupDistinct(CommentTable(d), k);
    assert d[k].entries[0..] == d[k].entries && ValueMap(d[k])[0..] == ValueMap(d[k]);
    SectionPairs(d[k], 0, width);
  }

  lemma {:induction false} SectionsTables(d: Doc, k: nat, width: nat)
    requires WellFormed(d) && k <= |d|
    ensures TableLines(ValueTable(d)[k..], CommentTable(d), width) == Outcome(SectionsLines(d[k..], width), None)
    decreases |d| - k
  {
    if k < |d| {
      hide *;
      SectionPairsAt(d, k, width);
      TableLinesStep(ValueTable(d)[k..], CommentTable(d), width, EntriesLines(d[k].entries, width));
      SectionsTables(d, k + 1, width);
      SectionsLinesAt(d, k, width);
    } else {
      assert d[k..] == [] && ValueTable(d)[k..] == [];
    }
  }

  /** Over the two dictionaries the parser builds from a document, the writer
      raises nothing and writes exactly `Writer.Write` of that document. */
  lemma WriteTablesOfDoc(d: Doc, width: nat)
    requires WellFormed(d)
    ensures WriteTables(ValueTable(d), CommentTable(d), width) == Outcome(Write(d, width), None)
  {
    SectionsTables(d, 0, width);
    assert ValueTable(d)[0..] == ValueTable(d) && d[0..] == d;
  }
}

=== FILE: document.dfy ===
/**
 The parsed document: the parser's `param_dict` and `commt_dict`, two
 insertion-ordered dictionaries header -> parameter -> string. Both are
 always updated together (a header is added to both at once, a parameter is
 stored into both at once), so their keys and key orders coincide; the model
 keeps them as one ordered association list whose entries carry the value
 and the comment side by side. `ValueMap` and `CommentMap` recover the two
 dictionaries.
 */
module Document {
  import opened Options
  import opened Text

  /** One stored parameter: its name, value and (possibly multi-line) comment. */
  datatype Entry = Entry(name: string, value: string, comment: string)

  /** A header and its parameters, in insertion order. The header is `None`
      for parameters met before the first header line. */
  datatype Section = Section(header: Option<string>, entries: seq<Entry>)

  type Doc = seq<Section>

  /** The header keys, in dictionary order. */
  function Headers(d: Doc): seq<Option<string>> {
    seq(|d|, i requires 0 <= i < |d| => d[i].header)
  }

  /** The parameter names of one section, in dictionary order. */
  function Names(es: seq<Entry>): seq<string> {
    seq(|es|, i requires 0 <= i < |es| => es[i].name)
  }

  /** Position of header `h`, if present. */
  function FindHeader(d: Doc, h: Option<string>): (r: Option<nat>)
    ensures r.None? <==> h !in Headers(d)
    ensures r.Some? ==> r.value < |d| && d[r.value].header == h
  {
    IndexOf(Headers(d), h)
  }

  /** The entry stored under name `n`, if any. */
  function FindEntry(es: seq<Entry>, n: string): (r: Option<Entry>)
    ensures r.None? <==> n !in Names(es)
    ensures r.Some? ==> r.value in es && r.value.name == n
  {
    match IndexOf(Names(es), n)
    case None => None
    case Some(i) => Some(es[i])
  }

  /** The parameter names under header `h` (`[]` when the header is absent). */
  function NamesOf(d: Doc, h: Option<string>): seq<string> {
    match FindHeader(d, h)
    case None => []
    case Some(i) => Names(d[i].entries)
  }

  /** `param_dict[h][n]` and `commt_dict[h][n]` together, if both keys exist. */
  function Get(d: Doc, h: Option<string>, n: string): Option<Entry> {
    match FindHeader(d, h)
    case None => None
    case Some(i) => FindEntry(d[i].entries, n)
  }

  lemma GetInNames(d: Doc, h: Option<string>, n: string)
    requires Get(d, h, n).Some?
    ensures n in NamesOf(d, h)
  {
  }

  /** Dictionary keys are unique: headers, and names within each header. */
  predicate WellFormed(d: Doc) {
    && Distinct(Headers(d))
    && forall i :: 0 <= i < |d| ==> Distinct(Names(d[i].entries))
  }

  /** `d2` was obtained from `d1` by insertion and overwriting only: every
      header and every name keeps its position, new keys come after old ones,
      and nothing stored disappears. */
  ghost predicate Extends(d1: Doc, d2: Doc) {
    && IsPrefixOf(Headers(d1), Headers(d2))
    && forall h :: IsPrefixOf(NamesOf(d1, h), NamesOf(d2, h))
  }

  /** Adding a header or storing a parameter only ever extends a document. */
  lemma EnsureHeaderExtends(d: Doc, h: Option<string>)
    ensures Extends(d, EnsureHeader(d, h))
  {
    var r := EnsureHeader(d, h);
    PrefixOfAppend(Headers(d), if h in Headers(d) then [] else [h]);
    forall h' ensures IsPrefixOf(NamesOf(d, h'), NamesOf(r, h')) {
      assert NamesOf(r, h') == NamesOf(d, h');
    }
  }

  lemma StoreExtends(d: Doc, h: Option<string>, n: string, v: string, c: string)
    ensures Extends(d, Store(d, h, n, v, c))
  {
    hide Store;
    PrefixOfAppend(Headers(d), if h in Headers(d) then [] else [h]);
    forall h' ensures IsPrefixOf(NamesOf(d, h'), NamesOf(Store(d, h, n, v, c), h')) {
      StoreNamesPrefix(d, h, n, v, c, h');
    }
  }

  lemma StoreNamesPrefix(d: Doc, h: Option<string>, n: string, v: string, c: string, h': Option<string>)
    ensures IsPrefixOf(NamesOf(d, h'), NamesOf(Store(d, h, n, v, c), h'))
  {
    hide Store;
    var r := Store(d, h, n, v, c);
    var before := NamesOf(d, h');
    if h' == h && n !in before {
      PrefixOfAppend(before, [n]);
    } else {
      assert NamesOf(r, h') == before;
    }
  }

  lemma ExtendsReflexive(d: Doc)
    ensures Extends(d, d)
  {
  }

  /** Storing under the same key twice, with different contents, gives
      documents with the same keys in the same order. */
  lemma StoreSameKeys(d: Doc, h: Option<string>, n: string, v: string, c: string, v': string, c': string)
    ensures Extends(Store(d, h, n, v, c), Store(d, h, n, v', c'))
  {
    hide Store;
    var r1 := Store(d, h, n, v, c);
    var r2 := Store(d, h, n, v', c');
    forall h' ensures NamesOf(r1, h') == NamesOf(r2, h') {
      StoreSameNames(d, h, n, v, c, v', c', h');
    }
    SameKeysExtend(r1, r2);
  }

  lemma SameKeysExtend(d1: Doc, d2: Doc)
    requires Headers(d1) == Headers(d2)
    requires forall h :: NamesOf(d1, h) == NamesOf(d2, h)
    ensures Extends(d1, d2)
  {
  }

  lemma StoreSameNames(d: Doc, h: Option<string>, n: string, v: string, c: string, v': string, c': string, h': Option<string>)
    ensures NamesOf(Store(d, h, n, v, c), h') == NamesOf(Store(d, h, n, v', c'), h')
  {
    hide Store;
    if h' != h {
      assert NamesOf(Store(d, h, n, v, c), h') == NamesOf(d, h');
    }
  }

  lemma ExtendsTransitive(d1: Doc, d2: Doc, d3: Doc)
    requires Extends(d1, d2) && Extends(d2, d3)
    ensures Extends(d1, d3)
  {
    forall h ensures IsPrefixOf(NamesOf(d1, h), NamesOf(d3, h)) {
      PrefixTransitive(NamesOf(d1, h), NamesOf(d2, h), NamesOf(d3, h));
    }
    PrefixTransitive(Headers(d1), Headers(d2), Headers(d3));
  }

  /** `param_dict[h]` as an association list from names to values. */
  function ValueMap(s: Section): (r: seq<(string, string)>)
    ensures |r| == |s.entries|
    ensures forall i :: 0 <= i < |r| ==> r[i] == (s.entries[i].name, s.entries[i].value)
  {
    seq(|s.entries|, i requires 0 <= i < |s.entries| => (s.entries[i].name, s.entries[i].value))
  }

  /** `commt_dict[h]` as an association list from names to comments. */
  function CommentMap(s: Section): (r: seq<(string, string)>)
    ensures |r| == |s.entries|
    ensures forall i :: 0 <= i < |r| ==> r[i] == (s.entries[i].name, s.entries[i].comment)
  {
    seq(|s.entries|, i requires 0 <= i < |s.entries| => (s.entries[i].name, s.entries[i].comment))
  }

  /** `_initialise_header`: add header `h` with no parameters unless it is
      already present. An existing header is kept as it is, not cleared. */
  function EnsureHeader(d: Doc, h: Option<string>): (r: Doc)
    ensures h in Headers(r)
    ensures Headers(r) == if h in Headers(d) then Headers(d) else Headers(d) + [h]
    ensures forall h' :: NamesOf(r, h') == NamesOf(d, h')
    ensures forall h', n :: Get(r, h', n) == Get(d, h', n)
    ensures WellFormed(d) ==> WellFormed(r)
  {
    if h in Headers(d) then d
    else
      var r := d + [Section(h, [])];
      assert Headers(r) == Headers(d) + [h];
      forall h' ensures FindHeader(r, h') == FindHeader(d, h') || (h' == h && FindHeader(r, h') == Some(|d|)) {
        if h' in Headers(d) {
          IndexOfAppend(Headers(d), [h], h');
        }
      }
      r
  }

  /** Python's `entries[n] = (v, c)` on an insertion-ordered dictionary:
      overwrite in place when `n` is present, append otherwise. */
  function Put(es: seq<Entry>, n: string, v: string, c: string): (r: seq<Entry>)
    ensures Names(r) == if n in Names(es) then Names(es) else Names(es) + [n]
    ensures FindEntry(r, n) == Some(Entry(n, v, c))
    ensures forall n' :: n' != n ==> FindEntry(r, n') == FindEntry(es, n')
    ensures Distinct(Names(es)) ==> Distinct(Names(r))
  {
    var e := Entry(n, v, c);
    match IndexOf(Names(es), n)
    case None =>
      var r := es + [e];
      assert Names(r) == Names(es) + [n];
      IndexOfUnique(Names(r), n, |es|);
      forall n' | n' != n ensures FindEntry(r, n') == FindEntry(es, n') {
        if n' in Names(es) {
          IndexOfAppend(Names(es), [n], n');
        }
      }
      r
    case Some(i) =>
      var r := es[i := e];
      assert Names(r) == Names(es);
      r
  }

  /** Replacing one section by another with the same header changes what is
      found under that header and nothing else. */
  lemma ReplaceSection(d: Doc, i: nat, s: Section, h: Option<string>)
    requires i < |d| && s.header == d[i].header
    ensures Headers(d[i := s]) == Headers(d)
    ensures FindHeader(d[i := s], h) == FindHeader(d, h)
    ensures h != s.header ==> NamesOf(d[i := s], h) == NamesOf(d, h)
    ensures h != s.header ==> forall n :: Get(d[i := s], h, n) == Get(d, h, n)
  {
    var r := d[i := s];
    assert Headers(r) == Headers(d);
    if h != s.header && FindHeader(d, h).Some? {
      assert FindHeader(d, h).value != i;
    }
  }

  /** `_save_current_param`'s dictionary updates: make sure header `h`
      exists, then store value `v` and comment `c` under `(h, n)`. */
  function Store(d: Doc, h: Option<string>, n: string, v: string, c: string): (r: Doc)
    ensures Get(r, h, n) == Some(Entry(n, v, c))
    ensures forall n' :: n' != n ==> Get(r, h, n') == Get(d, h, n')
    ensures forall h', n' :: h' != h ==> Get(r, h', n') == Get(d, h', n')
    ensures Headers(r) == if h in Headers(d) then Headers(d) else Headers(d) + [h]
    ensures NamesOf(r, h) == if n in NamesOf(d, h) then NamesOf(d, h) else NamesOf(d, h) + [n]
    ensures forall h' :: h' != h ==> NamesOf(r, h') == NamesOf(d, h')
    ensures WellFormed(d) ==> WellFormed(r)
  {
    var d1 := EnsureHeader(d, h);
    var i := FindHeader(d1, h).value;
    var r := d1[i := Section(h, Put(d1[i].entries, n, v, c))];
    StoreFacts(d, h, n, v, c, d1, i, r);
    r
  }

  lemma StoreFacts(d: Doc, h: Option<string>, n: string, v: string, c: string, d1: Doc, i: nat, r: Doc)
    requires d1 == EnsureHeader(d, h) && FindHeader(d1, h) == Some(i)
    requires r == d1[i := Section(h, Put(d1[i].entries, n, v, c))]
    ensures Get(r, h, n) == Some(Entry(n, v, c))
    ensures forall n' :: n' != n ==> Get(r, h, n') == Get(d, h, n')
    ensures forall h', n' :: h' != h ==> Get(r, h', n') == Get(d, h', n')
    ensures Headers(r) == if h in Headers(d) then Headers(d) else Headers(d) + [h]
    ensures NamesOf(r, h) == if n in NamesOf(d, h) then NamesOf(d, h) else NamesOf(d, h) + [n]
    ensures forall h' :: h' != h ==> NamesOf(r, h') == NamesOf(d, h')
    ensures WellFormed(d) ==> WellFormed(r)
  {
    hide *;
    StoreSameHeader(d, h, n, v, c, d1, i, r);
    forall h' | h' != h ensures NamesOf(r, h') == NamesOf(d, h') {
      StoreOtherHeader(d, h, n, v, c, d1, i, r, h');
    }
    forall h', n' | h' != h ensures Get(r, h', n') == Get(d, h', n') {
      StoreOtherHeader(d, h, n, v, c, d1, i, r, h');
    }
    StoreWellFormed(d, h, n, v, c, d1, i, r);
  }

  lemma StoreSameHeader(d: Doc, h: Option<string>, n: string, v: string, c: string, d1: Doc, i: nat, r: Doc)
    requires d1 == EnsureHeader(d, h) && FindHeader(d1, h) == Some(i)
    requires r == d1[i := Section(h, Put(d1[i].entries, n, v, c))]
    ensures Get(r, h, n) == Some(Entry(n, v, c))
    ensures forall n' :: n' != n ==> Get(r, h, n') == Get(d, h, n')
    ensures Headers(r) == if h in Headers(d) then Headers(d) else Headers(d) + [h]
    ensures NamesOf(r, h) == if n in NamesOf(d, h) then NamesOf(d, h) else NamesOf(d, h) + [n]
  {
    ReplaceSection(d1, i, r[i], h);
    assert NamesOf(d1, h) == Names(d1[i].entries);
    assert forall n' :: Get(d1, h, n') == FindEntry(d1[i].entries, n');
  }

  lemma StoreOtherHeader(d: Doc, h: Option<string>, n: string, v: string, c: string, d1: Doc, i: nat, r: Doc, h': Option<string>)
    requires d1 == EnsureHeader(d, h) && FindHeader(d1, h) == Some(i)
    requires r == d1[i := Section(h, Put(d1[i].entries, n, v, c))]
    requires h' != h
    ensures NamesOf(r, h') == NamesOf(d, h')
    ensures forall n' :: Get(r, h', n') == Get(d, h', n')
  {
    ReplaceSection(d1, i, r[i], h');
  }

  lemma StoreWellFormed(d: Doc, h: Option<string>, n: string, v: string, c: string, d1: Doc, i: nat, r: Doc)
    requires d1 == EnsureHeader(d, h) && FindHeader(d1, h) == Some(i)
    requires r == d1[i := Section(h, Put(d1[i].entries, n, v, c))]
    ensures WellFormed(d) ==> WellFormed(r)
  {
    hide EnsureHeader, Put;
    assert Headers(r) == Headers(d1);
    if WellFormed(d) {
      forall k | 0 <= k < |r| ensures Distinct(Names(r[k].entries)) {
        if k != i {
          assert r[k] == d1[k];
        }
      }
    }
  }
}

=== FILE: fixture.dfy ===
/**
 The worked example of `test_MOM6InputParser.py`: a hand-written file with
 two headers, a multi-line comment, a block and an unterminated last line;
 the document `parse_lines` builds from it; and the exact lines
 `writefile_MOM_input` emits for that document at the default width.
 */
module Fixture {
  import opened Options
  import opened Text
  import opened Document
  import opened Classifier
  import opened Parser
  import opened Writer
  import opened Written
  import opened RoundTrip
  import DictWriter

  const FirstComment: string := "first comment"
  const SecondComment: string := "! second comment"
  /** An inline comment followed by one continuation line, as collected. */
  const TwoLineComment: string := FirstComment + "\n" + SecondComment

  const Param1: Entry := Entry("PARAM1", "1.0", TwoLineComment)
  const Param2: Entry := Entry("PARAM2", "True", "")
  const KppOpen: Entry := Entry("KPP%", "", "")
  const Param3: Entry := Entry("PARAM3", "False", TwoLineComment)
  const Param4: Entry := Entry("PARAM4", "100.0", FirstComment)
  const KppClose: Entry := Entry("%KPP", "", "")

  const Header1: string := "HEADER1"
  const Header2: string := "HEADER2"
  const Entries1: seq<Entry> := [Param1, Param2]
  const Entries2: seq<Entry> := [KppOpen, Param3, Param4, KppClose]

  /** The two dictionaries of the expected outcome, as one document. */
  const FixtureDoc: Doc := [Section(Some(Header1), Entries1), Section(Some(Header2), Entries2)]

  /** The input lines; the last has no line feed. Runs of spaces are
      written as `Spaces(n)`. */
  const FixtureInput: seq<string> := [
    "! === HEADER1 ===\n",
    "PARAM1 = 1.0" + Spaces(20) + "! first comment\n",
    Spaces(32) + "! second comment\n",
    "PARAM2 = True\n",
    "! === HEADER2 ===\n",
    "KPP%\n",
    "PARAM3 = False" + Spaces(18) + "! first comment\n",
    Spaces(32) + "! second comment\n",
    "PARAM4 = 100.0" + Spaces(18) + "! first comment\n",
    "%KPP"
  ]

  /** The lines written for the fixture document at the default width after
      the preamble, in order. */
  const ExpectedBody: seq<string> := [
    "! === HEADER1 ===\n",
    "PARAM1 = 1.0" + Spaces(21) + "! first comment\n",
    Spaces(33) + "! second comment\n",
    "PARAM2 = True\n",
    "\n",
    "! === HEADER2 ===\n",
    "KPP%\n",
    "PARAM3 = False" + Spaces(19) + "! first comment\n",
    Spaces(33) + "! second comment\n",
    "PARAM4 = 100.0" + Spaces(19) + "! first comment\n",
    "%KPP\n",
    "\n"
  ]

  // Layout of single lines.

  lemma SplitTwo(a: string, b: string)
    requires '\n' !in a && '\n' !in b
    ensures Split(a + "\n" + b, '\n') == [a, b]
  {
    assert Join([a, b], "\n") == a + "\n" + b;
    SplitJoin([a, b], '\n');
  }

  lemma TwoLineEntryLines(e: Entry, width: nat, a: string, b: string)
    requires e.comment != "" && Split(e.comment, '\n') == [a, b]
    ensures EntryLines(e, width) == [FirstCommentLine(e, width), ContinuationLine(b, width)]
  {
    hide EntryLines, Split, Strip, PadRight, Binding, ContinuationLine, FirstCommentLine;
    CommentedEntryLines(e, width);
    assert [a, b][1..] == [b];
  }

  lemma OneLineEntryLines(e: Entry, width: nat)
    requires e.comment != "" && '\n' !in e.comment
    ensures EntryLines(e, width) == [FirstCommentLine(e, width)]
  {
    SplitNoSeparator(e.comment, '\n');
  }

  /** The first line of a commented entry: the padded binding, a space,
      then `t`, which is `! `, the first comment line and a line feed. */
  lemma FirstLineText(e: Entry, width: nat, a: string, t: string)
    requires e.comment != "" && Split(e.comment, '\n')[0] == a && Stripped(a)
    requires t == "! " + a + "\n"
    ensures FirstCommentLine(e, width) == PadRight(Binding(e), width) + " " + t
  {
    StripStripped(a);
    InlineTail(PadRight(Binding(e), width), a, t);
  }

  lemma InlineTail(p: string, a: string, t: string)
    requires t == "! " + a + "\n"
    ensures p + " ! " + a + "\n" == p + " " + t
  {
    assert " ! " == " " + "! ";
    Assoc3(p, " ", "! ");
    Assoc4(p + " ", "! ", a, "\n");
  }

  lemma ContinuationLineText(b: string, width: nat, t: string)
    requires Stripped(b) && t == b + "\n"
    ensures ContinuationLine(b, width) == Spaces(width) + " " + t
  {
    StripStripped(b);
    Assoc3(Spaces(width) + " ", b, "\n");
  }

  // Regrouping a concatenation of strings, stated over its parts so that
  // the literal text is never unfolded.

  lemma Assoc3(x: string, y: string, z: string)
    ensures x + y + z == x + (y + z)
  {
  }

  lemma Assoc4(x: string, y: string, z: string, w: string)
    ensures x + y + z + w == x + (y + z + w)
  {
  }

  /** Padding a binding shorter than the field and adding one space leaves
      `width - |b| + 1` spaces after it. */
  lemma PaddedText(b: string, width: nat, t: string)
    requires |b| < width
    ensures PadRight(b, width) + " " + t == b + Spaces(width - |b| + 1) + t
  {
    SpacesSnoc(width - |b|);
    Assoc3(b, Spaces(width - |b|), " ");
  }

  lemma FirstLineIs(e: Entry, width: nat, a: string, t: string, l0: string)
    requires e.comment != "" && Split(e.comment, '\n')[0] == a && Stripped(a)
    requires t == "! " + a + "\n" && |Binding(e)| < width
    requires l0 == Binding(e) + Spaces(width - |Binding(e)| + 1) + t
    ensures FirstCommentLine(e, width) == l0
  {
    hide *;
    FirstLineText(e, width, a, t);
    PaddedText(Binding(e), width, t);
  }

  lemma ContinuationIs(width: nat, b: string, t: string, l1: string)
    requires Stripped(b) && t == b + "\n" && l1 == Spaces(width + 1) + t
    ensures ContinuationLine(b, width) == l1
  {
    ContinuationLineText(b, width, t);
    SpacesSnoc(width);
  }

  /** The two lines of an entry whose comment has two lines. */
  lemma TwoLineText(e: Entry, width: nat, a: string, b: string, t0: string, t1: string, l0: string, l1: string)
    requires e.comment != "" && Split(e.comment, '\n') == [a, b] && Stripped(a) && Stripped(b)
    requires t0 == "! " + a + "\n" && t1 == b + "\n" && |Binding(e)| < width
    requires l0 == Binding(e) + Spaces(width - |Binding(e)| + 1) + t0
    requires l1 == Spaces(width + 1) + t1
    ensures EntryLines(e, width) == [l0, l1]
  {
    TwoLineEntryLines(e, width, a, b);
    FirstLineIs(e, width, a, t0, l0);
    ContinuationIs(width, b, t1, l1);
  }

  lemma OneLineText(e: Entry, width: nat, t0: string, l0: string)
    requires e.comment != "" && '\n' !in e.comment && Stripped(e.comment)
    requires t0 == "! " + e.comment + "\n" && |Binding(e)| < width
    requires l0 == Binding(e) + Spaces(width - |Binding(e)| + 1) + t0
    ensures EntryLines(e, width) == [l0]
  {
    OneLineEntryLines(e, width);
    SplitNoSeparator(e.comment, '\n');
    FirstLineIs(e, width, e.comment, t0, l0);
  }

  lemma EntriesLinesCons(e: Entry, es: seq<Entry>, width: nat)
    ensures EntriesLines([e] + es, width) == EntryLines(e, width) + EntriesLines(es, width)
  {
    assert ([e] + es)[1..] == es;
  }

  lemma Param1Lines(width: nat)
    requires width > 12
    ensures EntryLines(Param1, width)
      == ["PARAM1 = 1.0" + Spaces(width - 11) + "! first comment\n", Spaces(width + 1) + "! second comment\n"]
  {
    TwoLineCommentSplit();
    CommentTails();
    Param1Binding(width);
    TwoLineText(Param1, width, FirstComment, SecondComment, "! first comment\n", "! second comment\n",
      "PARAM1 = 1.0" + Spaces(width - 11) + "! first comment\n", Spaces(width + 1) + "! second comment\n");
  }

  lemma TwoLineCommentSplit()
    ensures Split(TwoLineComment, '\n') == [FirstComment, SecondComment]
  {
    SplitTwo(FirstComment, SecondComment);
  }

  lemma CommentTails()
    ensures Stripped(FirstComment) && Stripped(SecondComment)
    ensures "! first comment\n" == "! " + FirstComment + "\n"
    ensures "! second comment\n" == SecondComment + "\n"
  {
  }

  lemma Param1Binding(width: nat)
    requires width > 12
    ensures |Binding(Param1)| < width
    ensures "PARAM1 = 1.0" + Spaces(width - 11) == Binding(Param1) + Spaces(width - |Binding(Param1)| + 1)
  {
    assert Binding(Param1) == "PARAM1 = 1.0";
  }

  lemma Param3Binding(width: nat)
    requires width > 14
    ensures |Binding(Param3)| < width
    ensures "PARAM3 = False" + Spaces(width - 13) == Binding(Param3) + Spaces(width - |Binding(Param3)| + 1)
  {
    assert Binding(Param3) == "PARAM3 = False";
  }

  lemma Param4Binding(width: nat)
    requires width > 14
    ensures |Binding(Param4)| < width
    ensures "PARAM4 = 100.0" + Spaces(width - 13) == Binding(Param4) + Spaces(width - |Binding(Param4)| + 1)
  {
    assert Binding(Param4) == "PARAM4 = 100.0";
  }

  lemma Param3Lines(width: nat)
    requires width > 14
    ensures EntryLines(Param3, width)
      == ["PARAM3 = False" + Spaces(width - 13) + "! first comment\n", Spaces(width + 1) + "! second comment\n"]
  {
    TwoLineCommentSplit();
    CommentTails();
    Param3Binding(width);
    TwoLineText(Param3, width, FirstComment, SecondComment, "! first comment\n", "! second comment\n",
      "PARAM3 = False" + Spaces(width - 13) + "! first comment\n", Spaces(width + 1) + "! second comment\n");
  }

  lemma Param4Lines(width: nat)
    requires width > 14
    ensures EntryLines(Param4, width) == ["PARAM4 = 100.0" + Spaces(width - 13) + "! first comment\n"]
  {
    CommentTails();
    Param4Binding(width);
    OneLineText(Param4, width, "! first comment\n", "PARAM4 = 100.0" + Spaces(width - 13) + "! first comment\n");
  }

  lemma Param2Lines(width: nat)
    ensures EntryLines(Param2, width) == ["PARAM2 = True\n"]
  {
    assert Param2.name !in BlockList;
    assert Binding(Param2) + "\n" == "PARAM2 = True\n";
  }

  lemma KppOpenLines(width: nat)
    ensures EntryLines(KppOpen, width) == ["KPP%\n"]
  {
    assert BlockList[0] == KppOpen.name;
    assert KppOpen.name + "\n" == "KPP%\n";
  }

  lemma KppCloseLines(width: nat)
    ensures EntryLines(KppClose, width) == ["%KPP\n"]
  {
    assert BlockList[1] == KppClose.name;
    assert KppClose.name + "\n" == "%KPP\n";
  }

  // Regrouping lists of lines, stated over any element type so that no
  // string is compared character by character. The `hide *` in the lemmas
  // below keeps the writer's definitions folded while these are applied.

  lemma Regroup3<T>(x0: T, x1: T, x2: T)
    ensures [x0, x1] + [x2] == [x0, x1, x2]
  {
  }

  lemma Wrap5<T>(x0: T, x1: T, x2: T, x3: T, x4: T)
    ensures [x0] + [x1, x2, x3] + [x4] == [x0, x1, x2, x3, x4]
  {
  }

  lemma Regroup7<T>(x0: T, x1: T, x2: T, x3: T, x4: T, x5: T, x6: T)
    ensures [x0] + [x1, x2, x3, x4, x5] + [x6] == [x0, x1, x2, x3, x4, x5, x6]
  {
  }

  lemma Regroup12<T>(x0: T, x1: T, x2: T, x3: T, x4: T, x5: T, x6: T, x7: T, x8: T, x9: T, x10: T, x11: T)
    ensures [x0, x1, x2, x3, x4] + [x5, x6, x7, x8, x9, x10, x11]
      == [x0, x1, x2, x3, x4, x5, x6, x7, x8, x9, x10, x11]
  {
  }

  lemma ConsLines(e: Entry, es: seq<Entry>, width: nat, l: seq<string>, ls: seq<string>)
    requires EntryLines(e, width) == l && EntriesLines(es, width) == ls
    ensures EntriesLines([e] + es, width) == l + ls
  {
    EntriesLinesCons(e, es, width);
  }

  lemma EntriesTwo(e1: Entry, e2: Entry, width: nat, l1: seq<string>, l2: seq<string>)
    requires EntryLines(e1, width) == l1 && EntryLines(e2, width) == l2
    ensures EntriesLines([e1, e2], width) == l1 + l2
  {
    hide *;
    EntriesLinesCons(e1, [e2], width);
    assert [e1, e2] == [e1] + [e2];
    EntriesLinesOne(e2, width);
  }

  lemma Entries1Lines(width: nat)
    requires width > 14
    ensures EntriesLines(Entries1, width)
      == ["PARAM1 = 1.0" + Spaces(width - 11) + "! first comment\n", Spaces(width + 1) + "! second comment\n",
          "PARAM2 = True\n"]
  {
    var a := "PARAM1 = 1.0" + Spaces(width - 11) + "! first comment\n";
    var b := Spaces(width + 1) + "! second comment\n";
    Param1Lines(width);
    Param2Lines(width);
    EntriesTwo(Param1, Param2, width, [a, b], ["PARAM2 = True\n"]);
    Regroup3(a, b, "PARAM2 = True\n");
  }

  lemma Entries2Lines(width: nat)
    requires width > 14
    ensures EntriesLines(Entries2, width)
      == ["KPP%\n",
          "PARAM3 = False" + Spaces(width - 13) + "! first comment\n", Spaces(width + 1) + "! second comment\n",
          "PARAM4 = 100.0" + Spaces(width - 13) + "! first comment\n",
          "%KPP\n"]
  {
    var a := "PARAM3 = False" + Spaces(width - 13) + "! first comment\n";
    var b := Spaces(width + 1) + "! second comment\n";
    var c := "PARAM4 = 100.0" + Spaces(width - 13) + "! first comment\n";
    KppOpenLines(width);
    Entries2Tail(width);
    EntriesFour(KppOpen, Param3, Param4, KppClose, width, ["KPP%\n"], [a, b, c, "%KPP\n"]);
    Prepend4("KPP%\n", a, b, c, "%KPP\n");
  }

  lemma Entries2Tail(width: nat)
    requires width > 14
    ensures EntriesLines([Param3, Param4, KppClose], width)
      == ["PARAM3 = False" + Spaces(width - 13) + "! first comment\n", Spaces(width + 1) + "! second comment\n",
          "PARAM4 = 100.0" + Spaces(width - 13) + "! first comment\n",
          "%KPP\n"]
  {
    var a := "PARAM3 = False" + Spaces(width - 13) + "! first comment\n";
    var b := Spaces(width + 1) + "! second comment\n";
    var c := "PARAM4 = 100.0" + Spaces(width - 13) + "! first comment\n";
    Param3Lines(width);
    Param4Lines(width);
    KppCloseLines(width);
    EntriesThree(Param3, Param4, KppClose, width, [a, b], [c], ["%KPP\n"]);
    Flatten4(a, b, c, "%KPP\n");
  }

  lemma EntriesThree(e1: Entry, e2: Entry, e3: Entry, width: nat, l1: seq<string>, l2: seq<string>, l3: seq<string>)
    requires EntryLines(e1, width) == l1 && EntryLines(e2, width) == l2 && EntryLines(e3, width) == l3
    ensures EntriesLines([e1, e2, e3], width) == l1 + l2 + l3
  {
    hide *;
    EntriesTwo(e2, e3, width, l2, l3);
    ConsLines(e1, [e2, e3], width, l1, l2 + l3);
    assert [e1, e2, e3] == [e1] + [e2, e3];
  }

  lemma EntriesFour(e0: Entry, e1: Entry, e2: Entry, e3: Entry, width: nat, l0: seq<string>, ls: seq<string>)
    requires EntryLines(e0, width) == l0 && EntriesLines([e1, e2, e3], width) == ls
    ensures EntriesLines([e0, e1, e2, e3], width) == l0 + ls
  {
    hide *;
    ConsLines(e0, [e1, e2, e3], width, l0, ls);
    assert [e0, e1, e2, e3] == [e0] + [e1, e2, e3];
  }

  /** The list shapes met when a block's lines are put together. */
  lemma Flatten4<T>(x0: T, x1: T, x2: T, x3: T)
    ensures [x0, x1] + [x2] + [x3] == [x0, x1, x2, x3]
  {
  }

  lemma Prepend4<T>(x0: T, x1: T, x2: T, x3: T, x4: T)
    ensures [x0] + [x1, x2, x3, x4] == [x0, x1, x2, x3, x4]
  {
  }

  lemma SectionsTwo(s1: Section, s2: Section, width: nat)
    ensures SectionsLines([s1, s2], width) == SectionLines(s1, width) + SectionLines(s2, width)
  {
    assert [s1, s2][1..] == [s2];
    SectionsLinesOne(s2, width);
  }

  lemma Banner1()
    ensures HeaderBanner(Some(Header1)) == "! === HEADER1 ===\n"
  {
  }

  lemma Banner2()
    ensures HeaderBanner(Some(Header2)) == "! === HEADER2 ===\n"
  {
  }

  lemma SectionText(h: string, es: seq<Entry>, width: nat, hb: string, ls: seq<string>)
    requires HeaderBanner(Some(h)) == hb && EntriesLines(es, width) == ls
    ensures SectionLines(Section(Some(h), es), width) == [hb] + ls + ["\n"]
  {
  }

  lemma Section1Lines(width: nat)
    requires width > 14
    ensures SectionLines(Section(Some(Header1), Entries1), width)
      == ["! === HEADER1 ===\n",
          "PARAM1 = 1.0" + Spaces(width - 11) + "! first comment\n", Spaces(width + 1) + "! second comment\n",
          "PARAM2 = True\n",
          "\n"]
  {
    var a := "PARAM1 = 1.0" + Spaces(width - 11) + "! first comment\n";
    var b := Spaces(width + 1) + "! second comment\n";
    Banner1();
    Entries1Lines(width);
    SectionText(Header1, Entries1, width, "! === HEADER1 ===\n", [a, b, "PARAM2 = True\n"]);
    Wrap5("! === HEADER1 ===\n", a, b, "PARAM2 = True\n", "\n");
  }

  lemma Section2Lines(width: nat)
    requires width > 14
    ensures SectionLines(Section(Some(Header2), Entries2), width)
      == ["! === HEADER2 ===\n",
          "KPP%\n",
          "PARAM3 = False" + Spaces(width - 13) + "! first comment\n", Spaces(width + 1) + "! second comment\n",
          "PARAM4 = 100.0" + Spaces(width - 13) + "! first comment\n",
          "%KPP\n",
          "\n"]
  {
    var a := "PARAM3 = False" + Spaces(width - 13) + "! first comment\n";
    var b := Spaces(width + 1) + "! second comment\n";
    var c := "PARAM4 = 100.0" + Spaces(width - 13) + "! first comment\n";
    Banner2();
    Entries2Lines(width);
    SectionText(Header2, Entries2, width, "! === HEADER2 ===\n", ["KPP%\n", a, b, c, "%KPP\n"]);
    Regroup7("! === HEADER2 ===\n", "KPP%\n", a, b, c, "%KPP\n", "\n");
  }

  lemma WriteTwo(s1: Section, s2: Section, width: nat, l1: seq<string>, l2: seq<string>)
    requires SectionLines(s1, width) == l1 && SectionLines(s2, width) == l2
    ensures Write([s1, s2], width) == Banner + (l1 + l2)
  {
    SectionsTwo(s1, s2, width);
  }

  /** `writefile_MOM_input` on the parsed fixture writes the preamble and
      then exactly the expected lines. */
  lemma FixtureWritten()
    ensures Write(FixtureDoc, DefaultWidth) == Banner + ExpectedBody
  {
    var p1 := "PARAM1 = 1.0" + Spaces(21) + "! first comment\n";
    var p3 := "PARAM3 = False" + Spaces(19) + "! first comment\n";
    var p4 := "PARAM4 = 100.0" + Spaces(19) + "! first comment\n";
    var c := Spaces(33) + "! second comment\n";
    var h1 := "! === HEADER1 ===\n";
    var h2 := "! === HEADER2 ===\n";
    Section1Lines(DefaultWidth);
    Section2Lines(DefaultWidth);
    WriteTwo(FixtureDoc[0], FixtureDoc[1], DefaultWidth,
      [h1, p1, c, "PARAM2 = True\n", "\n"], [h2, "KPP%\n", p3, c, p4, "%KPP\n", "\n"]);
    Regroup12(h1, p1, c, "PARAM2 = True\n", "\n", h2, "KPP%\n", p3, c, p4, "%KPP\n", "\n");
  }

  // Reading the fixture.

  /** A block token on a last line without its line feed is still a block
      marker. */
  lemma UnterminatedBlockLine(t: string)
    requires SafeName(t) && t in BlockList
    ensures Classify(t) == BlockMarker(t)
    ensures Classify(t + "\n") == BlockMarker(t)
  {
    StripStripped(t);
    assert t[..|t|] == t;
    assert OccursAt(t, t, 0);
    BlockLine(t, t);
    BareBlockLine(Entry(t, "", ""));
  }

  lemma LastLineKinds(a: seq<string>, t: string)
    requires SafeName(t) && t in BlockList
    ensures Kinds(a + [t]) == Kinds(a + [t + "\n"])
  {
    UnterminatedBlockLine(t);
    KindsSingle(t, BlockMarker(t));
    KindsSingle(t + "\n", BlockMarker(t));
    KindsAppend(a, [t]);
    KindsAppend(a, [t + "\n"]);
  }

  /** Two header banners, each followed by the lines of its parameters,
      classify as the headers and the parameters' kinds. */
  lemma TwoSectionsKinds(h1: string, es1: seq<Entry>, h2: string, es2: seq<Entry>, width: nat)
    requires SafeHeader(h1) && SafeHeader(h2)
    requires forall j :: 0 <= j < |es1| ==> SafeEntry(es1[j])
    requires forall j :: 0 <= j < |es2| ==> SafeEntry(es2[j])
    ensures Kinds([HeaderBanner(Some(h1))] + EntriesLines(es1, width) + [HeaderBanner(Some(h2))] + EntriesLines(es2, width))
      == [Header(h1)] + EntriesKinds(es1) + [Header(h2)] + EntriesKinds(es2)
  {
    var b1 := [HeaderBanner(Some(h1))];
    var b2 := [HeaderBanner(Some(h2))];
    var l1 := EntriesLines(es1, width);
    var l2 := EntriesLines(es2, width);
    KindsAppend(b1 + l1 + b2, l2);
    KindsAppend(b1 + l1, b2);
    KindsAppend(b1, l1);
    BannerKinds(h1);
    BannerKinds(h2);
    EntriesKindsOf(es1, width);
    EntriesKindsOf(es2, width);
  }

  /** A file of two distinct headers, each followed by its parameters and
      no blank line between them, parses to those two sections. */
  lemma TwoSectionsParse(h1: string, es1: seq<Entry>, h2: string, es2: seq<Entry>, lines: seq<string>)
    requires h1 != h2
    requires Distinct(Names(es1)) && Distinct(Names(es2))
    requires forall j :: 0 <= j < |es1| ==> SafeEntry(es1[j])
    requires forall j :: 0 <= j < |es2| ==> SafeEntry(es2[j])
    requires Kinds(lines) == [Header(h1)] + EntriesKinds(es1) + [Header(h2)] + EntriesKinds(es2)
    ensures Parse(lines) == [Section(Some(h1), es1), Section(Some(h2), es2)]
  {
    var k1 := [Header(h1)] + EntriesKinds(es1);
    var k2 := [Header(h2)] + EntriesKinds(es2);
    Regroup4([Header(h1)], EntriesKinds(es1), [Header(h2)], EntriesKinds(es2));
    RunByKinds(Init, lines);
    RunKindsAppend(Init, k1, k2);
    TwoSectionsRun(h1, es1, h2, es2);
  }

  /** Two sections' lines, paired up per section. */
  lemma Regroup4<T>(a: seq<T>, b: seq<T>, c: seq<T>, d: seq<T>)
    ensures a + b + c + d == (a + b) + (c + d)
  {
  }

  lemma TwoSectionsRun(h1: string, es1: seq<Entry>, h2: string, es2: seq<Entry>)
    requires h1 != h2
    requires Distinct(Names(es1)) && Distinct(Names(es2))
    requires forall j :: 0 <= j < |es1| ==> SafeEntry(es1[j])
    requires forall j :: 0 <= j < |es2| ==> SafeEntry(es2[j])
    ensures Flush(RunKinds(RunKinds(Init, [Header(h1)] + EntriesKinds(es1)), [Header(h2)] + EntriesKinds(es2))).doc
      == [Section(Some(h1), es1), Section(Some(h2), es2)]
  {
    hide RunKinds, EntriesKinds, Flush, SafeEntry;
    var s1 := Section(Some(h1), es1);
    assert Flush(Init).doc == [];
    NextSectionRun(Init, [], h1, es1);
    assert [] + [s1] == [s1];
    HeadersOne(s1);
    NextSectionRun(RunKinds(Init, [Header(h1)] + EntriesKinds(es1)), [s1], h2, es2);
  }

  lemma HeadersOne(s: Section)
    ensures Headers([s]) == [s.header]
  {
  }

  /** A header line for a new header, then the lines of its parameters,
      append that header's section to what is stored. */
  lemma NextSectionRun(st: State, pre: Doc, h: string, es: seq<Entry>)
    requires Flush(st).doc == pre && Some(h) !in Headers(pre)
    requires Distinct(Names(es)) && forall j :: 0 <= j < |es| ==> SafeEntry(es[j])
    ensures Flush(RunKinds(st, [Header(h)] + EntriesKinds(es))).doc == pre + [Section(Some(h), es)]
  {
    HeaderAndEntriesRun(st, pre, h, es);
    FlushCursor(h, pre, es);
  }

  lemma TwoLineCommentSafe(a: string, b: string)
    requires a != "" && Stripped(a) && '!' !in a && Unbroken(a)
    requires SafeContinuation(b) && Unbroken(b)
    ensures SafeComment(a + "\n" + b)
  {
    SplitTwo(a, b);
    var c := a + "\n" + b;
    assert c[0] == a[0] && c[|c| - 1] == b[|b| - 1];
    assert '\r' !in c;
  }

  lemma OneLineCommentSafe(a: string)
    requires a != "" && Stripped(a) && '!' !in a && Unbroken(a)
    ensures SafeComment(a)
  {
    SplitNoSeparator(a, '\n');
  }

  lemma CommentsSafe()
    ensures SafeComment(TwoLineComment) && SafeComment(FirstComment)
  {
    assert FirstComment != "" && Stripped(FirstComment) && '!' !in FirstComment && Unbroken(FirstComment);
    assert SafeContinuation(SecondComment) && Unbroken(SecondComment);
    TwoLineCommentSafe(FirstComment, SecondComment);
    OneLineCommentSafe(FirstComment);
  }

  lemma CommentedSafe(e: Entry)
    requires SafeName(e.name) && SafeValue(e.value) && SafeComment(e.comment) && e.comment != ""
    ensures SafeEntry(e)
  {
  }

  lemma Param1Safe()
    ensures SafeEntry(Param1)
  {
    CommentsSafe();
    Param1Fields();
    CommentedSafe(Param1);
  }

  lemma Param1Fields()
    ensures SafeName(Param1.name) && SafeValue(Param1.value)
  {
  }

  lemma Param2Safe()
    ensures SafeEntry(Param2)
  {
    assert SafeName(Param2.name) && SafeValue(Param2.value);
  }

  lemma Param3Safe()
    ensures SafeEntry(Param3)
  {
    CommentsSafe();
    Param3Fields();
    CommentedSafe(Param3);
  }

  lemma Param3Fields()
    ensures SafeName(Param3.name) && SafeValue(Param3.value)
  {
  }

  lemma Param4Safe()
    ensures SafeEntry(Param4)
  {
    CommentsSafe();
    Param4Fields();
    CommentedSafe(Param4);
  }

  lemma Param4Fields()
    ensures SafeName(Param4.name) && SafeValue(Param4.value)
  {
  }

  lemma KppSafe()
    ensures SafeEntry(KppOpen) && SafeEntry(KppClose)
  {
    assert SafeName(KppOpen.name) && SafeName(KppClose.name);
  }

  lemma Entries1Safe()
    ensures forall j :: 0 <= j < |Entries1| ==> SafeEntry(Entries1[j])
  {
    Param1Safe();
    Param2Safe();
  }

  lemma Entries2Safe()
    ensures forall j :: 0 <= j < |Entries2| ==> SafeEntry(Entries2[j])
  {
    KppSafe();
    Param3Safe();
    Param4Safe();
    FourSafe(KppOpen, Param3, Param4, KppClose);
  }

  lemma FourSafe(e1: Entry, e2: Entry, e3: Entry, e4: Entry)
    requires SafeEntry(e1) && SafeEntry(e2) && SafeEntry(e3) && SafeEntry(e4)
    ensures forall j :: 0 <= j < |[e1, e2, e3, e4]| ==> SafeEntry([e1, e2, e3, e4][j])
  {
  }

  lemma FixtureNamesDistinct()
    ensures Distinct(Names(Entries1)) && Distinct(Names(Entries2))
  {
    assert Names(Entries1) == ["PARAM1", "PARAM2"];
    assert Names(Entries2) == ["KPP%", "PARAM3", "PARAM4", "%KPP"];
  }

  lemma Regroup10<T>(x0: T, x1: T, x2: T, x3: T, x4: T, x5: T, x6: T, x7: T, x8: T, x9: T)
    ensures [x0] + [x1, x2, x3] + [x4] + [x5, x6, x7, x8, x9]
      == [x0, x1, x2, x3, x4, x5, x6, x7, x8] + [x9]
  {
  }

  lemma Snoc10<T>(x0: T, x1: T, x2: T, x3: T, x4: T, x5: T, x6: T, x7: T, x8: T, x9: T)
    ensures [x0, x1, x2, x3, x4, x5, x6, x7, x8, x9] == [x0, x1, x2, x3, x4, x5, x6, x7, x8] + [x9]
  {
  }

  /** The fixture is the writer's layout at width 31 for the fixture
      document, without the blank line after each header and without the
      last line feed. */
  lemma InputShape()
    ensures FixtureInput[..9] + ["%KPP"] == FixtureInput
    ensures FixtureInput[..9] + ["%KPP" + "\n"]
      == [HeaderBanner(Some(Header1))] + EntriesLines(Entries1, 31) + [HeaderBanner(Some(Header2))] + EntriesLines(Entries2, 31)
  {
    var h1 := "! === HEADER1 ===\n";
    var h2 := "! === HEADER2 ===\n";
    var p1 := "PARAM1 = 1.0" + Spaces(20) + "! first comment\n";
    var c := Spaces(32) + "! second comment\n";
    var p3 := "PARAM3 = False" + Spaces(18) + "! first comment\n";
    var p4 := "PARAM4 = 100.0" + Spaces(18) + "! first comment\n";
    hide EntriesLines, EntryLines, Spaces, HeaderBanner;
    Banner1();
    Banner2();
    Entries1Lines(31);
    Entries2Lines(31);
    Snoc10(h1, p1, c, "PARAM2 = True\n", h2, "KPP%\n", p3, c, p4, "%KPP");
    Regroup10(h1, p1, c, "PARAM2 = True\n", h2, "KPP%\n", p3, c, p4, "%KPP\n");
    assert "%KPP" + "\n" == "%KPP\n";
  }

  lemma KppCloseToken()
    ensures SafeName(KppClose.name) && KppClose.name in BlockList && KppClose.name == "%KPP"
  {
    assert BlockList[1] == KppClose.name;
  }

  lemma UnterminatedKinds(input: seq<string>, a: seq<string>, t: string, terminated: seq<string>)
    requires SafeName(t) && t in BlockList
    requires input == a + [t] && terminated == a + [t + "\n"]
    ensures Kinds(input) == Kinds(terminated)
  {
    LastLineKinds(a, t);
  }

  lemma InputKinds()
    ensures Kinds(FixtureInput) == [Header(Header1)] + EntriesKinds(Entries1) + [Header(Header2)] + EntriesKinds(Entries2)
  {
    InputShape();
    KppCloseToken();
    UnterminatedKinds(FixtureInput, FixtureInput[..9], KppClose.name, StructuredInput());
    StructuredKinds();
  }

  /** The fixture with its last line feed restored: the writer's layout at
      width 31, without the blank line after each header and the preamble. */
  function StructuredInput(): seq<string> {
    [HeaderBanner(Some(Header1))] + EntriesLines(Entries1, 31) + [HeaderBanner(Some(Header2))] + EntriesLines(Entries2, 31)
  }

  lemma StructuredKinds()
    ensures Kinds(StructuredInput()) == [Header(Header1)] + EntriesKinds(Entries1) + [Header(Header2)] + EntriesKinds(Entries2)
  {
    Entries1Safe();
    Entries2Safe();
    TwoSectionsKinds(Header1, Entries1, Header2, Entries2, 31);
  }

  /** `parse_lines` on the fixture yields the expected dictionaries. */
  lemma FixtureParsed()
    ensures Parse(FixtureInput) == FixtureDoc
  {
    InputKinds();
    Entries1Safe();
    Entries2Safe();
    FixtureNamesDistinct();
    TwoSectionsParse(Header1, Entries1, Header2, Entries2, FixtureInput);
  }

  lemma TwoSectionsSafe(h1: string, es1: seq<Entry>, h2: string, es2: seq<Entry>)
    requires SafeHeader(h1) && SafeHeader(h2) && h1 != h2
    requires Distinct(Names(es1)) && Distinct(Names(es2))
    requires forall j :: 0 <= j < |es1| ==> SafeEntry(es1[j])
    requires forall j :: 0 <= j < |es2| ==> SafeEntry(es2[j])
    ensures SafeDoc([Section(Some(h1), es1), Section(Some(h2), es2)])
  {
    var d := [Section(Some(h1), es1), Section(Some(h2), es2)];
    assert Headers(d) == [Some(h1), Some(h2)];
  }

  lemma FixtureSafe()
    ensures SafeDoc(FixtureDoc)
  {
    Entries1Safe();
    Entries2Safe();
    FixtureNamesDistinct();
    TwoSectionsSafe(Header1, Entries1, Header2, Entries2);
  }

  /** What `test_write_output` checks: parsing the fixture and writing the
      result at the default width emits the preamble and the expected
      lines. */
  lemma FixtureEndToEnd()
    ensures Write(Parse(FixtureInput), DefaultWidth) == Banner + ExpectedBody
  {
    FixtureParsed();
    FixtureWritten();
  }

  /** The expected output, read back, gives the fixture document again. */
  lemma ExpectedReadBack()
    ensures Parse(Banner + ExpectedBody) == FixtureDoc
  {
    FixtureSafe();
    FixtureWritten();
    ParseAfterWrite(FixtureDoc, DefaultWidth);
  }

  /** The test's `param_output` and `comment_output`, as the two dictionaries. */
  const ParamOutput: DictWriter.Table := [
    (Some("HEADER1"), [("PARAM1", "1.0"), ("PARAM2", "True")]),
    (Some("HEADER2"), [("KPP%", ""), ("PARAM3", "False"), ("PARAM4", "100.0"), ("%KPP", "")])
  ]

  const CommentOutput: DictWriter.Table := [
    (Some("HEADER1"), [("PARAM1", "first comment\n! second comment"), ("PARAM2", "")]),
    (Some("HEADER2"), [("KPP%", ""), ("PARAM3", "first comment\n! second comment"),
                       ("PARAM4", "first comment"), ("%KPP", "")])
  ]

  lemma FixtureWellFormed()
    ensures WellFormed(FixtureDoc)
  {
    FixtureNamesDistinct();
    assert Headers(FixtureDoc) == [Some(Header1), Some(Header2)];
  }

  lemma TwoLineCommentText()
    ensures TwoLineComment == "first comment\n! second comment"
  {
  }

  lemma TablesOfTwo(s0: Section, s1: Section)
    ensures DictWriter.ValueTable([s0, s1]) == [(s0.header, ValueMap(s0)), (s1.header, ValueMap(s1))]
    ensures DictWriter.CommentTable([s0, s1]) == [(s0.header, CommentMap(s0)), (s1.header, CommentMap(s1))]
  {
  }

  lemma MapsOfTwo(h: Option<string>, e0: Entry, e1: Entry)
    ensures ValueMap(Section(h, [e0, e1])) == [(e0.name, e0.value), (e1.name, e1.value)]
    ensures CommentMap(Section(h, [e0, e1])) == [(e0.name, e0.comment), (e1.name, e1.comment)]
  {
  }

  lemma MapsOfFour(h: Option<string>, e0: Entry, e1: Entry, e2: Entry, e3: Entry)
    ensures ValueMap(Section(h, [e0, e1, e2, e3]))
      == [(e0.name, e0.value), (e1.name, e1.value), (e2.name, e2.value), (e3.name, e3.value)]
    ensures CommentMap(Section(h, [e0, e1, e2, e3]))
      == [(e0.name, e0.comment), (e1.name, e1.comment), (e2.name, e2.comment), (e3.name, e3.comment)]
  {
  }

  /** `parse_lines` on the fixture builds exactly the two expected
      dictionaries. */
  lemma FixtureDictionaries()
    ensures DictWriter.ValueTable(Parse(FixtureInput)) == ParamOutput
    ensures DictWriter.CommentTable(Parse(FixtureInput)) == CommentOutput
  {
    FixtureParsed();
    TwoLineCommentText();
    hide ValueMap, CommentMap, DictWriter.ValueTable, DictWriter.CommentTable, Parse;
    TablesOfTwo(Section(Some(Header1), Entries1), Section(Some(Header2), Entries2));
    MapsOfTwo(Some(Header1), Param1, Param2);
    MapsOfFour(Some(Header2), KppOpen, Param3, Param4, KppClose);
  }

  /** Writing the two expected dictionaries, read independently, raises
      nothing and makes exactly the expected `write` calls. */
  lemma FixtureWrittenFromDictionaries()
    ensures DictWriter.WriteTables(ParamOutput, CommentOutput, DefaultWidth)
      == DictWriter.Outcome(Banner + ExpectedBody, None)
  {
    hide *;
    FixtureParsed();
    FixtureDictionaries();
    FixtureWellFormed();
    DictWriter.WriteTablesOfDoc(FixtureDoc, DefaultWidth);
    FixtureWritten();
  }
}

=== FILE: parser.dfy ===
/**
 The accumulator of `MOM6InputParser`: a single pass over the lines that
 keeps a cursor (current header, pending parameter with its value and
 comment fragments) and flushes the pending parameter into the document
 before every header, assignment or block line and once at end of input.
 The parser's mutable fields become an explicit state threaded through a
 fold.
 */
module Parser {
  import opened Options
  import opened Text
  import opened Document
  import opened Classifier

  /** `current_header`, `current_var`, `current_value`, `current_comment`,
      and the two dictionaries (as one document). */
  datatype State = State(
    header: Option<string>,
    current: Option<string>,
    values: seq<string>,
    comments: seq<string>,
    doc: Doc)

  /** The state a fresh parser starts in. */
  const Init: State := State(None, None, [], [], [])

  /** Python's truthiness test `if self.current_var:` — set and non-empty. */
  predicate Pending(st: State) {
    st.current.Some? && st.current.value != ""
  }

  /** `_save_current_param`: store the pending parameter, if any, with its
      joined-and-stripped value and comment, under the current header. The
      cursor itself is left as it is. */
  function Flush(st: State): (r: State)
    ensures r.header == st.header && r.current == st.current
    ensures r.values == st.values && r.comments == st.comments
    ensures !Pending(st) ==> r.doc == st.doc
    ensures Pending(st) ==>
      Get(r.doc, st.header, st.current.value)
        == Some(Entry(st.current.value, Strip(Join(st.values, "")), Strip(Join(st.comments, "\n"))))
    ensures Pending(st) ==> st.header in Headers(r.doc)
    ensures Pending(st) ==> forall n :: n != st.current.value ==> Get(r.doc, st.header, n) == Get(st.doc, st.header, n)
    ensures forall h, n :: h != st.header ==> Get(r.doc, h, n) == Get(st.doc, h, n)
    ensures WellFormed(st.doc) ==> WellFormed(r.doc)
  {
    if Pending(st) then
      var n := st.current.value;
      var d := Store(st.doc, st.header, n, Strip(Join(st.values, "")), Strip(Join(st.comments, "\n")));
      st.(doc := d)
    else st
  }

  /** The document a pending parameter is flushed into. */
  lemma FlushStores(st: State, n: string, v: string, c: string)
    requires st.current == Some(n) && n != ""
    requires Strip(Join(st.values, "")) == v && Strip(Join(st.comments, "\n")) == c
    ensures Flush(st).doc == Store(st.doc, st.header, n, v, c)
  {
  }

  /** What one iteration of the loop in `parse_lines` does with a line of
      the given kind. */
  function Apply(st: State, k: LineKind): (r: State)
    ensures k.Header? ==> r.header == Some(k.name) && !Pending(r) && Some(k.name) in Headers(r.doc)
    ensures !k.Header? ==> r.header == st.header
    ensures (k.Assignment? || k.BlockMarker?) ==> r.current == Some(k.name) && r.doc == Flush(st).doc
    ensures (k.Comment? || k.Unrecognized?) ==> r.doc == st.doc && r.current == st.current
    ensures k.Unrecognized? ==> r == st
    ensures WellFormed(st.doc) ==> WellFormed(r.doc)
  {
    match k
    case Header(h) =>
      var f := Flush(st);
      State(Some(h), None, [], [], EnsureHeader(f.doc, Some(h)))
    case Comment(t) =>
      if Pending(st) then st.(comments := st.comments + [t]) else st
    case Assignment(n, v, c) =>
      Flush(st).(current := Some(n), values := [v], comments := [c])
    case BlockMarker(n) =>
      Flush(st).(current := Some(n), values := [""], comments := [""])
    case Unrecognized =>
      st
  }

  /** One iteration of the loop in `parse_lines`. */
  function Step(st: State, line: string): State {
    Apply(st, Classify(line))
  }

  /** The loop of `parse_lines` over `lines`, from state `st`. */
  function Run(st: State, lines: seq<string>): State
    decreases |lines|
  {
    if lines == [] then st else Run(Step(st, lines[0]), lines[1..])
  }

  /** The classification of every line, in order. */
  function Kinds(lines: seq<string>): (ks: seq<LineKind>)
    ensures |ks| == |lines|
    ensures forall i :: 0 <= i < |lines| ==> ks[i] == Classify(lines[i])
  {
    seq(|lines|, i requires 0 <= i < |lines| => Classify(lines[i]))
  }

  /** `Kinds` is characterised pointwise. */
  lemma KindsPointwise(lines: seq<string>, ks: seq<LineKind>)
    requires |lines| == |ks|
    requires forall i :: 0 <= i < |lines| ==> Classify(lines[i]) == ks[i]
    ensures Kinds(lines) == ks
  {
  }

  lemma KindsSingle(line: string, k: LineKind)
    requires Classify(line) == k
    ensures Kinds([line]) == [k]
  {
    var ks := Kinds([line]);
    assert [line][0] == line;
    assert ks[0] == k;
  }

  /** Classifying is line by line, so it distributes over concatenation. */
  lemma KindsAppend(a: seq<string>, b: seq<string>)
    ensures Kinds(a + b) == Kinds(a) + Kinds(b)
  {
    var l := Kinds(a + b);
    var r := Kinds(a) + Kinds(b);
    forall i | 0 <= i < |l| ensures l[i] == r[i] {
      if i < |a| {
        assert (a + b)[i] == a[i];
      } else {
        assert (a + b)[i] == b[i - |a|];
      }
    }
  }

  /** The loop over lines that are already classified. */
  function RunKinds(st: State, ks: seq<LineKind>): State
    decreases |ks|
  {
    if ks == [] then st else RunKinds(Apply(st, ks[0]), ks[1..])
  }

  /** The loop classifies each line and reacts to its kind: running over the
      lines is running over their kinds. */
  lemma {:induction false} RunByKinds(st: State, lines: seq<string>)
    ensures Run(st, lines) == RunKinds(st, Kinds(lines))
    decreases |lines|
  {
    if lines != [] {
      var s1 := Step(st, lines[0]);
      assert Run(st, lines) == Run(s1, lines[1..]);
      RunByKinds(s1, lines[1..]);
      assert Kinds(lines)[1..] == Kinds(lines[1..]);
      assert s1 == Apply(st, Kinds(lines)[0]);
    }
  }

  lemma {:induction false} RunKindsAppend(st: State, a: seq<LineKind>, b: seq<LineKind>)
    ensures RunKinds(st, a + b) == RunKinds(RunKinds(st, a), b)
    decreases |a|
  {
    hide Step;
    if a == [] {
      assert a + b == b;
    } else {
      var s1 := Apply(st, a[0]);
      assert (a + b)[0] == a[0];
      assert (a + b)[1..] == a[1..] + b;
      RunKindsAppend(s1, a[1..], b);
    }
  }

  lemma RunKindsSingle(st: State, k: LineKind)
    ensures RunKinds(st, [k]) == Apply(st, k)
  {
    assert [k][1..] == [];
  }

  /** A header line flushes the pending parameter and moves the cursor to
      the header, with nothing pending. */
  lemma HeaderStarts(st: State, h: string)
    ensures Apply(st, Header(h)) == State(Some(h), None, [], [], EnsureHeader(Flush(st).doc, Some(h)))
  {
  }

  /** An assignment flushes the pending parameter and starts a new one with
      its value and inline comment as the first fragments. */
  lemma AssignmentStarts(st: State, n: string, v: string, c: string)
    ensures Apply(st, Assignment(n, v, c)) == State(st.header, Some(n), [v], [c], Flush(st).doc)
  {
    hide Flush;
  }

  /** A block line flushes the pending parameter and starts a new one named
      by the line, with empty fragments. */
  lemma BlockStarts(st: State, n: string)
    ensures Apply(st, BlockMarker(n)) == State(st.header, Some(n), [""], [""], Flush(st).doc)
  {
    hide Flush;
  }

  /** `parse_lines`: the loop, then the final flush of the last parameter. */
  function Parse(lines: seq<string>): (d: Doc)
    ensures WellFormed(d)
  {
    RunExtends(Init, lines);
    Flush(Run(Init, lines)).doc
  }

  /** The parse of a file depends only on the kinds of its lines. */
  lemma ParseByKinds(a: seq<string>, b: seq<string>)
    requires Kinds(a) == Kinds(b)
    ensures Parse(a) == Parse(b)
  {
    RunByKinds(Init, a);
    RunByKinds(Init, b);
  }

  /** A header line flushes the pending parameter, points the cursor at the
      new header with nothing pending, and makes the header present even if
      no parameter follows; a header already present keeps its parameters. */
  lemma HeaderStep(st: State, line: string, h: string)
    requires Classify(line) == Header(h)
    ensures var r := Step(st, line);
      && r.header == Some(h) && !Pending(r) && r.values == [] && r.comments == []
      && Some(h) in Headers(r.doc)
      && Headers(r.doc) == (if Some(h) in Headers(Flush(st).doc) then Headers(Flush(st).doc) else Headers(Flush(st).doc) + [Some(h)])
      && (forall h', n :: Get(r.doc, h', n) == Get(Flush(st).doc, h', n))
      && Flush(r) == r
  {
  }

  /** A comment-only line extends the pending parameter's comment with its
      stripped text, and is dropped when nothing is pending (top of file,
      right after a header, after a parameter named by the empty string). */
  lemma CommentStep(st: State, line: string)
    requires Classify(line).Comment?
    ensures var r := Step(st, line);
      && r.doc == st.doc && r.header == st.header && r.current == st.current && r.values == st.values
      && r.comments == (if Pending(st) then st.comments + [Strip(line)] else st.comments)
  {
  }

  /** An assignment or block line flushes the pending parameter and makes
      its own name pending with one value fragment and one comment fragment;
      a block line's fragments are both empty. */
  lemma ParameterStep(st: State, line: string)
    requires Classify(line).Assignment? || Classify(line).BlockMarker?
    ensures var r := Step(st, line);
      && r.doc == Flush(st).doc && r.header == st.header
      && (Classify(line).Assignment? ==>
            r.current == Some(Classify(line).name)
            && r.values == [Classify(line).value] && r.comments == [Classify(line).inline])
      && (Classify(line).BlockMarker? ==>
            r.current == Some(Strip(line)) && r.values == [""] && r.comments == [""])
  {
  }

  /** A line that matches none of the four tests changes nothing: in
      particular it does not end the pending parameter. */
  lemma UnrecognizedStep(st: State, line: string)
    requires Classify(line).Unrecognized?
    ensures Step(st, line) == st
  {
  }

  /** Blank lines are such lines. */
  lemma BlankStep(st: State, line: string)
    requires AllSpace(line)
    ensures Step(st, line) == st
  {
    BlankLine(line);
    UnrecognizedStep(st, line);
  }

  /** A comment line after a blank line still attaches to the parameter
      pending before the blank line. */
  lemma CommentAfterBlank(st: State, blank: string, line: string)
    requires Pending(st) && AllSpace(blank) && Classify(line).Comment?
    ensures Run(st, [blank, line]).comments == st.comments + [Strip(line)]
  {
    BlankStep(st, blank);
    CommentStep(st, line);
    RunTwo(st, blank, line);
    hide *;
  }

  lemma RunTwo(st: State, a: string, b: string)
    ensures Run(st, [a, b]) == Step(Step(st, a), b)
  {
    hide Step;
    assert [a, b][1..] == [b] && [b][1..] == [];
    assert Run(st, [a, b]) == Run(Step(st, a), [b]);
    assert Run(Step(st, a), [b]) == Run(Step(Step(st, a), b), []);
  }

  lemma {:induction false} RunAppend(st: State, a: seq<string>, b: seq<string>)
    ensures Run(st, a + b) == Run(Run(st, a), b)
    decreases |a|
  {
    hide Step;
    if a == [] {
      assert a + b == b;
    } else {
      var s1 := Step(st, a[0]);
      assert (a + b)[0] == a[0];
      assert (a + b)[1..] == a[1..] + b;
      assert Run(st, a + b) == Run(s1, a[1..] + b);
      assert Run(st, a) == Run(s1, a[1..]);
      RunAppend(s1, a[1..], b);
    }
  }

  /** What one line does to the flushed view of the state only ever extends
      it: stored keys keep their positions and new keys are appended. */
  lemma ApplyExtends(st: State, k: LineKind)
    ensures Extends(Flush(st).doc, Flush(Apply(st, k)).doc)
    ensures WellFormed(st.doc) ==> WellFormed(Apply(st, k).doc)
  {
    var f := Flush(st);
    var r := Apply(st, k);
    match k
    case Header(h) =>
      EnsureHeaderExtends(f.doc, Some(h));
    case Comment(t) =>
      if Pending(st) {
        var n := st.current.value;
        var v := Strip(Join(st.values, ""));
        StoreSameKeys(st.doc, st.header, n, v, Strip(Join(st.comments, "\n")), v, Strip(Join(r.comments, "\n")));
      } else {
        ExtendsReflexive(st.doc);
      }
    case Assignment(n, v, c) =>
      if Pending(r) {
        StoreExtends(f.doc, r.header, n, Strip(Join(r.values, "")), Strip(Join(r.comments, "\n")));
      } else {
        ExtendsReflexive(f.doc);
      }
    case BlockMarker(n) =>
      if Pending(r) {
        StoreExtends(f.doc, r.header, n, Strip(Join(r.values, "")), Strip(Join(r.comments, "\n")));
      } else {
        ExtendsReflexive(f.doc);
      }
    case Unrecognized =>
      ExtendsReflexive(f.doc);
  }

  lemma StepExtends(st: State, line: string)
    ensures Extends(Flush(st).doc, Flush(Step(st, line)).doc)
    ensures WellFormed(st.doc) ==> WellFormed(Step(st, line).doc)
  {
    ApplyExtends(st, Classify(line));
  }

  /** Over any run of lines, the flushed document only grows by appending:
      nothing stored is ever reordered or lost, and keys stay unique. */
  lemma {:induction false} RunExtends(st: State, lines: seq<string>)
    ensures Extends(Flush(st).doc, Flush(Run(st, lines)).doc)
    ensures WellFormed(st.doc) ==> WellFormed(Run(st, lines).doc)
    decreases |lines|
  {
    if lines == [] {
      ExtendsReflexive(Flush(st).doc);
    } else {
      var s1 := Step(st, lines[0]);
      StepExtends(st, lines[0]);
      RunExtends(s1, lines[1..]);
      ExtendsTransitive(Flush(st).doc, Flush(s1).doc, Flush(Run(s1, lines[1..])).doc);
    }
  }

  /** Whatever is stored after the first `i` lines (flushing what is pending)
      is still there, at the same position, in the final document. */
  lemma ParsePrefixExtends(lines: seq<string>, i: nat)
    requires i <= |lines|
    ensures Extends(Flush(Run(Init, lines[..i])).doc, Parse(lines))
  {
    assert lines == lines[..i] + lines[i..];
    RunAppend(Init, lines[..i], lines[i..]);
    RunExtends(Run(Init, lines[..i]), lines[i..]);
  }

  /** Reading one more line is one more step. */
  lemma RunSnoc(st: State, a: seq<string>, line: string)
    ensures Run(st, a + [line]) == Step(Run(st, a), line)
  {
    RunAppend(st, a, [line]);
    var s1 := Run(st, a);
    assert [line][1..] == [];
    assert Run(s1, [line]) == Run(Step(s1, line), []);
  }

  /** The state right after line `i` has been read. */
  lemma RunThrough(lines: seq<string>, i: nat)
    requires i < |lines|
    ensures Run(Init, lines[..i + 1]) == Step(Run(Init, lines[..i]), lines[i])
  {
    assert lines[..i + 1] == lines[..i] + [lines[i]];
    RunSnoc(Init, lines[..i], lines[i]);
  }

  /** Every header line's header is in the parsed document, even when no
      parameter follows it and however often it repeats. */
  lemma HeaderRetained(lines: seq<string>, i: nat, h: string)
    requires i < |lines| && Classify(lines[i]) == Header(h)
    ensures Some(h) in Headers(Parse(lines))
  {
    RunThrough(lines, i);
    var r := Run(Init, lines[..i + 1]);
    HeaderStep(Run(Init, lines[..i]), lines[i], h);
    assert Some(h) in Headers(Flush(r).doc);
    ParsePrefixExtends(lines, i + 1);
    PrefixMember(Headers(Flush(r).doc), Headers(Parse(lines)), Some(h));
  }

  /** Every parameter line with a non-empty name ends up stored under the
      header that was current when it was read. */
  lemma ParameterRetained(lines: seq<string>, i: nat)
    requires i < |lines|
    requires Classify(lines[i]).Assignment? || Classify(lines[i]).BlockMarker?
    requires Classify(lines[i]).name != ""
    ensures Classify(lines[i]).name in NamesOf(Parse(lines), Run(Init, lines[..i + 1]).header)
  {
    var n := Classify(lines[i]).name;
    RunThrough(lines, i);
    var r := Run(Init, lines[..i + 1]);
    ParameterStep(Run(Init, lines[..i]), lines[i]);
    assert r.current == Some(n);
    GetInNames(Flush(r).doc, r.header, n);
    ParsePrefixExtends(lines, i + 1);
    PrefixMember(NamesOf(Flush(r).doc, r.header), NamesOf(Parse(lines), r.header), n);
  }
}

=== FILE: provenance.dfy ===
/**
 Where the keys of a parse come from. `Parser.HeaderRetained` and
 `Parser.ParameterRetained` say that every banner and every named parameter
 line leaves its key in the result; this module proves the converse, so a
 key is in the result exactly when a line of the input put it there, and it
 proves that headers are listed in the order of their first banners.
 */
module Provenance {
  import opened Options
  import opened Text
  import opened Document
  import opened Classifier
  import opened Parser

  /** Line `i` is a banner of header `x`. */
  ghost predicate BannerAt(lines: seq<string>, i: int, x: string) {
    0 <= i < |lines| && Classify(lines[i]) == Header(x)
  }

  /** Line `i` is an assignment or block line with the non-empty name `n`,
      read while `h` was the current header. */
  ghost predicate ParameterAt(lines: seq<string>, i: int, n: string, h: Option<string>) {
    && 0 <= i < |lines|
    && (Classify(lines[i]).Assignment? || Classify(lines[i]).BlockMarker?)
    && Classify(lines[i]).name == n && n != ""
    && Run(Init, lines[..i + 1]).header == h
  }

  /** Every key of `d` was put there by one of the first `k` lines; the
      header `None` only ever holds parameters. */
  ghost predicate DocSourced(lines: seq<string>, k: nat, d: Doc) {
    && (forall x :: Some(x) in Headers(d) ==> exists i :: 0 <= i < k && BannerAt(lines, i, x))
    && (None in Headers(d) ==> NamesOf(d, None) != [])
    && (forall h, n :: n in NamesOf(d, h) ==> exists i :: 0 <= i < k && ParameterAt(lines, i, n, h))
  }

  /** The same for a parser state after `k` lines, including its cursor: the
      current header came from a banner and the pending name from a
      parameter line read under that header. */
  ghost predicate StateSourced(lines: seq<string>, k: nat, st: State) {
    && (st.header.Some? ==> exists i :: 0 <= i < k && BannerAt(lines, i, st.header.value))
    && (Pending(st) ==> exists i :: 0 <= i < k && ParameterAt(lines, i, st.current.value, st.header))
    && DocSourced(lines, k, st.doc)
  }

  lemma SourcedLater(lines: seq<string>, k: nat, st: State)
    requires StateSourced(lines, k, st)
    ensures StateSourced(lines, k + 1, st)
  {
  }

  /** Flushing stores the pending name under the current header, both of
      which came from lines already read. */
  lemma FlushSourced(lines: seq<string>, k: nat, st: State)
    requires StateSourced(lines, k, st)
    ensures DocSourced(lines, k, Flush(st).doc)
  {
    if Pending(st) {
      var n := st.current.value;
      var v := Strip(Join(st.values, ""));
      var c := Strip(Join(st.comments, "\n"));
      FlushStores(st, n, v, c);
      hide *;
      StoreSourced(lines, k, st.doc, st.header, n, v, c);
    }
  }

  /** Storing a name read under a header keeps every key traceable. */
  lemma StoreSourced(lines: seq<string>, k: nat, d: Doc, h: Option<string>, n: string, v: string, c: string)
    requires DocSourced(lines, k, d)
    requires h.Some? ==> exists i :: 0 <= i < k && BannerAt(lines, i, h.value)
    requires exists i :: 0 <= i < k && ParameterAt(lines, i, n, h)
    ensures DocSourced(lines, k, Store(d, h, n, v, c))
  {
    StoreHeadersSourced(lines, k, d, h, n, v, c);
    StoreNoneSourced(d, h, n, v, c);
    StoreNamesSourced(lines, k, d, h, n, v, c);
  }

  lemma StoreHeadersSourced(lines: seq<string>, k: nat, d: Doc, h: Option<string>, n: string, v: string, c: string)
    requires forall x :: Some(x) in Headers(d) ==> exists i :: 0 <= i < k && BannerAt(lines, i, x)
    requires h.Some? ==> exists i :: 0 <= i < k && BannerAt(lines, i, h.value)
    ensures forall x :: Some(x) in Headers(Store(d, h, n, v, c)) ==> exists i :: 0 <= i < k && BannerAt(lines, i, x)
  {
    hide Store, BannerAt, Headers, NamesOf, Get;
  }

  lemma StoreNoneSourced(d: Doc, h: Option<string>, n: string, v: string, c: string)
    requires None in Headers(d) ==> NamesOf(d, None) != []
    ensures None in Headers(Store(d, h, n, v, c)) ==> NamesOf(Store(d, h, n, v, c), None) != []
  {
    hide Store, Headers, NamesOf, Get;
  }

  lemma StoreNamesSourced(lines: seq<string>, k: nat, d: Doc, h: Option<string>, n: string, v: string, c: string)
    requires forall h', m :: m in NamesOf(d, h') ==> exists i :: 0 <= i < k && ParameterAt(lines, i, m, h')
    requires exists i :: 0 <= i < k && ParameterAt(lines, i, n, h)
    ensures forall h', m :: m in NamesOf(Store(d, h, n, v, c), h') ==> exists i :: 0 <= i < k && ParameterAt(lines, i, m, h')
  {
    hide Store, ParameterAt, Headers, NamesOf, Get;
    forall h', m | m in NamesOf(Store(d, h, n, v, c), h')
      ensures exists i :: 0 <= i < k && ParameterAt(lines, i, m, h')
    {
      if h' != h || m != n {
        assert m in NamesOf(d, h');
      }
    }
  }

  /** One more line keeps every key and the cursor traceable to a line. */
  lemma StepSourced(lines: seq<string>, k: nat)
    requires k < |lines|
    requires StateSourced(lines, k, Run(Init, lines[..k]))
    ensures StateSourced(lines, k + 1, Run(Init, lines[..k + 1]))
  {
    var st := Run(Init, lines[..k]);
    var r := Run(Init, lines[..k + 1]);
    RunThrough(lines, k);
    SourcedLater(lines, k, st);
    FlushSourced(lines, k + 1, st);
    var kind := Classify(lines[k]);
    assert r == Apply(st, kind);
    hide *;
    match kind
    case Header(x) =>
      HeaderStarts(st, x);
      BannerSourced(lines, k, st, r, x);
    case Assignment(n, _, _) =>
      ParameterSourced(lines, k, st, r, n);
    case BlockMarker(n) =>
      ParameterSourced(lines, k, st, r, n);
    case Comment(_) =>
      CursorKept(lines, k, st, r);
    case Unrecognized =>
      CursorKept(lines, k, st, r);
  }

  lemma BannerSourced(lines: seq<string>, k: nat, st: State, r: State, x: string)
    requires StateSourced(lines, k + 1, st) && DocSourced(lines, k + 1, Flush(st).doc)
    requires BannerAt(lines, k, x)
    requires r == State(Some(x), None, [], [], EnsureHeader(Flush(st).doc, Some(x)))
    ensures StateSourced(lines, k + 1, r)
  {
    hide Classify, Run, Flush, EnsureHeader, BannerAt, ParameterAt;
  }

  lemma ParameterSourced(lines: seq<string>, k: nat, st: State, r: State, n: string)
    requires StateSourced(lines, k + 1, st) && DocSourced(lines, k + 1, Flush(st).doc)
    requires k < |lines| && r == Run(Init, lines[..k + 1])
    requires Classify(lines[k]).Assignment? || Classify(lines[k]).BlockMarker?
    requires Classify(lines[k]).name == n
    requires r.current == Some(n) && r.doc == Flush(st).doc && r.header == st.header
    ensures StateSourced(lines, k + 1, r)
  {
    hide Classify, Run, Flush, BannerAt;
    if Pending(r) {
      assert ParameterAt(lines, k, n, r.header);
    }
  }

  lemma CursorKept(lines: seq<string>, k: nat, st: State, r: State)
    requires StateSourced(lines, k + 1, st)
    requires r.doc == st.doc && r.current == st.current && r.header == st.header
    ensures StateSourced(lines, k + 1, r)
  {
    hide Classify, Run, BannerAt, ParameterAt;
  }

  lemma {:induction false} RunSourced(lines: seq<string>, k: nat)
    requires k <= |lines|
    ensures StateSourced(lines, k, Run(Init, lines[..k]))
    decreases k
  {
    hide *;
    if k == 0 {
      InitSourced(lines);
    } else {
      RunSourced(lines, k - 1);
      StepSourced(lines, k - 1);
    }
  }

  /** Before any line is read there is nothing to account for. */
  lemma InitSourced(lines: seq<string>)
    ensures StateSourced(lines, 0, Run(Init, lines[..0]))
  {
    assert lines[..0] == [];
    assert Run(Init, lines[..0]) == Init;
  }

  /** Every key of the parse comes from a line of the input. */
  lemma ParseSourced(lines: seq<string>)
    ensures DocSourced(lines, |lines|, Parse(lines))
  {
    RunSourced(lines, |lines|);
    assert lines[..|lines|] == lines;
    FlushSourced(lines, |lines|, Run(Init, lines));
  }

  /** A header text is a key of the parse exactly when some line is its
      banner. */
  lemma HeadersFromBanners(lines: seq<string>, x: string)
    ensures Some(x) in Headers(Parse(lines)) <==> exists i :: BannerAt(lines, i, x)
  {
    ParseSourced(lines);
    if i :| BannerAt(lines, i, x) {
      HeaderRetained(lines, i, x);
    }
  }

  /** A name is a key of the parse under header `h` exactly when some
      assignment or block line with that non-empty name was read while `h`
      was the current header. */
  lemma NamesFromParameters(lines: seq<string>, h: Option<string>, n: string)
    ensures n in NamesOf(Parse(lines), h) <==> exists i :: ParameterAt(lines, i, n, h)
  {
    ParseSourced(lines);
    if i :| ParameterAt(lines, i, n, h) {
      ParameterRetained(lines, i);
    }
  }

  /** Once a banner has been read the current header is never `None` again. */
  lemma {:induction false} HeaderStays(st: State, ls: seq<string>)
    requires st.header.Some?
    ensures Run(st, ls).header.Some?
    decreases |ls|
  {
    if ls != [] {
      HeaderStays(Step(st, ls[0]), ls[1..]);
    }
  }

  /** The current header is `None` only while no banner has been read. */
  lemma NoneBeforeBanners(lines: seq<string>, i: nat, j: nat)
    requires j <= i < |lines| && Classify(lines[j]).Header?
    ensures Run(Init, lines[..i + 1]).header.Some?
  {
    hide Classify, Run, Apply;
    RunThrough(lines, j);
    assert Run(Init, lines[..j + 1]).header.Some?;
    PrefixSplit(lines, j + 1, i + 1);
    RunAppend(Init, lines[..j + 1], lines[j + 1..i + 1]);
    HeaderStays(Run(Init, lines[..j + 1]), lines[j + 1..i + 1]);
  }

  /** The header key `None` is in the parse only when a named parameter
      line comes before every banner. */
  lemma NoneHeaderSource(lines: seq<string>)
    requires None in Headers(Parse(lines))
    ensures exists i, n :: (ParameterAt(lines, i, n, None)
      && forall j :: 0 <= j <= i ==> !Classify(lines[j]).Header?)
  {
    ParseSourced(lines);
    var d := Parse(lines);
    var n := NamesOf(d, None)[0];
    assert n in NamesOf(d, None);
    var i :| 0 <= i < |lines| && ParameterAt(lines, i, n, None);
    forall j | 0 <= j <= i ensures !Classify(lines[j]).Header? {
      if Classify(lines[j]).Header? {
        NoneBeforeBanners(lines, i, j);
      }
    }
  }

  /** In a list without repeats that starts with `before + [y]`, where `x`
      is in `before`, `x` is found before `y`. */
  lemma FoundBefore<T>(before: seq<T>, final: seq<T>, x: T, y: T)
    requires x in before && IsPrefixOf(before + [y], final) && Distinct(final)
    ensures IndexOf(final, x).Some? && IndexOf(final, y).Some?
    ensures IndexOf(final, x).value < IndexOf(final, y).value
  {
    var p := IndexOf(before, x).value;
    assert final[p] == x && final[|before|] == y;
  }

  /** The state before line `j` of a parse. */
  function Before(lines: seq<string>, j: nat): State
    requires j <= |lines|
  {
    Run(Init, lines[..j])
  }

  /** A banner makes its header a key at once. */
  lemma BannerKey(lines: seq<string>, i: nat, x: string)
    requires BannerAt(lines, i, x)
    ensures Some(x) in Headers(Flush(Before(lines, i + 1)).doc)
  {
    hide Classify, Run, Step, Apply, Flush;
    RunThrough(lines, i);
    HeaderStep(Run(Init, lines[..i]), lines[i], x);
  }

  /** A document that extends another lists its headers first. */
  lemma ExtendsHeaders(d1: Doc, d2: Doc)
    requires Extends(d1, d2)
    ensures IsPrefixOf(Headers(d1), Headers(d2))
  {
  }

  /** A header whose banner has been read stays a key. */
  lemma KeyAfterBanner(lines: seq<string>, i: nat, j: nat, x: string)
    requires i < j <= |lines| && BannerAt(lines, i, x)
    ensures Some(x) in Headers(Flush(Before(lines, j)).doc)
  {
    BannerKey(lines, i, x);
    PrefixSplit(lines, i + 1, j);
    var si := Before(lines, i + 1);
    var rest := lines[i + 1..j];
    RunAppend(Init, lines[..i + 1], rest);
    RunExtends(si, rest);
    ExtendsHeaders(Flush(si).doc, Flush(Run(si, rest)).doc);
    hide Classify, Run, Step, Apply, Flush, Extends, WellFormed, NamesOf, Headers;
    assert Run(si, rest) == Before(lines, j);
    PrefixMember(Headers(Flush(si).doc), Headers(Flush(Before(lines, j)).doc), Some(x));
  }

  /** Line `j` is the first banner of header `y`. */
  ghost predicate FirstBanner(lines: seq<string>, j: int, y: string) {
    && BannerAt(lines, j, y)
    && forall k :: 0 <= k < j ==> Classify(lines[k]) != Header(y)
  }

  /** A header is not a key before its first banner. */
  lemma NoKeyBeforeBanner(lines: seq<string>, j: nat, y: string)
    requires FirstBanner(lines, j, y)
    ensures Some(y) !in Headers(Flush(Before(lines, j)).doc)
  {
    hide Classify, Run, Flush;
    RunSourced(lines, j);
    FlushSourced(lines, j, Before(lines, j));
    if Some(y) in Headers(Flush(Before(lines, j)).doc) {
      assert false;
    }
  }

  /** The first banner of a header appends it after every key so far. */
  lemma FirstBannerAppends(lines: seq<string>, j: nat, y: string)
    requires FirstBanner(lines, j, y)
    ensures Headers(Flush(Before(lines, j + 1)).doc) == Headers(Flush(Before(lines, j)).doc) + [Some(y)]
  {
    NoKeyBeforeBanner(lines, j, y);
    hide Classify, Run, Step, Apply, Flush;
    RunThrough(lines, j);
    HeaderStep(Before(lines, j), lines[j], y);
  }

  /** The first banner of `y` appends it to the headers so far, and the
      final headers start with the result. */
  lemma OrderFacts(lines: seq<string>, j: nat, y: string)
    requires FirstBanner(lines, j, y)
    ensures IsPrefixOf(Headers(Flush(Before(lines, j)).doc) + [Some(y)], Headers(Parse(lines)))
  {
    FirstBannerAppends(lines, j, y);
    ParsePrefixExtends(lines, j + 1);
    hide *;
    ExtendsHeaders(Flush(Before(lines, j + 1)).doc, Parse(lines));
  }

  /** Headers are listed in the order of their first banners: a header whose
      first banner comes after a banner of another header is listed after
      that header. */
  lemma HeaderOrder(lines: seq<string>, i: nat, j: nat, x: string, y: string)
    requires i < j && BannerAt(lines, i, x) && FirstBanner(lines, j, y)
    ensures FindHeader(Parse(lines), Some(x)).Some? && FindHeader(Parse(lines), Some(y)).Some?
    ensures FindHeader(Parse(lines), Some(x)).value < FindHeader(Parse(lines), Some(y)).value
  {
    KeyAfterBanner(lines, i, j, x);
    OrderFacts(lines, j, y);
    ParseDistinct(lines);
    hide *;
    FoundBefore(Headers(Flush(Before(lines, j)).doc), Headers(Parse(lines)), Some(x), Some(y));
    FoundHeader(Parse(lines), Some(x));
    FoundHeader(Parse(lines), Some(y));
  }

  lemma FoundHeader(d: Doc, h: Option<string>)
    ensures FindHeader(d, h) == IndexOf(Headers(d), h)
  {
  }

  lemma ParseDistinct(lines: seq<string>)
    ensures Distinct(Headers(Parse(lines)))
  {
  }
}

=== FILE: roundtrip.dfy ===
/**
 Reading back what the writer wrote: `parse_lines` over the lines of
 `writefile_MOM_input` gives back the same two dictionaries, for every
 document whose keys, values and comments survive the trip through a line
 (`Written.SafeDoc`). The counterexamples at the end show that the trip is
 not unconditional.
 */
module RoundTrip {
  import opened Options
  import opened Text
  import opened Document
  import opened Classifier
  import opened Parser
  import opened Writer
  import opened Written

  /** The parser's state part-way through the header `h`, once the entries
      `done` have been read after the documents `pre`: the last entry read is
      still pending, the earlier ones are stored. */
  function Cursor(h: string, pre: Doc, done: seq<Entry>): State {
    if done == [] then State(Some(h), None, [], [], pre + [Section(Some(h), [])])
    else
      var e := done[|done| - 1];
      State(Some(h), Some(e.name), [e.value], Fragments(e), pre + [Section(Some(h), done[..|done| - 1])])
  }

  lemma HeadersSnoc(pre: Doc, s: Section)
    ensures Headers(pre + [s]) == Headers(pre) + [s.header]
  {
  }

  /** Storing a new name under the last header, when that header is new to
      everything before it, appends the entry to that header's section. */
  lemma StoreAppends(pre: Doc, h: string, es: seq<Entry>, n: string, v: string, c: string)
    requires Some(h) !in Headers(pre) && n !in Names(es)
    ensures Store(pre + [Section(Some(h), es)], Some(h), n, v, c)
      == pre + [Section(Some(h), es + [Entry(n, v, c)])]
  {
    var d := pre + [Section(Some(h), es)];
    HeadersSnoc(pre, Section(Some(h), es));
    assert EnsureHeader(d, Some(h)) == d;
    assert Headers(d)[..|pre|] == Headers(pre);
    IndexOfUnique(Headers(d), Some(h), |pre|);
    assert FindHeader(d, Some(h)) == Some(|pre|);
    assert IndexOf(Names(es), n).None?;
    assert Put(es, n, v, c) == es + [Entry(n, v, c)];
  }

  /** What the parser stores for a safe entry read back from its lines is
      the entry itself: the value joins and strips to itself, the comment
      fragments join with line feeds and strip to the comment. */
  lemma FlushedEntry(e: Entry)
    requires SafeEntry(e)
    ensures Strip(Join([e.value], "")) == e.value
    ensures Strip(Join(Fragments(e), "\n")) == e.comment
  {
    assert Join([e.value], "") == e.value;
    StripStripped(e.value);
    if e.comment == "" {
      assert Join([""], "\n") == "";
      StripStripped("");
    } else {
      JoinSplit(e.comment, '\n');
      StripStripped(e.comment);
    }
  }

  /** A pending safe entry with a new name is flushed to the end of the
      last header's section. */
  lemma FlushPending(h: string, pre: Doc, es: seq<Entry>, e: Entry)
    requires Some(h) !in Headers(pre) && e.name !in Names(es) && SafeEntry(e)
    ensures Flush(State(Some(h), Some(e.name), [e.value], Fragments(e), pre + [Section(Some(h), es)])).doc
      == pre + [Section(Some(h), es + [e])]
  {
    hide Flush, Store, Strip, Join, Fragments, Split;
    var st := State(Some(h), Some(e.name), [e.value], Fragments(e), pre + [Section(Some(h), es)]);
    FlushedEntry(e);
    FlushStores(st, e.name, e.value, e.comment);
    StoreAppends(pre, h, es, e.name, e.value, e.comment);
  }

  /** With distinct names, the last name does not occur before it. */
  lemma LastNameNew(done: seq<Entry>)
    requires done != [] && Distinct(Names(done))
    ensures done[|done| - 1].name !in Names(done[..|done| - 1])
  {
    var ns := Names(done);
    var k := |done| - 1;
    assert Names(done[..k]) == ns[..k];
    forall i | 0 <= i < k ensures ns[..k][i] != ns[k] {
      assert ns[i] != ns[k];
    }
  }

  /** Flushing the cursor stores its pending entry at the end. */
  lemma FlushCursor(h: string, pre: Doc, done: seq<Entry>)
    requires Some(h) !in Headers(pre) && Distinct(Names(done))
    requires forall j :: 0 <= j < |done| ==> SafeEntry(done[j])
    ensures Flush(Cursor(h, pre, done)).doc == pre + [Section(Some(h), done)]
  {
    if done != [] {
      var e := done[|done| - 1];
      var es := done[..|done| - 1];
      assert done == es + [e];
      LastNameNew(done);
      FlushPending(h, pre, es, e);
    }
  }

  /** Comment lines after a pending parameter extend its comment fragments. */
  lemma {:induction false} CommentsRun(st: State, cs: seq<string>)
    requires Pending(st)
    ensures RunKinds(st, Comments(cs)) == st.(comments := st.comments + cs)
    decreases |cs|
  {
    if cs == [] {
      assert st.comments + cs == st.comments;
    } else {
      var s1 := st.(comments := st.comments + [cs[0]]);
      assert Comments(cs)[1..] == Comments(cs[1..]);
      assert Apply(st, Comments(cs)[0]) == s1;
      CommentsRun(s1, cs[1..]);
      assert s1.comments + cs[1..] == st.comments + cs;
    }
  }

  /** Reading a commented parameter's lines: the assignment, then one
      comment line per further comment line. */
  lemma ReadCommentedEntry(st: State, e: Entry)
    requires SafeEntry(e) && e.comment != ""
    ensures RunKinds(st, EntryKinds(e)) == State(st.header, Some(e.name), [e.value], Fragments(e), Flush(st).doc)
  {
    var cs := Split(e.comment, '\n');
    var k0 := Assignment(e.name, e.value, cs[0]);
    var s1 := State(st.header, Some(e.name), [e.value], [cs[0]], Flush(st).doc);
    AssignmentStarts(st, e.name, e.value, cs[0]);
    RunKindsSingle(st, k0);
    RunKindsAppend(st, [k0], Comments(cs[1..]));
    CommentsRun(s1, cs[1..]);
    assert [cs[0]] + cs[1..] == cs;
  }

  /** Reading one parameter's lines flushes the previous parameter and makes
      this one pending with the fragments it was written from. */
  lemma ReadEntry(st: State, e: Entry)
    requires SafeEntry(e)
    ensures RunKinds(st, EntryKinds(e)) == State(st.header, Some(e.name), [e.value], Fragments(e), Flush(st).doc)
  {
    if e.comment != "" {
      ReadCommentedEntry(st, e);
    } else if e.name in BlockList {
      BlockStarts(st, e.name);
      RunKindsSingle(st, BlockMarker(e.name));
    } else {
      AssignmentStarts(st, e.name, e.value, "");
      RunKindsSingle(st, Assignment(e.name, e.value, ""));
    }
  }

  lemma CursorNext(h: string, pre: Doc, done: seq<Entry>, e: Entry)
    ensures Cursor(h, pre, done + [e])
      == State(Some(h), Some(e.name), [e.value], Fragments(e), pre + [Section(Some(h), done)])
  {
    assert (done + [e])[..|done|] == done;
  }

  lemma EntryRun(h: string, pre: Doc, done: seq<Entry>, e: Entry)
    requires Some(h) !in Headers(pre) && Distinct(Names(done))
    requires forall j :: 0 <= j < |done| ==> SafeEntry(done[j])
    requires SafeEntry(e)
    ensures RunKinds(Cursor(h, pre, done), EntryKinds(e)) == Cursor(h, pre, done + [e])
  {
    ReadEntry(Cursor(h, pre, done), e);
    FlushCursor(h, pre, done);
    CursorNext(h, pre, done, e);
  }

  lemma {:induction false} EntriesRun(h: string, pre: Doc, done: seq<Entry>, es: seq<Entry>)
    requires Some(h) !in Headers(pre) && Distinct(Names(done + es))
    requires forall j :: 0 <= j < |done| ==> SafeEntry(done[j])
    requires forall j :: 0 <= j < |es| ==> SafeEntry(es[j])
    ensures RunKinds(Cursor(h, pre, done), EntriesKinds(es)) == Cursor(h, pre, done + es)
    decreases |es|
  {
    hide Cursor, EntryKinds, SafeEntry;
    if es == [] {
      assert done + es == done;
    } else {
      var e := es[0];
      var next := done + [e];
      assert next + es[1..] == done + es;
      NamesPrefixDistinct(done, es);
      EntryRun(h, pre, done, e);
      RunKindsAppend(Cursor(h, pre, done), EntryKinds(e), EntriesKinds(es[1..]));
      assert forall j :: 0 <= j < |next| ==> SafeEntry(next[j]) by {
        forall j | 0 <= j < |next| ensures SafeEntry(next[j]) {
          if j < |done| { assert next[j] == done[j]; }
        }
      }
      EntriesRun(h, pre, next, es[1..]);
    }
  }

  /** The names of a prefix of entries with distinct names are distinct. */
  lemma NamesPrefixDistinct(a: seq<Entry>, b: seq<Entry>)
    requires Distinct(Names(a + b))
    ensures Distinct(Names(a))
  {
    var all := Names(a + b);
    forall i, j | 0 <= i < j < |a| ensures Names(a)[i] != Names(a)[j] {
      assert Names(a)[i] == all[i] && Names(a)[j] == all[j];
    }
  }

  /** A new header opens an empty section at the end. */
  lemma HeaderOpens(st: State, pre: Doc, h: string)
    requires Flush(st).doc == pre && Some(h) !in Headers(pre)
    ensures Apply(st, Header(h)) == Cursor(h, pre, [])
  {
    HeaderStarts(st, h);
  }

  /** Reading the lines of one header leaves its last entry pending. */
  lemma SectionRunCursor(st: State, pre: Doc, s: Section)
    requires Flush(st).doc == pre && s.header !in Headers(pre)
    requires SafeSection(s) && Distinct(Names(s.entries))
    ensures RunKinds(st, SectionKinds(s)) == Cursor(s.header.value, pre, s.entries)
  {
    hide RunKinds, Cursor, EntriesKinds, Flush, SafeEntry;
    var h := s.header.value;
    var body := [Header(h)] + EntriesKinds(s.entries);
    assert SectionKinds(s) == body + [Unrecognized];
    RunKindsAppend(st, body, [Unrecognized]);
    HeaderAndEntriesRun(st, pre, h, s.entries);
    RunKindsSingle(Cursor(h, pre, s.entries), Unrecognized);
  }

  /** A header line followed by the lines of its entries, with or without
      a blank line after them. */
  lemma HeaderAndEntriesRun(st: State, pre: Doc, h: string, es: seq<Entry>)
    requires Flush(st).doc == pre && Some(h) !in Headers(pre)
    requires Distinct(Names(es)) && forall j :: 0 <= j < |es| ==> SafeEntry(es[j])
    ensures RunKinds(st, [Header(h)] + EntriesKinds(es)) == Cursor(h, pre, es)
  {
    RunKindsAppend(st, [Header(h)], EntriesKinds(es));
    RunKindsSingle(st, Header(h));
    HeaderOpens(st, pre, h);
    assert [] + es == es;
    EntriesRun(h, pre, [], es);
  }

  /** Reading the lines of one header appends that header's section. */
  lemma SectionRun(st: State, pre: Doc, s: Section)
    requires Flush(st).doc == pre && s.header !in Headers(pre)
    requires SafeSection(s) && Distinct(Names(s.entries))
    ensures Flush(RunKinds(st, SectionKinds(s))).doc == pre + [s]
  {
    SectionRunCursor(st, pre, s);
    FlushCursor(s.header.value, pre, s.entries);
  }

  /** In a well-formed document, the first section after `pre` has a header
      not in `pre` and distinct names. */
  lemma NextSectionFresh(pre: Doc, d: Doc)
    requires WellFormed(pre + d) && d != []
    ensures d[0].header !in Headers(pre) && Distinct(Names(d[0].entries))
  {
    var all := pre + d;
    assert all[|pre|] == d[0];
    var hs := Headers(all);
    assert Headers(pre) == hs[..|pre|];
    forall i | 0 <= i < |pre| ensures hs[..|pre|][i] != hs[|pre|] {
      assert hs[i] != hs[|pre|];
    }
  }

  /** The conditions of `SectionsRun` carry over to the remaining
      sections once the first is read. */
  lemma SectionsRest(pre: Doc, d: Doc)
    requires WellFormed(pre + d) && d != []
    requires forall i :: 0 <= i < |d| ==> SafeSection(d[i])
    ensures (pre + [d[0]]) + d[1..] == pre + d
    ensures forall i :: 0 <= i < |d[1..]| ==> SafeSection(d[1..][i])
  {
    assert (pre + [d[0]]) + d[1..] == pre + d;
  }

  lemma {:induction false} SectionsRun(st: State, pre: Doc, d: Doc)
    requires Flush(st).doc == pre && WellFormed(pre + d)
    requires forall i :: 0 <= i < |d| ==> SafeSection(d[i])
    ensures Flush(RunKinds(st, SectionsKinds(d))).doc == pre + d
    decreases |d|
  {
    if d == [] {
      assert pre + d == pre;
    } else {
      var s1 := RunKinds(st, SectionKinds(d[0]));
      NextSectionFresh(pre, d);
      SectionRun(st, pre, d[0]);
      RunKindsAppend(st, SectionKinds(d[0]), SectionsKinds(d[1..]));
      SectionsRest(pre, d);
      SectionsRun(s1, pre + [d[0]], d[1..]);
    }
  }

  /** The round trip: parsing what the writer wrote gives back the document,
      both dictionaries with their key orders, for every column width. */
  lemma ParseAfterWrite(d: Doc, width: nat)
    requires SafeDoc(d)
    ensures Parse(Write(d, width)) == d
  {
    hide Run, RunKinds, Kinds, Write, Flush, SectionsKinds, SectionsLines;
    RunByKinds(Init, Write(d, width));
    WriteKinds(d, width);
    RunKindsAppend(Init, Kinds(Banner), SectionsKinds(d));
    PreambleInert();
    assert [] + d == d;
    SectionsRun(Init, [], d);
  }
}

=== FILE: text.dfy ===
/**
 The string primitives the parameter-file parser relies on, written out
 explicitly: Python's `str.strip()`, `str.split(sep)`, `sep.join(...)`,
 substring search and left-aligned padding (`f"{s:<{w}}"`).
 */
module Options {

  /** An optional value; `None` plays the role of Python's `None`. */
  datatype Option<+T> = None | Some(value: T)
}

module Text {
  import opened Options

  predicate Distinct<T(==)>(s: seq<T>) {
    forall i, j :: 0 <= i < j < |s| ==> s[i] != s[j]
  }

  predicate IsPrefixOf<T(==)>(p: seq<T>, s: seq<T>) {
    |p| <= |s| && s[..|p|] == p
  }

  lemma PrefixOfAppend<T>(s: seq<T>, t: seq<T>)
    ensures IsPrefixOf(s, s + t)
  {
    assert (s + t)[..|s|] == s;
  }

  lemma PrefixTransitive<T>(a: seq<T>, b: seq<T>, c: seq<T>)
    requires IsPrefixOf(a, b) && IsPrefixOf(b, c)
    ensures IsPrefixOf(a, c)
  {
    assert c[..|b|][..|a|] == c[..|a|];
  }

  /** A prefix cut in two. */
  lemma PrefixSplit<T>(s: seq<T>, a: nat, b: nat)
    requires a <= b <= |s|
    ensures s[..b] == s[..a] + s[a..b]
  {
  }

  lemma PrefixMember<T>(p: seq<T>, s: seq<T>, x: T)
    requires IsPrefixOf(p, s) && x in p
    ensures x in s
  {
    var i :| 0 <= i < |p| && p[i] == x;
    assert s[i] == x;
  }

  /** Position of the first occurrence of `x` in `s`, if any. */
  function IndexOf<T(==)>(s: seq<T>, x: T): (r: Option<nat>)
    ensures r.None? <==> x !in s
    ensures r.Some? ==> r.value < |s| && s[r.value] == x && x !in s[..r.value]
  {
    if s == [] then None
    else if s[0] == x then Some(0)
    else
      match IndexOf(s[1..], x)
      case None => None
      case Some(i) =>
        assert s[..i + 1] == [s[0]] + s[1..][..i];
        Some(i + 1)
  }

  /** The first occurrence is the only position satisfying its contract. */
  lemma IndexOfUnique<T>(s: seq<T>, x: T, i: nat)
    requires i < |s| && s[i] == x && x !in s[..i]
    ensures IndexOf(s, x) == Some(i)
  {
  }

  lemma IndexOfAppend<T>(s: seq<T>, t: seq<T>, x: T)
    requires x in s
    ensures IndexOf(s + t, x) == IndexOf(s, x)
  {
    var i := IndexOf(s, x).value;
    assert (s + t)[..i] == s[..i];
    IndexOfUnique(s + t, x, i);
  }


  /** Python's `str.isspace()` restricted to ASCII: tab, line feed, vertical
      tab, form feed, carriage return, the four information separators
      U+001C..U+001F, and space. */
  predicate IsSpace(c: char) {
    c == ' ' || c == '\t' || c == '\n' || c == '\r'
    || c == '\U{0B}' || c == '\U{0C}'
    || ('\U{1C}' <= c <= '\U{1F}')
  }

  predicate AllSpace(s: string) {
    forall i :: 0 <= i < |s| ==> IsSpace(s[i])
  }

  /** A string that `strip()` leaves alone: empty, or with non-space ends. */
  predicate Stripped(s: string) {
    s == [] || (!IsSpace(s[0]) && !IsSpace(s[|s| - 1]))
  }

  /** Python's `str.lstrip()`: the suffix left after dropping leading spaces. */
  function StripLeft(s: string): (r: string)
    ensures |r| <= |s| && r == s[|s| - |r|..]
    ensures AllSpace(s[..|s| - |r|])
    ensures r == [] || !IsSpace(r[0])
  {
    if |s| > 0 && IsSpace(s[0]) then
      var r := StripLeft(s[1..]);
      assert s[..|s| - |r|] == [s[0]] + s[1..][..|s| - 1 - |r|];
      r
    else
      s
  }

  /** Python's `str.rstrip()`: the prefix left after dropping trailing spaces. */
  function StripRight(s: string): (r: string)
    ensures |r| <= |s| && r == s[..|r|]
    ensures AllSpace(s[|r|..])
    ensures r == [] || !IsSpace(r[|r| - 1])
  {
    if |s| > 0 && IsSpace(s[|s| - 1]) then
      var r := StripRight(s[..|s| - 1]);
      assert s[|r|..] == s[..|s| - 1][|r|..] + [s[|s| - 1]];
      r
    else
      s
  }

  /** `r` is the slice of `s` starting at `i`, and only spaces surround it. */
  predicate Trimmed(s: string, i: int, r: string) {
    && 0 <= i && i + |r| <= |s| && r == s[i..i + |r|]
    && AllSpace(s[..i]) && AllSpace(s[i + |r|..])
  }

  /** Python's `str.strip()`: the middle part of `s` with all surrounding
      whitespace removed. */
  function Strip(s: string): (r: string)
    ensures Stripped(r)
    ensures |r| <= |s|
  {
    var l := StripLeft(s);
    var r := StripRight(l);
    assert r == [] || r[0] == l[0];
    r
  }

  /** What `strip()` returns is a slice of the string with only spaces
      before and after it. */
  lemma StripSlice(s: string)
    ensures Trimmed(s, |s| - |StripLeft(s)|, Strip(s))
  {
    StripRightOfLeft(s);
    hide *;
    TrimmedOf(s, StripLeft(s), Strip(s));
  }

  lemma StripRightOfLeft(s: string)
    ensures Strip(s) == StripRight(StripLeft(s))
  {
  }

  /** A prefix `r` of a suffix `l` of `s`, with spaces around both cuts, is
      `s` trimmed. */
  lemma TrimmedOf(s: string, l: string, r: string)
    requires |l| <= |s| && l == s[|s| - |l|..] && AllSpace(s[..|s| - |l|])
    requires |r| <= |l| && r == l[..|r|] && AllSpace(l[|r|..])
    ensures Trimmed(s, |s| - |l|, r)
  {
    hide AllSpace;
    SliceOfSuffix(s, l, r);
  }

  /** A prefix `r` of a suffix `l` of `s` is a slice of `s`. */
  lemma SliceOfSuffix<T>(s: seq<T>, l: seq<T>, r: seq<T>)
    requires |l| <= |s| && l == s[|s| - |l|..] && |r| <= |l| && r == l[..|r|]
    ensures r == s[|s| - |l|..|s| - |l| + |r|]
    ensures l[|r|..] == s[|s| - |l| + |r|..]
  {
  }

  /** Python's `s.strip().startswith("!")`. */
  predicate StartsWithBang(s: string) {
    |s| > 0 && s[0] == '!'
  }

  /** A string that starts with a non-space character keeps that character
      first once stripped. */
  lemma StripKeepsFirst(s: string)
    requires |s| > 0 && !IsSpace(s[0])
    ensures |Strip(s)| > 0 && Strip(s)[0] == s[0]
  {
    assert [] + s == s;
    StripLeftSpaces([], s);
    assert StripRight(s) != [] by {
      assert IsSpace(s[0]) || s[0..] != s[|StripRight(s)|..];
    }
  }

  /** `t` occurs in `s` at position `i`. */
  predicate OccursAt(s: string, t: string, i: nat) {
    i + |t| <= |s| && s[i..i + |t|] == t
  }

  /** Python's `t in s` for strings: substring containment. */
  function Contains(s: string, t: string): (r: bool)
    ensures r <==> exists i: nat :: OccursAt(s, t, i)
  {
    if |t| > |s| then
      assert forall i: nat :: !OccursAt(s, t, i);
      false
    else if s[..|t|] == t then
      assert OccursAt(s, t, 0);
      true
    else
      var r := Contains(s[1..], t);
      assert forall i: nat :: OccursAt(s[1..], t, i) <==> OccursAt(s, t, i + 1);
      assert r ==> exists i: nat :: OccursAt(s, t, i) by {
        if r {
          var i: nat :| OccursAt(s[1..], t, i);
          assert OccursAt(s, t, i + 1);
        }
      }
      assert (exists i: nat :: OccursAt(s, t, i)) ==> r by {
        if exists i: nat :: OccursAt(s, t, i) {
          var i: nat :| OccursAt(s, t, i);
          assert i != 0;
          assert OccursAt(s[1..], t, i - 1);
        }
      }
      r
  }

  /** `n` spaces. */
  function Spaces(n: nat): (r: string)
    ensures |r| == n && AllSpace(r)
    ensures forall i :: 0 <= i < n ==> r[i] == ' '
  {
    if n == 0 then [] else [' '] + Spaces(n - 1)
  }

  /** Python's `f"{s:<{w}}"`: `s` left-aligned in a field of width `w`,
      filled with spaces; a longer `s` is not truncated. */
  function PadRight(s: string, w: nat): (r: string)
    ensures |r| == if |s| < w then w else |s|
    ensures r[..|s|] == s
    ensures forall i :: |s| <= i < |r| ==> r[i] == ' '
  {
    if |s| < w then s + Spaces(w - |s|) else s
  }

  /** The total length of the pieces. */
  function TotalLength(parts: seq<string>): nat {
    if parts == [] then 0 else |parts[0]| + TotalLength(parts[1..])
  }

  /** Python's `sep.join(parts)`: the pieces in order, with one separator
      between each two. */
  function Join(parts: seq<string>, sep: string): (r: string)
    ensures parts != [] ==> |parts[0]| <= |r| && r[..|parts[0]|] == parts[0]
  {
    if |parts| == 0 then []
    else if |parts| == 1 then parts[0]
    else parts[0] + sep + Join(parts[1..], sep)
  }

  /** The joined string holds every piece and one separator between each
      two pieces. */
  lemma {:induction false} JoinLength(parts: seq<string>, sep: string)
    requires parts != []
    ensures |Join(parts, sep)| == TotalLength(parts) + (|parts| - 1) * |sep|
  {
    if |parts| >= 2 {
      JoinLength(parts[1..], sep);
      assert (|parts| - 1) * |sep| == (|parts| - 2) * |sep| + |sep|;
    }
  }

  /** Python's `s.split(sep)` for a one-character separator: the maximal
      separator-free pieces between occurrences of `sep`. */
  function Split(s: string, sep: char): (r: seq<string>)
    ensures |r| >= 1
    ensures forall i :: 0 <= i < |r| ==> sep !in r[i]
    ensures sep in s <==> |r| >= 2
  {
    if s == [] then [[]]
    else
      var rest := Split(s[1..], sep);
      if s[0] == sep then
        [[]] + rest
      else
        assert s == [s[0]] + s[1..];
        [[s[0]] + rest[0]] + rest[1..]
  }

  /** The pieces of a split hold only characters of the string. */
  lemma {:induction false} SplitPieceChars(s: string, sep: char, c: char)
    requires c !in s
    ensures forall i :: 0 <= i < |Split(s, sep)| ==> c !in Split(s, sep)[i]
    decreases |s|
  {
    if s != [] {
      assert s == [s[0]] + s[1..];
      SplitPieceChars(s[1..], sep, c);
    }
  }

  /** `join` undoes `split`: the pieces, glued back with the separator, are
      the original string. */
  lemma {:induction false} JoinSplit(s: string, sep: char)
    ensures Join(Split(s, sep), [sep]) == s
  {
    if s != [] {
      var rest := Split(s[1..], sep);
      JoinSplit(s[1..], sep);
      assert s == [s[0]] + s[1..];
      if s[0] != sep {
        var r := Split(s, sep);
        assert r == [[s[0]] + rest[0]] + rest[1..];
        if |rest| >= 2 {
          assert Join(rest, [sep]) == rest[0] + [sep] + Join(rest[1..], [sep]);
          assert r[1..] == rest[1..];
        }
      }
    }
  }

  lemma {:induction false} StripLeftSpaces(ws: string, y: string)
    requires AllSpace(ws)
    requires y == [] || !IsSpace(y[0])
    ensures StripLeft(ws + y) == y
  {
    if ws != [] {
      assert (ws + y)[1..] == ws[1..] + y;
      StripLeftSpaces(ws[1..], y);
    }
  }

  lemma {:induction false} StripRightSpaces(y: string, ws: string)
    requires AllSpace(ws)
    requires y == [] || !IsSpace(y[|y| - 1])
    ensures StripRight(y + ws) == y
  {
    if ws != [] {
      var ws' := ws[..|ws| - 1];
      assert (y + ws)[..|y + ws| - 1] == y + ws';
      StripRightSpaces(y, ws');
    }
  }

  /** `strip()` is characterised by its result: surrounding a stripped string
      with whitespace on either side and stripping gives it back. */
  lemma StripPadded(ws1: string, x: string, ws2: string)
    requires AllSpace(ws1) && AllSpace(ws2) && Stripped(x)
    ensures Strip(ws1 + x + ws2) == x
  {
    assert ws1 + x + ws2 == ws1 + (x + ws2);
    if x == [] {
      assert AllSpace(ws1 + ws2);
      assert ws1 + x + ws2 == (ws1 + ws2) + [];
      StripLeftSpaces(ws1 + ws2, []);
      assert StripLeft(ws1 + x + ws2) == [];
    } else {
      StripLeftSpaces(ws1, x + ws2);
      StripRightSpaces(x, ws2);
    }
  }

  /** `strip()` is idempotent: a stripped string is its own strip. */
  lemma StripStripped(x: string)
    requires Stripped(x)
    ensures Strip(x) == x
  {
    assert [] + x + [] == x;
    StripPadded([], x, []);
  }

  /** Splitting at a separator-free prefix that ends at a separator (or at
      the end of the string) yields that prefix as the first piece. */
  lemma {:induction false} SplitFirstPiece(a: string, b: string, sep: char)
    requires sep !in a
    requires b == [] || b[0] == sep
    ensures Split(a + b, sep)[0] == a
    ensures b != [] ==> Split(a + b, sep)[1..] == Split(b[1..], sep)
  {
    if a == [] {
      assert a + b == b;
      if b != [] {
        assert b == [sep] + b[1..];
      }
    } else {
      assert (a + b)[1..] == a[1..] + b;
      SplitFirstPiece(a[1..], b, sep);
    }
  }

  /** A string without the separator splits into itself alone. */
  lemma {:induction false} SplitNoSeparator(s: string, sep: char)
    requires sep !in s
    ensures Split(s, sep) == [s]
  {
    if s != [] {
      SplitNoSeparator(s[1..], sep);
      assert s[0] != sep;
      assert [s[0]] + s[1..] == s;
    }
  }

  /** `split` undoes `join` when no piece contains the separator. */
  lemma {:induction false} SplitJoin(parts: seq<string>, sep: char)
    requires |parts| >= 1
    requires forall i :: 0 <= i < |parts| ==> sep !in parts[i]
    ensures Split(Join(parts, [sep]), sep) == parts
  {
    if |parts| == 1 {
      assert parts[0] + [] == parts[0];
      SplitFirstPiece(parts[0], [], sep);
    } else {
      var rest := Join(parts[1..], [sep]);
      assert Join(parts, [sep]) == parts[0] + ([sep] + rest);
      SplitFirstPiece(parts[0], [sep] + rest, sep);
      assert ([sep] + rest)[1..] == rest;
      SplitJoin(parts[1..], sep);
      var r := Split(Join(parts, [sep]), sep);
      assert r == [r[0]] + r[1..];
    }
  }
}

=== FILE: writer.dfy ===
/**
 `MOM6InputParser.writefile_MOM_input` as a pure function: the sequence of
 strings it passes to `f.write`, in order, for a document and a column
 width. Each string is one output line with its line feed.
 */
module Writer {
  import opened Options
  import opened Text
  import opened Document
  import opened Classifier

  /** The column width the writer uses when none is given. */
  const DefaultWidth: nat := 32

  /** The fixed three-line preamble: two comment lines and a blank line.
      Each comment line is written as two literals only to keep each short. */
  const Banner: seq<string> := [
    "! This file was " + "written by the script xxx \n",
    "! and records the non-default " + "parameters used at run-time.\n",
    "\n"
  ]

  /** How an f-string renders a header key: `None` prints as `None`. */
  function HeaderText(h: Option<string>): string {
    match h
    case None => "None"
    case Some(s) => s
  }

  /** `f"{var} = {value}"`. */
  function Binding(e: Entry): string {
    e.name + " = " + e.value
  }

  /** The banner line of one header. */
  function HeaderBanner(h: Option<string>): string {
    HeaderOpen + HeaderText(h) + HeaderClose + "\n"
  }

  /** A continuation comment line: `width` spaces, one space, the stripped
      comment line. */
  function ContinuationLine(c: string, width: nat): string {
    Spaces(width) + " " + Strip(c) + "\n"
  }

  function ContinuationLines(cs: seq<string>, width: nat): (r: seq<string>)
    ensures |r| == |cs|
    ensures forall i :: 0 <= i < |cs| ==> r[i] == ContinuationLine(cs[i], width)
  {
    seq(|cs|, i requires 0 <= i < |cs| => ContinuationLine(cs[i], width))
  }

  /** The lines written for one parameter: with a comment, the binding padded
      to `width` then ` ! ` and the first comment line, and one continuation
      line per further comment line; without one, a block token bare (exact
      membership in the token list) and anything else as `name = value`. */
  function EntryLines(e: Entry, width: nat): (r: seq<string>)
    ensures |r| == if e.comment != "" then |Split(e.comment, '\n')| else 1
    ensures e.comment == "" && e.name in BlockList ==> r == [e.name + "\n"]
    ensures e.comment == "" && e.name !in BlockList ==> r == [Binding(e) + "\n"]
  {
    if e.comment != "" then
      var cs := Split(e.comment, '\n');
      [PadRight(Binding(e), width) + " ! " + Strip(cs[0]) + "\n"] + ContinuationLines(cs[1..], width)
    else if e.name in BlockList then
      [e.name + "\n"]
    else
      [Binding(e) + "\n"]
  }

  function EntriesLines(es: seq<Entry>, width: nat): seq<string> {
    if es == [] then [] else EntryLines(es[0], width) + EntriesLines(es[1..], width)
  }

  /** One header: its banner, its parameters in order, a blank line. */
  function SectionLines(s: Section, width: nat): seq<string> {
    [HeaderBanner(s.header)] + EntriesLines(s.entries, width) + ["\n"]
  }

  function SectionsLines(d: Doc, width: nat): (r: seq<string>)
    ensures |r| >= 2 * |d|
  {
    if d == [] then [] else SectionLines(d[0], width) + SectionsLines(d[1..], width)
  }

  /** Everything `writefile_MOM_input(path, width)` writes, in order. */
  function Write(d: Doc, width: nat): (r: seq<string>)
    ensures |r| >= |Banner| + 2 * |d|
    ensures r[..|Banner|] == Banner
  {
    Banner + SectionsLines(d, width)
  }

  lemma EntriesLinesOne(e: Entry, width: nat)
    ensures EntriesLines([e], width) == EntryLines(e, width)
  {
    assert [e][1..] == [];
    assert EntryLines(e, width) + [] == EntryLines(e, width);
  }

  lemma SectionsLinesOne(s: Section, width: nat)
    ensures SectionsLines([s], width) == SectionLines(s, width)
  {
    assert [s][1..] == [];
    assert SectionLines(s, width) + [] == SectionLines(s, width);
  }

  /** The first line written for a commented parameter. */
  function FirstCommentLine(e: Entry, width: nat): string
    requires e.comment != ""
  {
    PadRight(Binding(e), width) + " ! " + Strip(Split(e.comment, '\n')[0]) + "\n"
  }

  lemma CommentedEntryLines(e: Entry, width: nat)
    requires e.comment != ""
    ensures EntryLines(e, width)
      == [FirstCommentLine(e, width)] + ContinuationLines(Split(e.comment, '\n')[1..], width)
  {
  }

  lemma SpacesSnoc(n: nat)
    ensures Spaces(n) + " " == Spaces(n + 1)
  {
  }

  lemma PaddedField(b: string, p: string, t: string, width: nat)
    requires |b| <= width && p == PadRight(b, width)
    ensures (p + t)[..|b|] == b
    ensures AllSpace((p + t)[|b|..width])
    ensures (p + t)[width..] == t
  {
    assert (p + t)[..|b|] == p[..|b|];
    assert (p + t)[|b|..width] == p[|b|..width];
  }

  /** The inline `!` of every commented parameter sits at the same column,
      `width`, whenever the binding fits in the field. */
  lemma CommentColumn(e: Entry, width: nat)
    requires e.comment != "" && |Binding(e)| <= width
    ensures EntryLines(e, width)[0][..|Binding(e)|] == Binding(e)
    ensures AllSpace(EntryLines(e, width)[0][|Binding(e)|..width])
    ensures EntryLines(e, width)[0][width..] == " ! " + Strip(Split(e.comment, '\n')[0]) + "\n"
  {
    hide EntryLines, PadRight, Split, Strip, Binding, ContinuationLines;
    CommentedEntryLines(e, width);
    var t := " ! " + Strip(Split(e.comment, '\n')[0]) + "\n";
    assert FirstCommentLine(e, width) == PadRight(Binding(e), width) + t;
    PaddedField(Binding(e), PadRight(Binding(e), width), t, width);
  }

  /** Continuation lines start with `width + 1` spaces, so their text
      begins one column after the inline `!`. */
  lemma ContinuationIndent(e: Entry, width: nat, k: nat)
    requires e.comment != "" && 1 <= k < |Split(e.comment, '\n')|
    ensures EntryLines(e, width)[k] == Spaces(width + 1) + Strip(Split(e.comment, '\n')[k]) + "\n"
  {
    var cs := Split(e.comment, '\n');
    var r := EntryLines(e, width);
    ContinuationAt(e, width, k);
    assert r[k] == ContinuationLine(cs[k], width);
    SpacesSnoc(width);
  }

  lemma ContinuationAt(e: Entry, width: nat, k: nat)
    requires e.comment != "" && 1 <= k < |Split(e.comment, '\n')|
    ensures EntryLines(e, width)[k] == ContinuationLine(Split(e.comment, '\n')[k], width)
  {
    var cs := Split(e.comment, '\n');
    CommentedEntryLines(e, width);
    var rest := ContinuationLines(cs[1..], width);
    assert EntryLines(e, width)[1..] == rest;
    assert rest[k - 1] == ContinuationLine(cs[k], width);
  }

  /** Text that a file opened in text mode reads as part of one line:
      universal newlines end a line at a line feed and also at a carriage
      return. */
  predicate Unbroken(s: string) {
    '\n' !in s && '\r' !in s
  }

  /** A line of a file as `readlines` returns it: it ends with its line
      feed and holds no other line break. */
  predicate OneLine(l: string) {
    |l| > 0 && l[|l| - 1] == '\n' && Unbroken(l[..|l| - 1])
  }

  predicate AllOneLine(ls: seq<string>) {
    forall i :: 0 <= i < |ls| ==> OneLine(ls[i])
  }

  /** Neither the name nor the value of a parameter holds a line break,
      and its comment holds no carriage return (the writer splits the
      comment at its line feeds). */
  predicate EntryNoLineBreaks(e: Entry) {
    Unbroken(e.name) && Unbroken(e.value) && '\r' !in e.comment
  }

  /** No header text, name or value of the document holds a line break, and
      no comment a carriage return. */
  predicate NoLineBreaks(d: Doc) {
    forall i :: 0 <= i < |d| ==> SectionNoLineBreaks(d[i])
  }

  predicate SectionNoLineBreaks(s: Section) {
    && Unbroken(HeaderText(s.header))
    && forall j :: 0 <= j < |s.entries| ==> EntryNoLineBreaks(s.entries[j])
  }

  lemma LineOf(s: string)
    requires Unbroken(s)
    ensures OneLine(s + "\n")
  {
    assert (s + "\n")[..|s|] == s;
  }

  lemma AllOneLineAppend(a: seq<string>, b: seq<string>)
    requires AllOneLine(a) && AllOneLine(b)
    ensures AllOneLine(a + b)
  {
    forall i | 0 <= i < |a + b| ensures OneLine((a + b)[i]) {
      if i >= |a| {
        assert (a + b)[i] == b[i - |a|];
      }
    }
  }

  /** Stripping takes a slice, so it adds no line break. */
  lemma StripUnbroken(s: string)
    requires Unbroken(s)
    ensures Unbroken(Strip(s))
  {
    StripSlice(s);
    var r := Strip(s);
    var i := |s| - |StripLeft(s)|;
    forall k | 0 <= k < |r| ensures r[k] != '\n' && r[k] != '\r' {
      assert r[k] == s[i + k];
    }
  }

  /** Padding adds only spaces. */
  lemma PadUnbroken(s: string, w: nat)
    requires Unbroken(s)
    ensures Unbroken(PadRight(s, w))
  {
    var r := PadRight(s, w);
    forall k | 0 <= k < |r| ensures r[k] != '\n' && r[k] != '\r' {
      if k < |s| {
        assert r[k] == r[..|s|][k];
      }
    }
  }

  /** Every string written for a parameter is one line: the comment is
      split at its line feeds, and nothing else written holds a line
      break. */
  lemma EntryLinesOneLine(e: Entry, width: nat)
    requires EntryNoLineBreaks(e)
    ensures AllOneLine(EntryLines(e, width))
  {
    var b := Binding(e);
    assert Unbroken(b);
    if e.comment != "" {
      var cs := Split(e.comment, '\n');
      SplitPieceChars(e.comment, '\n', '\r');
      var r := EntryLines(e, width);
      CommentedEntryLines(e, width);
      PadUnbroken(b, width);
      StripUnbroken(cs[0]);
      LineOf(PadRight(b, width) + " ! " + Strip(cs[0]));
      forall k | 0 <= k < |r| ensures OneLine(r[k]) {
        if k > 0 {
          ContinuationAt(e, width, k);
          StripUnbroken(cs[k]);
          LineOf(Spaces(width) + " " + Strip(cs[k]));
        }
      }
    } else if e.name in BlockList {
      LineOf(e.name);
    } else {
      LineOf(b);
    }
  }

  lemma {:induction false} EntriesLinesOneLine(es: seq<Entry>, width: nat)
    requires forall j :: 0 <= j < |es| ==> EntryNoLineBreaks(es[j])
    ensures AllOneLine(EntriesLines(es, width))
    decreases |es|
  {
    if es != [] {
      EntryLinesOneLine(es[0], width);
      EntriesLinesOneLine(es[1..], width);
      AllOneLineAppend(EntryLines(es[0], width), EntriesLines(es[1..], width));
    }
  }

  lemma {:induction false} SectionsLinesOneLine(d: Doc, width: nat)
    requires NoLineBreaks(d)
    ensures AllOneLine(SectionsLines(d, width))
    decreases |d|
  {
    if d != [] {
      var s := d[0];
      assert SectionNoLineBreaks(s);
      LineOf(HeaderOpen + HeaderText(s.header) + HeaderClose);
      LineOf("");
      EntriesLinesOneLine(s.entries, width);
      AllOneLineAppend([HeaderBanner(s.header)], EntriesLines(s.entries, width));
      AllOneLineAppend([HeaderBanner(s.header)] + EntriesLines(s.entries, width), ["\n"]);
      assert NoLineBreaks(d[1..]) by {
        forall i | 0 <= i < |d[1..]| ensures SectionNoLineBreaks(d[1..][i]) {
          assert d[1..][i] == d[i + 1];
        }
      }
      SectionsLinesOneLine(d[1..], width);
      AllOneLineAppend(SectionLines(s, width), SectionsLines(d[1..], width));
    }
  }

  /** Every string the writer passes to `f.write` is one line, so a file
      written this way and read with `readlines` gives back exactly these
      strings, when no header, name or value holds a line break and no
      comment a carriage return. */
  lemma WriteLines(d: Doc, width: nat)
    requires NoLineBreaks(d)
    ensures AllOneLine(Write(d, width))
  {
    BannerLines();
    SectionsLinesOneLine(d, width);
    hide *;
    AllOneLineAppend(Banner, SectionsLines(d, width));
  }

  /** The preamble is three lines. */
  lemma BannerLines()
    ensures AllOneLine(Banner)
  {
    FirstBannerLine();
    SecondBannerLine();
    assert OneLine(Banner[2]);
  }

  lemma FirstBannerLine()
    ensures OneLine(Banner[0])
  {
    FirstBannerHalves();
    UnbrokenAppend("! This file was ", "written by the script xxx ");
    LineOf("! This file was " + "written by the script xxx ");
  }

  lemma SecondBannerLine()
    ensures OneLine(Banner[1])
  {
    SecondBannerHalves();
    UnbrokenAppend("! and records the non-default ", "parameters used at run-time.");
    LineOf("! and records the non-default " + "parameters used at run-time.");
  }

  // The preamble's text is checked in short pieces, since the solver
  // inspects a literal one character at a time.

  lemma FirstBannerHalves()
    ensures Unbroken("! This file was ") && Unbroken("written by the script xxx ")
  {
    FirstBannerHead();
    FirstBannerTail();
  }

  lemma FirstBannerHead()
    ensures Unbroken("! This file was ")
  {
  }

  lemma FirstBannerTail()
    ensures Unbroken("written by the script xxx ")
  {
  }

  lemma SecondBannerHalves()
    ensures Unbroken("! and records the non-default ")
    ensures Unbroken("parameters used at run-time.")
  {
    SecondBannerHead();
    SecondBannerTail();
  }

  lemma SecondBannerHead()
    ensures Unbroken("! and records the non-default ")
  {
  }

  lemma SecondBannerTail()
    ensures Unbroken("parameters used at run-time.")
  {
  }

  lemma UnbrokenAppend(a: string, b: string)
    requires Unbroken(a) && Unbroken(b)
    ensures Unbroken(a + b)
  {
  }
}

=== FILE: written.dfy ===
/**
 How `parse_lines` classifies the lines `writefile_MOM_input` writes, for
 documents whose keys and values survive the trip through a line: headers,
 names, values and comment lines have no surrounding whitespace, headers,
 names and values hold no line break (a line feed or a carriage return,
 both of which end a line when the file is read in text mode), comments
 hold no carriage return, names have no `=` and do not start with `!`, values have no `!`, a
 comment's first line has no `!` and every further comment line starts
 with `!`, and a bare block token carries no value.
 */
module Written {
  import opened Options
  import opened Text
  import opened Document
  import opened Classifier
  import opened Parser
  import opened Writer

  predicate SafeHeader(h: string) {
    h != "" && Stripped(h) && Unbroken(h)
  }

  predicate SafeName(n: string) {
    n != "" && Stripped(n) && '=' !in n && Unbroken(n) && n[0] != '!'
  }

  predicate SafeValue(v: string) {
    Stripped(v) && '!' !in v && Unbroken(v)
  }

  /** A continuation comment line: a stripped `!` line. */
  predicate SafeContinuation(c: string) {
    Stripped(c) && StartsWithBang(c)
  }

  /** A comment the writer can lay out and the parser can reassemble: free
      of carriage returns, and empty, or stripped with a first line free of
      `!` and further lines that are themselves comment lines. */
  predicate SafeComment(c: string) {
    && '\r' !in c
    && (c == "" ||
        (Stripped(c)
         && var ls := Split(c, '\n');
         && ls[0] != "" && Stripped(ls[0]) && '!' !in ls[0]
         && forall i :: 1 <= i < |ls| ==> SafeContinuation(ls[i])))
  }

  predicate SafeEntry(e: Entry) {
    && SafeName(e.name) && SafeValue(e.value) && SafeComment(e.comment)
    && (e.comment == "" && e.name in BlockList ==> e.value == "")
  }

  predicate SafeSection(s: Section) {
    && s.header.Some? && SafeHeader(s.header.value)
    && forall j :: 0 <= j < |s.entries| ==> SafeEntry(s.entries[j])
  }

  predicate SafeDoc(d: Doc) {
    WellFormed(d) && forall i :: 0 <= i < |d| ==> SafeSection(d[i])
  }

  /** The comment fragments the parser collects for an entry's lines. */
  function Fragments(e: Entry): seq<string> {
    if e.comment == "" then [""] else Split(e.comment, '\n')
  }

  /** A preamble line: a `!` line that is not a banner is a comment. */
  lemma PreambleComment(line: string)
    requires |line| > 2 && line[0] == '!' && line[2] != '='
    ensures Classify(line) == Comment(Strip(line))
  {
    NotBannerThird(line);
    StripKeepsFirst(line);
    CommentLine(line);
  }

  /** Comment-only and unrecognised lines leave a state with nothing
      pending as it is. */
  lemma {:induction false} InertRun(st: State, ks: seq<LineKind>)
    requires !Pending(st)
    requires forall i :: 0 <= i < |ks| ==> ks[i].Comment? || ks[i].Unrecognized?
    ensures RunKinds(st, ks) == st
    decreases |ks|
  {
    if ks != [] {
      assert Apply(st, ks[0]) == st;
      InertRun(st, ks[1..]);
    }
  }

  /** Two `!` lines that are not banners, then a blank line. */
  lemma CommentsThenBlankKinds(ls: seq<string>)
    requires |ls| == 3 && AllSpace(ls[2])
    requires |ls[0]| > 2 && ls[0][0] == '!' && ls[0][2] != '='
    requires |ls[1]| > 2 && ls[1][0] == '!' && ls[1][2] != '='
    ensures Kinds(ls) == [Comment(Strip(ls[0])), Comment(Strip(ls[1])), Unrecognized]
  {
    hide *;
    var ks := [Comment(Strip(ls[0])), Comment(Strip(ls[1])), Unrecognized];
    forall i | 0 <= i < 3 ensures Classify(ls[i]) == ks[i] {
      if i < 2 {
        PreambleComment(ls[i]);
      } else {
        BlankLine(ls[i]);
      }
    }
    KindsPointwise(ls, ks);
  }

  lemma InertThree(a: string, b: string)
    ensures RunKinds(Init, [Comment(a), Comment(b), Unrecognized]) == Init
  {
    InertRun(Init, [Comment(a), Comment(b), Unrecognized]);
  }

  /** Two comments and a blank line change nothing. */
  lemma CommentsThenBlank(ls: seq<string>)
    requires |ls| == 3 && AllSpace(ls[2])
    requires |ls[0]| > 2 && ls[0][0] == '!' && ls[0][2] != '='
    requires |ls[1]| > 2 && ls[1][0] == '!' && ls[1][2] != '='
    ensures RunKinds(Init, Kinds(ls)) == Init
  {
    CommentsThenBlankKinds(ls);
    InertThree(Strip(ls[0]), Strip(ls[1]));
  }

  /** The preamble is read as two comments and a blank line, before any
      parameter, so reading it changes nothing. */
  lemma PreambleInert()
    ensures RunKinds(Init, Kinds(Banner)) == Init
  {
    var l0 := "! This file was " + "written by the script xxx \n";
    var l1 := "! and records the non-default " + "parameters used at run-time.\n";
    assert Banner == [l0, l1, "\n"];
    assert l0[0] == '!' && l0[2] == 'T';
    assert l1[0] == '!' && l1[2] == 'a';
    CommentsThenBlank(Banner);
  }

  /** A header banner is read back as its header. */
  lemma HeaderBannerLine(h: string)
    requires SafeHeader(h)
    ensures Classify(HeaderBanner(Some(h))) == Header(h)
  {
    HeaderLine(HeaderBanner(Some(h)), h, "\n");
    StripStripped(h);
  }

  /** A continuation line is read back as a comment line with its text. */
  lemma ContinuationComment(c: string, width: nat)
    requires SafeContinuation(c)
    ensures Classify(ContinuationLine(c, width)) == Comment(c)
  {
    hide Classify, HeaderCapture, Strip, Split, Join, StripLeft, StripRight, Spaces;
    var line := ContinuationLine(c, width);
    var ws := Spaces(width) + " ";
    StripStripped(c);
    assert line == ws + c + "\n";
    StripPadded(ws, c, "\n");
    assert line[0] == ' ';
    NoBangNoHeader(line);
    CommentLine(line);
  }

  /** The binding of a parameter, padded, is `NAME = VALUE` and spaces. */
  lemma PadSplit(b: string, width: nat) returns (pad: string)
    ensures PadRight(b, width) == b + pad && AllSpace(pad)
  {
    var p := PadRight(b, width);
    pad := p[|b|..];
    assert p == p[..|b|] + pad;
  }

  /** A line that starts with a safe name is neither a banner nor a comment. */
  lemma NameFirst(line: string, n: string)
    requires SafeName(n) && |line| >= |n| && line[..|n|] == n
    ensures !StartsWithBang(Strip(line))
  {
    assert line[0] == n[0];
    StripKeepsFirst(line);
  }

  /** `strip()` removes exactly the padding around the fields of a written
      parameter line. */
  lemma NameSpaceStrips(n: string)
    requires Stripped(n)
    ensures Strip(n + " ") == n
  {
    assert [] + n + " " == n + " ";
    StripPadded([], n, " ");
  }

  lemma NameLineStrips(n: string)
    requires Stripped(n)
    ensures Strip(n + "\n") == n
  {
    assert [] + n + "\n" == n + "\n";
    StripPadded([], n, "\n");
  }

  lemma ValueLineStrips(v: string)
    requires Stripped(v)
    ensures Strip(" " + v + "\n") == v
  {
    StripPadded(" ", v, "\n");
  }

  lemma ValuePadStrips(v: string, pad: string)
    requires Stripped(v) && AllSpace(pad)
    ensures Strip(" " + v + (pad + " ")) == v
  {
    assert AllSpace(pad + " ");
    StripPadded(" ", v, pad + " ");
  }

  /** How the first line of a commented parameter splits into the pieces
      the classifier's assignment lemma takes. */
  lemma CommentedShape(line: string, n: string, v: string, pad: string, c0: string)
    requires line == n + " = " + v + pad + " ! " + c0 + "\n"
    requires '=' !in n && '!' !in v && AllSpace(pad) && '!' !in c0
    ensures line == (n + " ") + "=" + (" " + v + (pad + " ")) + "!" + (" " + c0 + "\n") + []
    ensures '=' !in n + " " && '!' !in " " + v + (pad + " ") && '!' !in " " + c0 + "\n"
    ensures |line| >= |n| && line[..|n|] == n
  {
  }

  lemma PlainShape(line: string, n: string, v: string)
    requires line == n + " = " + v + "\n"
    requires '=' !in n && '!' !in v
    ensures line == (n + " ") + "=" + (" " + v + "\n")
    ensures '=' !in n + " " && '!' !in " " + v + "\n"
    ensures |line| >= |n| && line[..|n|] == n
  {
  }

  lemma BareShape(line: string, n: string)
    requires line == n + "\n" && '=' !in n
    ensures Contains(line, n) && '=' !in line
    ensures |line| >= |n| && line[..|n|] == n
  {
    assert OccursAt(line, n, 0);
  }

  /** The first line of a commented parameter is an assignment of its name,
      its value and its first comment line. */
  lemma CommentedFirstLine(e: Entry, width: nat)
    requires SafeEntry(e) && e.comment != ""
    ensures Classify(EntryLines(e, width)[0]) == Assignment(e.name, e.value, Split(e.comment, '\n')[0])
  {
    var n := e.name;
    var c0 := Split(e.comment, '\n')[0];
    var line := FirstCommentLine(e, width);
    CommentedEntryLines(e, width);
    var pad := PadSplit(Binding(e), width);
    StripStripped(c0);
    assert line == n + " = " + e.value + pad + " ! " + c0 + "\n";
    CommentedShape(line, n, e.value, pad, c0);
    NameFirst(line, n);
    AssignmentLine(line, n + " ", " " + e.value + (pad + " "), " " + c0 + "\n", []);
    NameSpaceStrips(n);
    ValuePadStrips(e.value, pad);
    ValueLineStrips(c0);
  }

  /** The line of an uncommented parameter is an assignment with an empty
      inline comment. */
  lemma PlainLine(e: Entry)
    requires SafeEntry(e) && e.comment == "" && e.name !in BlockList
    ensures Classify(Binding(e) + "\n") == Assignment(e.name, e.value, "")
  {
    var line := Binding(e) + "\n";
    PlainShape(line, e.name, e.value);
    NameFirst(line, e.name);
    AssignmentLineNoComment(line, e.name + " ", " " + e.value + "\n");
    NameSpaceStrips(e.name);
    ValueLineStrips(e.value);
  }

  /** A bare block token is read back as a block marker. */
  lemma BareBlockLine(e: Entry)
    requires SafeEntry(e) && e.comment == "" && e.name in BlockList
    ensures Classify(e.name + "\n") == BlockMarker(e.name)
  {
    var line := e.name + "\n";
    BareShape(line, e.name);
    NameFirst(line, e.name);
    BlockLine(line, e.name);
    NameLineStrips(e.name);
  }

  /** The kinds of a run of comment lines. */
  function Comments(cs: seq<string>): (ks: seq<LineKind>)
    ensures |ks| == |cs|
    ensures forall i :: 0 <= i < |cs| ==> ks[i] == Comment(cs[i])
  {
    seq(|cs|, i requires 0 <= i < |cs| => Comment(cs[i]))
  }

  /** How the parser reads back the lines written for one parameter. */
  function EntryKinds(e: Entry): seq<LineKind> {
    if e.comment != "" then
      var cs := Split(e.comment, '\n');
      [Assignment(e.name, e.value, cs[0])] + Comments(cs[1..])
    else if e.name in BlockList then [BlockMarker(e.name)]
    else [Assignment(e.name, e.value, "")]
  }

  /** A further comment line of a parameter is read back as that line. */
  lemma ContinuationKind(e: Entry, width: nat, k: nat)
    requires SafeEntry(e) && e.comment != "" && 1 <= k < |Split(e.comment, '\n')|
    ensures Classify(EntryLines(e, width)[k]) == Comment(Split(e.comment, '\n')[k])
  {
    var cs := Split(e.comment, '\n');
    assert SafeContinuation(cs[k]);
    ContinuationAt(e, width, k);
    ContinuationComment(cs[k], width);
  }

  /** Continuation lines are read back as comment lines carrying their
      texts. */
  lemma ContinuationKinds(cs: seq<string>, width: nat)
    requires forall i :: 0 <= i < |cs| ==> SafeContinuation(cs[i])
    ensures Kinds(ContinuationLines(cs, width)) == Comments(cs)
  {
    var ls := ContinuationLines(cs, width);
    forall i | 0 <= i < |ls| ensures Classify(ls[i]) == Comments(cs)[i] {
      ContinuationComment(cs[i], width);
    }
    KindsPointwise(ls, Comments(cs));
  }

  lemma CommentedKinds(e: Entry, width: nat)
    requires SafeEntry(e) && e.comment != ""
    ensures Kinds(EntryLines(e, width)) == EntryKinds(e)
  {
    var cs := Split(e.comment, '\n');
    var first := FirstCommentLine(e, width);
    var rest := ContinuationLines(cs[1..], width);
    CommentedEntryLines(e, width);
    KindsAppend([first], rest);
    CommentedFirstLine(e, width);
    KindsSingle(first, Assignment(e.name, e.value, cs[0]));
    ContinuationKinds(cs[1..], width);
  }

  lemma PlainKinds(e: Entry, width: nat)
    requires SafeEntry(e) && e.comment == "" && e.name !in BlockList
    ensures Kinds(EntryLines(e, width)) == EntryKinds(e)
  {
    PlainLine(e);
    KindsSingle(Binding(e) + "\n", Assignment(e.name, e.value, ""));
  }

  lemma BareKinds(e: Entry, width: nat)
    requires SafeEntry(e) && e.comment == "" && e.name in BlockList
    ensures Kinds(EntryLines(e, width)) == EntryKinds(e)
  {
    BareBlockLine(e);
    KindsSingle(e.name + "\n", BlockMarker(e.name));
  }

  /** The lines written for a parameter are read back as `EntryKinds`. */
  lemma EntryKindsOf(e: Entry, width: nat)
    requires SafeEntry(e)
    ensures Kinds(EntryLines(e, width)) == EntryKinds(e)
  {
    if e.comment != "" {
      CommentedKinds(e, width);
    } else if e.name in BlockList {
      BareKinds(e, width);
    } else {
      PlainKinds(e, width);
    }
  }

  function EntriesKinds(es: seq<Entry>): seq<LineKind> {
    if es == [] then [] else EntryKinds(es[0]) + EntriesKinds(es[1..])
  }

  /** How the parser reads back the lines written for one header. */
  function SectionKinds(s: Section): seq<LineKind> {
    [Header(HeaderText(s.header))] + EntriesKinds(s.entries) + [Unrecognized]
  }

  function SectionsKinds(d: Doc): seq<LineKind> {
    if d == [] then [] else SectionKinds(d[0]) + SectionsKinds(d[1..])
  }

  lemma {:induction false} EntriesKindsOf(es: seq<Entry>, width: nat)
    requires forall j :: 0 <= j < |es| ==> SafeEntry(es[j])
    ensures Kinds(EntriesLines(es, width)) == EntriesKinds(es)
    decreases |es|
  {
    if es != [] {
      KindsAppend(EntryLines(es[0], width), EntriesLines(es[1..], width));
      EntryKindsOf(es[0], width);
      EntriesKindsOf(es[1..], width);
    }
  }

  lemma BlankKinds()
    ensures Kinds(["\n"]) == [Unrecognized]
  {
    BlankLine("\n");
    KindsSingle("\n", Unrecognized);
  }

  lemma BannerKinds(h: string)
    requires SafeHeader(h)
    ensures Kinds([HeaderBanner(Some(h))]) == [Header(h)]
  {
    HeaderBannerLine(h);
    KindsSingle(HeaderBanner(Some(h)), Header(h));
  }

  /** The lines written for a header are read back as `SectionKinds`. */
  lemma SectionKindsOf(s: Section, width: nat)
    requires SafeSection(s)
    ensures Kinds(SectionLines(s, width)) == SectionKinds(s)
  {
    var b := [HeaderBanner(s.header)];
    var m := EntriesLines(s.entries, width);
    assert SectionLines(s, width) == b + (m + ["\n"]);
    KindsAppend(b, m + ["\n"]);
    KindsAppend(m, ["\n"]);
    BannerKinds(s.header.value);
    EntriesKindsOf(s.entries, width);
    BlankKinds();
  }

  lemma {:induction false} SectionsKindsOf(d: Doc, width: nat)
    requires forall i :: 0 <= i < |d| ==> SafeSection(d[i])
    ensures Kinds(SectionsLines(d, width)) == SectionsKinds(d)
    decreases |d|
  {
    if d != [] {
      KindsAppend(SectionLines(d[0], width), SectionsLines(d[1..], width));
      SectionKindsOf(d[0], width);
      SectionsKindsOf(d[1..], width);
    }
  }

  /** Everything the writer writes is read back as the preamble's kinds
      followed by each header's. */
  lemma WriteKinds(d: Doc, width: nat)
    requires forall i :: 0 <= i < |d| ==> SafeSection(d[i])
    ensures Kinds(Write(d, width)) == Kinds(Banner) + SectionsKinds(d)
  {
    KindsAppend(Banner, SectionsLines(d, width));
    SectionsKindsOf(d, width);
  }

  /** The strings written for a safe document are the lines a reader gets
      back from the file in text mode: each ends with its line feed and
      holds no other line feed and no carriage return. */
  lemma SafeWriteLines(d: Doc, width: nat)
    requires SafeDoc(d)
    ensures AllOneLine(Write(d, width))
  {
    forall i | 0 <= i < |d| ensures SectionNoLineBreaks(d[i]) {
      assert SafeSection(d[i]);
      forall j | 0 <= j < |d[i].entries| ensures EntryNoLineBreaks(d[i].entries[j]) {
        assert SafeEntry(d[i].entries[j]);
      }
    }
    WriteLines(d, width);
  }
}
